=== FILE: README.md ===
# nofrixion.business dashboard core, modelled in Dafny

This project models the in-memory logic of the NoFrixion business
dashboard: a React front end over a payments API. The HTTP plumbing and
the rendering are left out. What remains is the logic behind the screens:

- the payrun selection page: invoices grouped by currency and contact,
  the contact and invoice switches, totals and balances, the change set
  against the saved state, the authorisation request and the payment-date
  rules;
- the IBAN check (ISO 13616 check digits, ISO/IEC 7064 MOD 97-10) and the
  invoice CSV schema;
- the payout form's validators and its `handleValidation` pass;
- the page-size, auto-suggestion and connected-bank lists kept in local
  storage;
- the pager;
- the two-level table sort, and the header's direction cycle;
- the rules of the payment request rows, the details tabs, the column
  picker, the invoice import dialog and its rows, the capture dialog, the
  custom modal's apply/dismiss snapshot, and the payout dashboard.

JavaScript values are written out explicitly:

- A number is `JsNum = NaN | Num(int)`. Comparisons with NaN are false, and
  0 and NaN are falsy.
- Amounts are integers in minor units, except the invoice schema's
  `TotalAmount` and `OutstandingAmount`, which are whole numbers of the
  CSV cell's own unit.
- Times are integers in milliseconds. A day is 86 400 000 ms, and
  `startOfDay(t)` is `t - t % DayMs`.
- An object used as a dictionary is a sequence of (key, value) pairs in
  insertion order (module `AssocList`). JavaScript lists integer-like keys
  first, in ascending numeric order; the model does not (see "Left out").
- `undefined` is `Option.None`.

Component state updated by handlers becomes a Dafny `class` whose fields
the handler methods change: `PayrunPage`, `Pager`, `SavePayoutModal`,
`ImportInvoiceModal`, `CaptureDialog`, `Dialog`, `Dashboard`, `Row` and
`Column`. Loops in the source become methods with loop invariants, proved
against a specification function:

- `GroupInvoices`, `InitialSelection` and `SelectionEffect`;
- `ValidateIban` (through `Expand`), `Checksum` and `ValidateInvoices`;
- `AddAutoSuggestions` and `ExpandBanks`.

`SetPageSizeForTable`, `AddAutoSuggestion` and `GetTemplateColumns` update
or build arrays without a loop; they are methods whose results are proved
equal to a specification function.

Expression-only code becomes functions and lemmas. Each React handler is
one sequential step on the current state. The current time, the e-mail
test of the schema library and the CSV parser's result are parameters.

## Model

| member | source | states |
|---|---|---|
| PayrunDetails.GroupInvoices | packages/components/src/components/ui/pages/PayrunDetails/PayrunDetails.tsx:79-99 | the in-place `reduce` builds exactly the grouped state `Grouped(xs)`, and that state meets the selection invariant |
| PayrunDetails.PushInvoice | packages/components/src/components/ui/pages/PayrunDetails/PayrunDetails.tsx:80-98 | one iteration of the `reduce` (create the currency entry, create the contact group enabled with no invoices, push the invoice enabled) yields `AddInvoice(s0, x)`, the step whose fold `Grouped` puts every invoice, in order, in its own group and nowhere else (`GroupedLookup`) |
| PayrunDetails.AddInvoiceSteps | packages/components/src/components/ui/pages/PayrunDetails/PayrunDetails.tsx:81-95 | the three in-place assignments of one `reduce` iteration amount to adding the invoice to the end of its (currency, contact) group, creating the group when missing |
| PayrunState.GroupedLookup | packages/components/src/components/ui/pages/PayrunDetails/PayrunDetails.tsx:79-99 | the group at (currency, contact) exists iff some invoice has that currency and contact; it is enabled and holds exactly those invoices, in input order, each enabled; an empty list gives no groups |
| PayrunState.GroupedFresh | packages/components/src/components/ui/pages/PayrunDetails/PayrunDetails.tsx:79-99 | the grouped state has unique keys at both levels, and every group is enabled, non-empty and has every invoice enabled |
| PayrunState.GroupedConsistent | packages/components/src/components/ui/pages/PayrunDetails/PayrunDetails.tsx:79-99 | the grouped state satisfies "every group has an invoice and an enabled group has an enabled invoice" |
| PayrunState.SetGroupEffect | packages/components/src/components/ui/pages/PayrunDetails/PayrunDetails.tsx:388-397 | the nested spread update replaces exactly one group and keeps every other group and the currency order |
| PayrunState.SetGroupConsistent | packages/components/src/components/ui/pages/PayrunDetails/PayrunDetails.tsx:388-397 | replacing a group by a consistent group keeps the whole state consistent |
| PayrunState.EnableAll | packages/components/src/components/ui/pages/PayrunDetails/PayrunDetails.tsx:399-417 | every invoice becomes enabled; nothing else about the invoices changes |
| PayrunState.SwitchedContact | packages/components/src/components/ui/pages/PayrunDetails/PayrunDetails.tsx:387-418 | the group flag becomes the new value; when a group is switched on with every invoice off, all invoices are enabled; otherwise the invoices are untouched |
| PayrunState.ToggleContact | packages/components/src/components/ui/pages/PayrunDetails/PayrunDetails.tsx:387-418 | `onCurrencySwitchChange` as an update of the state: the group at (currency, contact) becomes `SwitchedContact` of it; what that changes and keeps is proved in `ToggleContactEffect`, `ToggleContactConsistent` and `ToggleContactSameGroups` |
| PayrunState.ToggleContactEffect | packages/components/src/components/ui/pages/PayrunDetails/PayrunDetails.tsx:387-418 | the contact switch changes only its own group, as `SwitchedContact` says; every other group and every currency key is unchanged |
| PayrunState.ToggleContactConsistent | packages/components/src/components/ui/pages/PayrunDetails/PayrunDetails.tsx:387-418 | the contact switch preserves the selection invariant |
| PayrunState.ToggleContactOffOn | packages/components/src/components/ui/pages/PayrunDetails/PayrunDetails.tsx:387-418 | switching an enabled group off and then on restores the state exactly, with every invoice flag as before |
| PayrunState.SetEnabled | packages/components/src/components/ui/pages/PayrunDetails/PayrunDetails.tsx:529-539 | only the invoices with that id change their flag, to the new value; order and invoices are kept |
| PayrunState.SwitchedInvoice | packages/components/src/components/ui/pages/PayrunDetails/PayrunDetails.tsx:509-544 | the group flag becomes "some other invoice of the group is enabled", whatever the new value is; only the switched invoice's flag changes |
| PayrunState.ToggleInvoice | packages/components/src/components/ui/pages/PayrunDetails/PayrunDetails.tsx:509-544 | `onInvoiceSwitchChange` as an update of the state: the group at (currency, contact) becomes `SwitchedInvoice` of it; what that changes and keeps is proved in `ToggleInvoiceEffect`, `ToggleInvoiceConsistent` and `ToggleInvoiceSameGroups` |
| PayrunState.ToggleInvoiceEffect | packages/components/src/components/ui/pages/PayrunDetails/PayrunDetails.tsx:509-544 | the invoice switch changes only its own group, as `SwitchedInvoice` says; every other group and every key is unchanged |
| PayrunState.ToggleInvoiceConsistent | packages/components/src/components/ui/pages/PayrunDetails/PayrunDetails.tsx:509-544 | the invoice switch preserves the selection invariant |
| PayrunState.ToggleInvoiceChanges | packages/components/src/components/ui/pages/PayrunDetails/PayrunDetails.tsx:509-544 | switching an invoice to a flag it does not have always changes the state |
| PayrunState.ToggleContactSameGroups | packages/components/src/components/ui/pages/PayrunDetails/PayrunDetails.tsx:387-418 | the contact switch keeps the set of (currency, contact) groups |
| PayrunState.ToggleInvoiceSameGroups | packages/components/src/components/ui/pages/PayrunDetails/PayrunDetails.tsx:509-544 | the invoice switch keeps the set of (currency, contact) groups |
| PayrunState.EnabledOnly | packages/components/src/components/ui/pages/PayrunDetails/PayrunDetails.tsx:165-192 | the filter keeps exactly the enabled invoices |
| PayrunState.FindAccount | packages/components/src/components/ui/pages/PayrunDetails/PayrunDetails.tsx:171-192 | the account found has the selected id; none is found iff no id is selected or no account has it |
| PayrunState.IncludedInPipeline | packages/components/src/components/ui/pages/PayrunDetails/PayrunDetails.tsx:171-192 | the per-currency invoices counted in the total are the ones the request pipeline produces for that currency |
| PayrunState.RequestIsIncludedPerCurrency | packages/components/src/components/ui/pages/PayrunDetails/PayrunDetails.tsx:205-215 | the request lists the included invoices currency after currency, in state order |
| PayrunState.RequestMembers | packages/components/src/components/ui/pages/PayrunDetails/PayrunDetails.tsx:205-215 | an invoice is in the authorisation request iff it is enabled and lies in an enabled group of some currency |
| PayrunState.RequestTotal | packages/components/src/components/ui/pages/PayrunDetails/PayrunDetails.tsx:171-215 | the amounts sent for authorisation add up to the sum of the per-currency totals to pay |
| PayrunState.AtLeastOneInvoiceEnabled | packages/components/src/components/ui/pages/PayrunDetails/PayrunDetails.tsx:165-169 | some enabled group of some currency holds an enabled invoice |
| PayrunState.AtLeastOneIffRequestNonEmpty | packages/components/src/components/ui/pages/PayrunDetails/PayrunDetails.tsx:165-170 | at least one invoice is enabled in an enabled group iff the request is non-empty |
| PayrunState.TotalToPay | packages/components/src/components/ui/pages/PayrunDetails/PayrunDetails.tsx:184-186 | a currency's total to pay: the amounts (a missing amount as 0) of the enabled invoices of its enabled groups added up; `RequestTotal` and `TotalToPayReplace` relate it to the request and to one toggle |
| PayrunState.BalanceAfterPayment | packages/components/src/components/ui/pages/PayrunDetails/PayrunDetails.tsx:188 | the available balance of the account selected for the currency (0 when none is found) minus its total to pay |
| PayrunState.IsBalanceAfterPaymentPositive | packages/components/src/components/ui/pages/PayrunDetails/PayrunDetails.tsx:171-192 | every currency of the state has a non-negative balance after payment |
| PayrunState.IsRequestAuthEnabled | packages/components/src/components/ui/pages/PayrunDetails/PayrunDetails.tsx:194 | some invoice is included and every balance after payment is non-negative |
| PayrunState.RequestAuthEnabledIff | packages/components/src/components/ui/pages/PayrunDetails/PayrunDetails.tsx:165-194 | the request button is enabled iff the request has an invoice and, in every currency, the included invoices add up to at most the selected account's balance; the request's total is then at most the selected balances added up |
| PayrunState.RequestInvoices | packages/components/src/components/ui/pages/PayrunDetails/PayrunDetails.tsx:205-215 | the invoices the handler sends: the enabled invoices of the enabled groups of every currency; their order, members and total are proved in `RequestIsIncludedPerCurrency`, `RequestMembers` and `RequestTotal` |
| PayrunState.RequestAuth | packages/components/src/components/ui/pages/PayrunDetails/PayrunDetails.tsx:205-215 | the request carries the chosen date and notes, and only enabled invoices |
| PayrunState.TotalToPayReplace | packages/components/src/components/ui/pages/PayrunDetails/PayrunDetails.tsx:171-192 | replacing one contact's group changes the currency total by the difference of the two groups' contributions |
| PayrunState.SetDisabledSum | packages/components/src/components/ui/pages/PayrunDetails/PayrunDetails.tsx:171-192 | with non-negative amounts, switching invoices off never raises the sum over the enabled ones |
| PayrunState.DisableInvoiceNeverRaisesTotal | packages/components/src/components/ui/pages/PayrunDetails/PayrunDetails.tsx:171-192 | in an enabled group with non-negative amounts, switching an invoice off never raises its currency's total to pay |
| PayrunState.DisableInvoiceCanRaiseTotal | packages/components/src/components/ui/pages/PayrunDetails/PayrunDetails.tsx:509-544 | the quirk: in a switched-off group with another enabled invoice, switching an invoice off turns the group back on and raises the total |
| PayrunState.PayingContacts | packages/components/src/components/ui/pages/PayrunDetails/PayrunDetails.tsx:380-385 | exactly the contacts that are enabled and have an enabled invoice, at most as many as the contacts |
| PayrunState.PayoutsLength | packages/components/src/components/ui/pages/PayrunDetails/PayrunDetails.tsx:380-385 | the payout count is the number of contacts that are enabled and have an enabled invoice (`PayingContacts`); at most the number of contacts, and zero iff no invoice of the currency is included |
| PayrunState.InvoiceIncludedText | packages/components/src/components/ui/pages/PayrunDetails/PayrunDetails.tsx:220-233 | "1 invoice included" iff the one invoice is enabled; "All N invoices included" with N the number of invoices when all are included and there is not exactly one; otherwise "X of Y invoices included" with the included and total counts |
| Prelude.NatToStringRoundTrip | packages/components/src/components/ui/pages/PayrunDetails/PayrunDetails.tsx:229-233 | a count rendered in a template literal reads back as that count, so the numbers in the included text are the counts |
| PayrunState.FlagOf | packages/components/src/components/ui/pages/PayrunDetails/PayrunDetails.tsx:254-255 | a saved flag is found iff some saved invoice has that id, and it is the `enabled` flag of the first saved invoice with that id, as `find(...)?.enabled` reads it |
| PayrunState.ChangedInvoices | packages/components/src/components/ui/pages/PayrunDetails/PayrunDetails.tsx:239-264 | exactly the invoices whose flag differs from the saved flag under the same id |
| PayrunState.ContactChange | packages/components/src/components/ui/pages/PayrunDetails/PayrunDetails.tsx:239-264 | no entry iff the group equals the saved one; otherwise the entry keeps the group flag and lists exactly the changed invoices |
| PayrunState.DiffStepLookup | packages/components/src/components/ui/pages/PayrunDetails/PayrunDetails.tsx:248-260 | one inner iteration sets the entry of its own contact and leaves other currencies and contacts as they were |
| PayrunState.Diff | packages/components/src/components/ui/pages/PayrunDetails/PayrunDetails.tsx:239-264 | `getDifferenceBetweenPayrunStates` as the fold over currencies; its entries are characterised by `DiffLookup`, `DiffEmptyIff` and `DiffSelf` |
| PayrunState.DiffLookup | packages/components/src/components/ui/pages/PayrunDetails/PayrunDetails.tsx:239-264 | the change set has an entry for a contact iff its group differs from the saved group, and the entry lists exactly the invoices whose flag differs |
| PayrunState.HasDataChanged | packages/components/src/components/ui/pages/PayrunDetails/PayrunDetails.tsx:235 | the working state differs from the saved one; `PendingChangesAsk` ties it to the change set |
| PayrunState.DiffEmptyIff | packages/components/src/components/ui/pages/PayrunDetails/PayrunDetails.tsx:235-264 | the change set is empty iff every working group equals its saved group |
| PayrunState.DiffEmptyWhenUnchanged | packages/components/src/components/ui/pages/PayrunDetails/PayrunDetails.tsx:235-264 | a state whose groups all equal the saved ones has an empty change set |
| PayrunState.DiffSelf | packages/components/src/components/ui/pages/PayrunDetails/PayrunDetails.tsx:235-264 | a state compared with itself has no changes, so right after a save the change set is empty |
| PayrunDetails.DefaultSelectionLookup | packages/components/src/components/ui/pages/PayrunDetails/PayrunDetails.tsx:131-138 | a currency has a default account iff some account of that currency is a default one, and the last such account wins |
| PayrunDetails.InitialSelection | packages/components/src/components/ui/pages/PayrunDetails/PayrunDetails.tsx:131-138 | the loop computes the default-account selection |
| PayrunDetails.InvoiceCurrencies | packages/components/src/components/ui/pages/PayrunDetails/PayrunDetails.tsx:127-128 | the invoices' currencies, position by position |
| PayrunDetails.DistinctCurrencies | packages/components/src/components/ui/pages/PayrunDetails/PayrunDetails.tsx:127-129 | exactly the invoice currencies, each once, and equal to the `indexOf` filter of the mapped currencies: each kept at its first appearance, in that order |
| Prelude.FirstIndexOf | packages/components/src/components/ui/pages/PayrunDetails/PayrunDetails.tsx:129 | `indexOf`: -1 iff the value is absent, otherwise a position holding it with no earlier occurrence |
| Prelude.DedupeIsIndexOfFilter | packages/components/src/components/ui/pages/PayrunDetails/PayrunDetails.tsx:129 | the value-by-value dedupe equals the `filter((value, index, self) => self.indexOf(value) === index)` the source writes |
| PayrunDetails.FirstAccountOf | packages/components/src/components/ui/pages/PayrunDetails/PayrunDetails.tsx:148-155 | the first account of the currency; none iff no account has it |
| PayrunDetails.DefaultSelectionMatches | packages/components/src/components/ui/pages/PayrunDetails/PayrunDetails.tsx:131-138 | every default selection names an account of its own currency |
| PayrunDetails.FillSelectionProperties | packages/components/src/components/ui/pages/PayrunDetails/PayrunDetails.tsx:140-163 | the effect keeps every selection valid, keeps existing truthy selections, and gives every payrun currency that has an account a selection |
| PayrunDetails.SelectionEffect | packages/components/src/components/ui/pages/PayrunDetails/PayrunDetails.tsx:140-163 | the accounts effect computes the filled default selection, with the properties above |
| PayrunDetails.DateWarning | packages/components/src/components/ui/pages/PayrunDetails/PayrunDetails.tsx:689-697 | a chosen date is warned about when its day starts before the start of tomorrow or after now plus 60 days, and no date is never warned about; compared with the button's rule in `DateRulesAgreeInWindow`, `SendableButWarned` and `WarnFreeButUnsendable` |
| PayrunDetails.SendDisabled | packages/components/src/components/ui/pages/PayrunDetails/PayrunDetails.tsx:731-735 | the send button is disabled without a date, or with one before now plus one day or after now plus 61 days |
| PayrunDetails.StartOfDayMonotone | packages/components/src/components/ui/pages/PayrunDetails/PayrunDetails.tsx:689-697 | start of day is monotone |
| PayrunDetails.DateRulesAgreeInWindow | packages/components/src/components/ui/pages/PayrunDetails/PayrunDetails.tsx:689-697 | a date between 1 and 60 days ahead is neither warned about nor blocked |
| PayrunDetails.SendableButWarned | packages/components/src/components/ui/pages/PayrunDetails/PayrunDetails.tsx:731-735 | the +60/+61 quirk: a date exactly 61 days ahead is warned about but can still be sent |
| PayrunDetails.WarnFreeButUnsendable | packages/components/src/components/ui/pages/PayrunDetails/PayrunDetails.tsx:689-697 | tomorrow at midnight, chosen after midnight today, is not warned about but the button stays disabled |
| PayrunDetails.LeavesPage | packages/components/src/components/ui/pages/PayrunDetails/PayrunDetails.tsx:272-284 | the page is left at once without unsaved changes, and with changes only when the user confirms; `PendingChangesAsk` ties the "unsaved changes" to the change set |
| PayrunDetails.PendingChangesAsk | packages/components/src/components/ui/pages/PayrunDetails/PayrunDetails.tsx:235-284 | while the change set is not empty, leaving the page needs the user's confirmation; right after a save, when working equals the baseline, the page is left at once |
| PayrunDetails.PayrunPage.constructor | packages/components/src/components/ui/pages/PayrunDetails/PayrunDetails.tsx:116-138 | working and saved states both start as the grouped invoices; the selection starts at the defaults |
| PayrunDetails.PayrunPage.OnAccountsLoaded | packages/components/src/components/ui/pages/PayrunDetails/PayrunDetails.tsx:140-163 | the selection becomes the filled default selection; nothing else changes |
| PayrunDetails.PayrunPage.ChangeAccount | packages/components/src/components/ui/pages/PayrunDetails/PayrunDetails.tsx:196-198 | the currency's selected account is set; nothing else changes |
| PayrunDetails.PayrunPage.SwitchContact | packages/components/src/components/ui/pages/PayrunDetails/PayrunDetails.tsx:387-418 | the working state becomes `ToggleContact` of the old one; the invariant holds; the baseline is untouched |
| PayrunDetails.PayrunPage.SetPayrunState | packages/components/src/components/ui/pages/PayrunDetails/PayrunDetails.tsx:120 | the working state becomes the given one and the page's invariant holds; nothing else changes |
| PayrunDetails.ToggleContactKeepsValid | packages/components/src/components/ui/pages/PayrunDetails/PayrunDetails.tsx:387-397 | a contact switch keeps the working state consistent and its groups those of the baseline |
| PayrunDetails.ToggleInvoiceKeepsValid | packages/components/src/components/ui/pages/PayrunDetails/PayrunDetails.tsx:509-539 | an invoice switch keeps the working state consistent and its groups those of the baseline |
| PayrunDetails.PayrunPage.SwitchInvoice | packages/components/src/components/ui/pages/PayrunDetails/PayrunDetails.tsx:509-544 | the working state becomes `ToggleInvoice` of the old one; the contact row closes unless another invoice stays enabled |
| PayrunDetails.PayrunPage.Save | packages/components/src/components/ui/pages/PayrunDetails/PayrunDetails.tsx:266-270 | the baseline becomes the working state, after which there are no unsaved changes |
| PayrunDetails.PayrunPage.Discard | packages/components/src/components/ui/pages/PayrunDetails/PayrunDetails.tsx:329 | the working state is reset to the baseline, after which there are no unsaved changes |
| PayrunDetails.PayrunPage.RequestAuthorisation | packages/components/src/components/ui/pages/PayrunDetails/PayrunDetails.tsx:205-215 | the request built from the working state, the date and the notes |
| PayrunDetails.PayrunPage.CanRequestAuth | packages/components/src/components/ui/pages/PayrunDetails/PayrunDetails.tsx:314 | the page's request button is enabled as `IsRequestAuthEnabled` says for the working state and the selected accounts (characterised by `RequestAuthEnabledIff`) |
| PayrunDetails.Without | packages/components/src/components/ui/pages/PayrunDetails/PayrunDetails.tsx:516-520 | the contact is removed from the open list and every other entry is kept |
| PayrunDetails.ValidCovers | packages/components/src/components/ui/pages/PayrunDetails/PayrunDetails.tsx:239-264 | states with the same groups can always be diffed: every working group has a saved group |
| Validation.Rotate | packages/components/src/utils/validation.ts:107 | the first four characters move to the end; position by position |
| Validation.ParseDigit | packages/components/src/utils/validation.ts:111-119 | `parseInt` of one character is a number iff it is a digit |
| Validation.CharValue | packages/components/src/utils/validation.ts:111-119 | A-Z give 10-35, digits their value, and everything else NaN |
| Validation.Checksum | packages/components/src/utils/validation.ts:122-127 | the digit-by-digit mod-97 loop gives the whole decimal number mod 97; NaN for an empty or non-digit string |
| Validation.JoinedIsoValue | packages/components/src/utils/validation.ts:111-121 | for upper-case letters and digits, the joined string is all digits and denotes the ISO 13616 check number |
| Validation.JoinedNaN | packages/components/src/utils/validation.ts:111-121 | a NaN among the pushed values makes the joined string non-numeric |
| Validation.ExpansionDecides | packages/components/src/utils/validation.ts:107-133 | for a well-shaped string, validity is decided by the residue of the expanded digit string |
| Validation.ValidateIban | packages/components/src/utils/validation.ts:100-134 | `validateIBAN` accepts exactly the strings with the IBAN shape, upper-case letters and MOD 97-10 residue 1 |
| Validation.LowerCaseRejected | packages/components/src/utils/validation.ts:111-122 | a lower-case letter anywhere makes the string invalid |
| Validation.ValidateEmail | packages/components/src/utils/validation.ts:95-98 | the unanchored test `\S+@\S+\.\S+`: a non-space character, `@`, non-space characters, `.` and a non-space character in a row somewhere in the text; `EmailOfParts` gives a sufficient and `EmailHasAtAndDot` a necessary condition |
| Validation.EmailUnanchored | packages/components/src/utils/validation.ts:95-98 | the e-mail test is not anchored: text around an accepted address is accepted |
| Validation.EmailHasAtAndDot | packages/components/src/utils/validation.ts:95-98 | an accepted string has an `@` followed later by a `.` |
| Validation.EmailOfParts | packages/components/src/utils/validation.ts:95-98 | every local@domain.tld is accepted whose local part ends with a non-space character, whose domain has no space and whose top-level part starts with a non-space character |
| Validation.EmailExamples | packages/components/src/utils/validation.ts:95-98 | two illustrations of `EmailOfParts` and `EmailHasAtAndDot`: "a@b.c" is accepted and "a@b" is not |
| Validation.RequiredText | packages/components/src/utils/validation.ts:24-26 | a required text passes iff present and non-empty; a missing one aborts with "Required" |
| Validation.AnyText | packages/components/src/utils/validation.ts:34-36 | an optional-type text passes iff present |
| Validation.CurrencyCheck | packages/components/src/utils/validation.ts:37 | the currency passes iff it is GBP or EUR; otherwise the row aborts (see also `CURRENCIES` at line 5) |
| Validation.AmountCheck | packages/components/src/utils/validation.ts:51-62 | an amount passes iff it is a number at least the minimum; NaN aborts with the type message |
| Validation.EmailCheck | packages/components/src/utils/validation.ts:71-74 | the remittance e-mail passes iff absent, empty or an e-mail; it never aborts |
| Validation.FieldChecks | packages/components/src/utils/validation.ts:14-75 | ten field checks, in the schema's key order |
| Validation.Messages | packages/components/src/utils/validation.ts:143-156 | no message iff every check passes |
| Validation.FieldChecksPass | packages/components/src/utils/validation.ts:14-75 | every field check passes iff the fields meet their conditions (currency GBP or EUR, total at least 1, outstanding at least 0, ...) |
| Validation.RefinementsPass | packages/components/src/utils/validation.ts:76-93 | no refinement message iff a EUR row has a valid IBAN and a GBP row has a non-empty account number and sort code |
| Validation.SchemaAcceptsIff | packages/components/src/utils/validation.ts:14-93 | the schema accepts a row iff the row meets every field condition and the destination condition |
| Validation.InvalidIbanMessage | packages/components/src/utils/validation.ts:76-81 | a EUR row whose fields pass but whose IBAN is invalid gets exactly the IBAN message |
| Validation.MissingScanMessages | packages/components/src/utils/validation.ts:82-93 | a GBP row without account number and sort code ends with both messages, in order |
| Validation.AbortSkipsRefinements | packages/components/src/utils/validation.ts:76-93 | a row without a currency reports "Required" and only the field messages: the refinements do not run (see also the `Currency` field at line 37) |
| Validation.ValidateRow | packages/components/src/utils/validation.ts:140-155 | the result for one row keeps the row and its line number, is valid iff the row meets every condition, and carries the issue messages exactly when it is invalid |
| Validation.ValidateInvoices | packages/components/src/utils/validation.ts:136-160 | one result per row, in order: the row on line index + 1 is reported as `ValidateRow` states |
| SavePayout.SingleCurrency | packages/components/src/components/ui/organisms/SavePayoutModal/SavePayoutModal.tsx:96-104 | a currency iff there are accounts and all share one currency, which is then the result |
| SavePayout.SameCurrencyDedupe | packages/components/src/components/ui/organisms/SavePayoutModal/SavePayoutModal.tsx:96-104 | accounts sharing one currency have exactly one distinct currency |
| SavePayout.FirstWithCurrency | packages/components/src/components/ui/organisms/SavePayoutModal/SavePayoutModal.tsx:107 | an account of the form's currency, found iff one exists |
| SavePayout.FindAccountById | packages/components/src/components/ui/organisms/SavePayoutModal/SavePayoutModal.tsx:152-160 | the account with that id, found iff one exists |
| SavePayout.AccountNamePatternIff | packages/components/src/components/ui/organisms/SavePayoutModal/SavePayoutModal.tsx:321-328 | the account-name pattern holds iff every character is punctuation or a word character and there is a word character |
| SavePayout.AccountNameMessage | packages/components/src/components/ui/organisms/SavePayoutModal/SavePayoutModal.tsx:321-328 | no message iff the name is empty or matches the pattern |
| SavePayout.IbanMessage | packages/components/src/components/ui/organisms/SavePayoutModal/SavePayoutModal.tsx:330-362 | the IBAN field gets a message exactly when `validateIBAN` rejects the text, the empty string included |
| SavePayout.StripPunct | packages/components/src/components/ui/organisms/SavePayoutModal/SavePayoutModal.tsx:364-381 | stripping leaves no reference punctuation and only characters of the input |
| SavePayout.StripPunctCount | packages/components/src/components/ui/organisms/SavePayoutModal/SavePayoutModal.tsx:364-381 | stripping removes exactly the punctuation characters |
| SavePayout.TheirReferenceMaxLength | packages/components/src/components/ui/organisms/SavePayoutModal/SavePayoutModal.tsx:126 | 139 for EUR, 17 otherwise |
| SavePayout.TheirReferenceMessage | packages/components/src/components/ui/organisms/SavePayoutModal/SavePayoutModal.tsx:364-381 | a reference longer than the maximum gets "too long" |
| SavePayout.TheirReferenceAccepted | packages/components/src/components/ui/organisms/SavePayoutModal/SavePayoutModal.tsx:364-381 | accepted iff it fits the maximum, has at least six characters after stripping punctuation, and has only letters, digits and that punctuation |
| SavePayout.AlnumReferenceAccepted | packages/components/src/components/ui/organisms/SavePayoutModal/SavePayoutModal.tsx:364-381 | six to the maximum letters and digits make an accepted reference |
| SavePayout.YourReferenceMessage | packages/components/src/components/ui/organisms/SavePayoutModal/SavePayoutModal.tsx:383-389 | accepted iff empty or only word characters, hyphens and white space |
| SavePayout.AmountNumber | packages/components/src/components/ui/organisms/SavePayoutModal/SavePayoutModal.tsx:177 | `Number` of the field: NaN when undefined, 0 for the empty text |
| SavePayout.AmountMessage | packages/components/src/components/ui/organisms/SavePayoutModal/SavePayoutModal.tsx:177-184 | negative: "must be greater than 0"; zero: "can't be 0"; no message iff positive or NaN |
| SavePayout.DateMessage | packages/components/src/components/ui/organisms/SavePayoutModal/SavePayoutModal.tsx:391-406 | no message iff the date is not rejected; "immediately" never gets one; a missing chosen date gets "Invalid schedule date." |
| SavePayout.StartOfDayShift | packages/components/src/components/ui/organisms/SavePayoutModal/SavePayoutModal.tsx:391-406 | moving by whole days moves the start of the day by as many days |
| SavePayout.DateAcceptedIff | packages/components/src/components/ui/organisms/SavePayoutModal/SavePayoutModal.tsx:391-406 | a chosen date is accepted iff its start of day lies from tomorrow to today + 61 days |
| SavePayout.ValidationPassesIff | packages/components/src/components/ui/organisms/SavePayoutModal/SavePayoutModal.tsx:162-245 | validation passes iff the form is acceptable: a destination or chosen beneficiary, the required fields, valid name, IBAN and references, enough funds, a matching beneficiary currency and an accepted date |
| SavePayout.NaNAmountPasses | packages/components/src/components/ui/organisms/SavePayoutModal/SavePayoutModal.tsx:177-184 | an amount that is not a number passes validation |
| SavePayout.CheckValues | packages/components/src/components/ui/organisms/SavePayoutModal/SavePayoutModal.tsx:199-235 | the value checks fail iff the name, IBAN, either reference, the balance or the beneficiary currency is rejected |
| SavePayout.SavePayoutModal.constructor | packages/components/src/components/ui/organisms/SavePayoutModal/SavePayoutModal.tsx:63-88 | the fields start empty, "immediately", tomorrow's date, and the single currency's first account |
| SavePayout.SavePayoutModal.AccountFromCurrencyOrExistingPayout | packages/components/src/components/ui/organisms/SavePayoutModal/SavePayoutModal.tsx:133-137 | the edited payout's account, or an account of the form's currency |
| SavePayout.SavePayoutModal.ValidateAmount | packages/components/src/components/ui/organisms/SavePayoutModal/SavePayoutModal.tsx:139-145 | the balance warning is set iff the account's balance is below the amount |
| SavePayout.SavePayoutModal.HandleAmountOnChange | packages/components/src/components/ui/organisms/SavePayoutModal/SavePayoutModal.tsx:147-150 | the amount is stored; with an account selected the balance warning is set iff the balance is below the amount, otherwise kept; no other field changes |
| SavePayout.SavePayoutModal.HandleAccountOnChange | packages/components/src/components/ui/organisms/SavePayoutModal/SavePayoutModal.tsx:152-160 | the account with the chosen id becomes the source account, or the default account when no account has it; the balance warning is set iff a found account's balance is below the amount; no other field changes |
| SavePayout.SavePayoutModal.CheckRequired | packages/components/src/components/ui/organisms/SavePayoutModal/SavePayoutModal.tsx:166-197 | fails iff the destination prompt is due, the amount is rejected or a required field is empty; sets the three messages |
| SavePayout.SavePayoutModal.HandleValidation | packages/components/src/components/ui/organisms/SavePayoutModal/SavePayoutModal.tsx:162-245 | fails iff `ValidationFails`; every message the pass sets is the one its validator gives |
| SavePayout.SavePayoutModal.CounterpartyOf | packages/components/src/components/ui/organisms/SavePayoutModal/SavePayoutModal.tsx:247-288 | the counterparty carries the entered name; a chosen beneficiary with an identifier gives that identifier; otherwise the entered IBAN, account number and sort code, of IBAN type iff the currency is EUR, in the form's currency or EUR when none is set |
| SavePayout.SavePayoutModal.OnCreatePayoutClick | packages/components/src/components/ui/organisms/SavePayoutModal/SavePayoutModal.tsx:247-288 | the click is recorded and every validation message set as `handleValidation` sets it; on failed validation `onCreatePayout` is not called and the buttons are as they were; otherwise it is called once with the account, counterparty and form values, and both buttons are enabled again unless its promise rejects, which leaves the pressed button disabled; the form and the balance warning are unchanged |
| Utils.DefaultPageSizes | packages/components/src/utils/utils.ts:32-39 | four tables with distinct ids, each with page size 20 |
| Utils.SetPageSizeForTable | packages/components/src/utils/utils.ts:14-29 | the result is the list (or the defaults) with the table's entry overwritten or appended |
| Utils.PageSizeSet | packages/components/src/utils/utils.ts:14-29 | the table gets the new size and every other table keeps its size; a present table keeps its place and the length, an absent one is appended |
| Utils.PageSizeIdempotent | packages/components/src/utils/utils.ts:14-29 | setting the same page size twice is the same as setting it once |
| Utils.DefaultsUpdated | packages/components/src/utils/utils.ts:32-39 | starting from the defaults, a known table keeps four entries (see also the defaults taken at line 18) |
| Utils.FieldIndex | packages/components/src/utils/utils.ts:47-49 | the first entry of the field, found iff one exists (see also the `findIndex` at lines 67-69) |
| Utils.Appended | packages/components/src/utils/utils.ts:55-63 | at most five values; with five, the oldest is dropped before the new value is appended |
| Utils.AddAutoSuggestion | packages/components/src/utils/utils.ts:40-82 | the in-place shift/push gives `WithSuggestion` of the list |
| Utils.WithSuggestion | packages/components/src/utils/utils.ts:47-80 | the list `addAutoSuggestion` leaves: an unknown field is appended with the value, a remembered value changes nothing, and otherwise the field's values get the value at the end, the oldest dropped at five; `WithSuggestionKeeps`, `WithSuggestionOthers` and `RememberedUnchanged` prove what it keeps |
| Utils.WithSuggestionKeeps | packages/components/src/utils/utils.ts:47-80 | adding keeps at most five values per field and no field twice, and the field then remembers the value |
| Utils.WithSuggestionOthers | packages/components/src/utils/utils.ts:47-80 | every other field's entry is untouched |
| Utils.RememberedUnchanged | packages/components/src/utils/utils.ts:51-54 | adding a value the field already remembers changes nothing |
| Utils.AddAutoSuggestions | packages/components/src/utils/utils.ts:84-98 | the `forEach` equals folding `addAutoSuggestion` over the inputs in order |
| Utils.AddedAllKeeps | packages/components/src/utils/utils.ts:84-98 | adding many keeps the bounds, and the last value added for a field is remembered |
| Utils.YapilyOnly | packages/components/src/utils/utils.ts:107-108 | exactly the Yapily banks |
| Utils.BusinessRecord | packages/components/src/utils/utils.ts:110-123 | "<name> Business", with the personal id set to the business id |
| Utils.ExpandedRecords | packages/components/src/utils/utils.ts:109-127 | every record is a business record of a bank with a business id or a bank with a personal id, and each such bank contributes its records |
| Utils.ExpandBanks | packages/components/src/utils/utils.ts:109-127 | the `forEach` pushes exactly the expanded records |
| Utils.StrLessTotal | packages/components/src/utils/utils.ts:129 | string order is total on distinct strings |
| Utils.StrLessTrans | packages/components/src/utils/utils.ts:129 | string order is transitive |
| Utils.InsertSorted | packages/components/src/utils/utils.ts:129 | inserting by name keeps a list sorted |
| Utils.SortByName | packages/components/src/utils/utils.ts:129 | the sort gives a permutation, ascending by bank name |
| Utils.AddConnectedBanks | packages/components/src/utils/utils.ts:104-130 | the result is a permutation of the expanded Yapily banks and is sorted by name |
| Paging.CeilDiv | packages/components/src/components/ui/Pager/Pager.tsx:26 | `Math.ceil(a / b)`: the least page count whose pages hold every record (see also the same `Math.ceil` at lines 29 and 54) |
| Paging.FirstPageEnd | packages/components/src/components/ui/Pager/Pager.tsx:15-21 | the first page ends at min(pageSize, totalRecords) |
| Paging.PageRange | packages/components/src/components/ui/Pager/Pager.tsx:28-43 | the from and to records `reset(page)` sets; proved in `PageRangeCases`, `PageRangeWithin` and `PagesTile` |
| Paging.PageRangeCases | packages/components/src/components/ui/Pager/Pager.tsx:28-43 | the first page starts at 1; a middle page p runs from pageSize(p-1)+1 to pageSize·p; the last ends at totalRecords |
| Paging.PageRangeWithin | packages/components/src/components/ui/Pager/Pager.tsx:28-43 | with an up-to-date page count, every page shows a non-empty range within the records |
| Paging.PagesTile | packages/components/src/components/ui/Pager/Pager.tsx:28-43 | each page starts right after the previous one ends |
| Paging.Step | packages/components/src/components/ui/Pager/Pager.tsx:62-82 | back never goes below 1; forward moves only while below the page count; beginning gives 1, end the page count |
| Paging.Pager.constructor | packages/components/src/components/ui/Pager/Pager.tsx:23-26 | page 1, records 1 to min(pageSize, total), ceil(total / pageSize) pages |
| Paging.Pager.Reset | packages/components/src/components/ui/Pager/Pager.tsx:28-43 | the page count is recomputed, the range uses the stale page count, and the page is reported |
| Paging.Pager.SyncPage | packages/components/src/components/ui/Pager/Pager.tsx:44-52 | back to page 1 when one page holds every record, then reset and report |
| Paging.Pager.Rerender | packages/components/src/components/ui/Pager/Pager.tsx:7-14 | new props change only the page size and the record count |
| Paging.Pager.TotalRecordsChanged | packages/components/src/components/ui/Pager/Pager.tsx:54-60 | the page count is recomputed, and the page goes back to 1 when the records drop below the shown range's end |
| Paging.Pager.GoToBeginning | packages/components/src/components/ui/Pager/Pager.tsx:62-64 | page 1 |
| Paging.Pager.GoToEnd | packages/components/src/components/ui/Pager/Pager.tsx:66-68 | the last page |
| Paging.Pager.DecrementPageNumber | packages/components/src/components/ui/Pager/Pager.tsx:70-76 | one page back, never below 1 |
| Paging.Pager.IncrementPageNumber | packages/components/src/components/ui/Pager/Pager.tsx:78-82 | one page on, only while below the page count |
| Paging.PressesStayInRange | packages/components/src/components/ui/Pager/Pager.tsx:62-82 | from a page within 1..n, any sequence of presses stays within 1..n |
| Paging.EndPage | packages/components/src/components/ui/Pager/Pager.tsx:66-68 | the end button goes to page 0 iff there are no records, and otherwise to the least page whose pages hold every record |
| Paging.EndWithNoRecords | packages/components/src/components/ui/Pager/Pager.tsx:66-68 | an instance of `EndPage`: with no records the page count is 0 and the end button goes to page 0 |
| ImportInvoices.ExcludingMembers | packages/components/src/components/ui/Modals/ImportInvoiceModal/ImportInvoiceModal.tsx:74-79 | the filter keeps exactly the fields not dropped |
| ImportInvoices.ExcludingAppend | packages/components/src/components/ui/Modals/ImportInvoiceModal/ImportInvoiceModal.tsx:74-79 | filtering distributes over concatenation |
| ImportInvoices.AccountOnlyFields | packages/components/src/components/ui/Modals/ImportInvoiceModal/ImportInvoiceModal.tsx:55-78 | the account variant adds exactly the account number and sort code |
| ImportInvoices.IbanFieldsKept | packages/components/src/components/ui/Modals/ImportInvoiceModal/ImportInvoiceModal.tsx:35-53 | the IBAN-variant fields without `Id` and `InvoiceStatus`, in declaration order (see also line 79) |
| ImportInvoices.TemplateFieldsDistinct | packages/components/src/components/ui/Modals/ImportInvoiceModal/ImportInvoiceModal.tsx:34-80 | the header has no field twice, and holds exactly the fields of either variant except `Id` and `InvoiceStatus` |
| ImportInvoices.GetTemplateColumns | packages/components/src/components/ui/Modals/ImportInvoiceModal/ImportInvoiceModal.tsx:34-80 | the loops compute the template fields, comma-joined |
| ImportInvoices.ValidRows | packages/components/src/components/ui/Modals/ImportInvoiceModal/ImportInvoiceModal.tsx:123-125 | at most one row per result |
| ImportInvoices.AcceptedRows | packages/components/src/components/ui/Modals/ImportInvoiceModal/ImportInvoiceModal.tsx:119-130 | exactly the rows the schema accepts |
| ImportInvoices.ValidRowsAccepted | packages/components/src/components/ui/Modals/ImportInvoiceModal/ImportInvoiceModal.tsx:119-130 | the valid results of `validateInvoices` are the accepted rows, in file order |
| ImportInvoices.SelectedOnly | packages/components/src/components/ui/Modals/ImportInvoiceModal/ImportInvoiceModal.tsx:157-163 | exactly the invoices whose number is selected |
| ImportInvoices.AllSelectedImportsAll | packages/components/src/components/ui/Modals/ImportInvoiceModal/ImportInvoiceModal.tsx:157-163 | with every invoice selected, import emits them all in order |
| ImportInvoices.NoneSelectedImportsNone | packages/components/src/components/ui/Modals/ImportInvoiceModal/ImportInvoiceModal.tsx:157-163 | with nothing selected, import emits nothing |
| ImportInvoices.SelectedOnlyKeepsOrder | packages/components/src/components/ui/Modals/ImportInvoiceModal/ImportInvoiceModal.tsx:157-163 | import keeps the loaded order: its result is a subsequence |
| ImportInvoices.ImportInvoiceModal.constructor | packages/components/src/components/ui/Modals/ImportInvoiceModal/ImportInvoiceModal.tsx:23-30 | nothing loaded, no error, the upload tab |
| ImportInvoices.ImportInvoiceModal.DisplayErrorWarning | packages/components/src/components/ui/Modals/ImportInvoiceModal/ImportInvoiceModal.tsx:85-87 | the banner shows iff a file was loaded with no invoices, or some line is invalid |
| ImportInvoices.ImportInvoiceModal.OnOpenChanged | packages/components/src/components/ui/Modals/ImportInvoiceModal/ImportInvoiceModal.tsx:89-97 | opening clears file name, results, invoices and selection |
| ImportInvoices.ImportInvoiceModal.HandleFileAdded | packages/components/src/components/ui/Modals/ImportInvoiceModal/ImportInvoiceModal.tsx:99-148 | a non-CSV file sets the upload error and is not parsed; otherwise the parse outcome goes to the `complete` or the `error` callback |
| ImportInvoices.ImportInvoiceModal.OnParseComplete | packages/components/src/components/ui/Modals/ImportInvoiceModal/ImportInvoiceModal.tsx:118-140 | the results report every row, the loaded invoices are exactly the accepted rows, all of them are selected, the file name is kept, loading stops, and the review tab opens only when a row is valid |
| ImportInvoices.ImportInvoiceModal.OnParseError | packages/components/src/components/ui/Modals/ImportInvoiceModal/ImportInvoiceModal.tsx:141-144 | loading stops with the upload error and nothing else changes |
| ImportInvoices.ValidateAndFilter | packages/components/src/components/ui/Modals/ImportInvoiceModal/ImportInvoiceModal.tsx:119-125 | the validation results report every row and the valid results are exactly the accepted rows |
| ImportInvoices.ImportInvoiceModal.OnRemoveFile | packages/components/src/components/ui/Modals/ImportInvoiceModal/ImportInvoiceModal.tsx:150-155 | the file name, invoices and selection are cleared |
| ImportInvoices.ImportInvoiceModal.InvoicesToImport | packages/components/src/components/ui/Modals/ImportInvoiceModal/ImportInvoiceModal.tsx:157-163 | exactly the loaded invoices whose number is selected, or nothing when none are loaded |
| ImportInvoices.InvalidLines | packages/components/src/components/ui/Modals/ImportInvoiceModal/ImportInvoiceModal.tsx:85-87 | some line is invalid iff some result is not valid |
| ImportInvoices.ImportAfterLoad | packages/components/src/components/ui/Modals/ImportInvoiceModal/ImportInvoiceModal.tsx:119-163 | right after a load, import emits every accepted row |
| ColumnHeader.DoSort | packages/components/src/components/ui/ColumnHeader/ColumnHeader.tsx:25-33 | something is emitted iff the header has `onSort`, and never NONE (see also the disabled button at line 46) |
| ColumnHeader.DoSortCycle | packages/components/src/components/ui/ColumnHeader/ColumnHeader.tsx:25-33 | NONE, ASC and no direction go to DESC, and DESC goes to ASC |
| ColumnHeader.DoSortAlternates | packages/components/src/components/ui/ColumnHeader/ColumnHeader.tsx:25-33 | after the first click, clicks alternate between DESC and ASC |
| ColumnHeader.Resort | packages/components/src/components/ui/PaymentRequestTable/PaymentRequestTable.tsx:82-98 | the clicked column becomes primary; the same column keeps the secondary; another column demotes the old primary to secondary |
| ColumnHeader.ResortKeepsTwoColumns | packages/components/src/components/ui/PaymentRequestTable/PaymentRequestTable.tsx:82-98 | if the incoming primary and secondary differ, the outgoing ones differ too |
| ColumnHeader.ResortAll | packages/components/src/components/ui/PaymentRequestTable/PaymentRequestTable.tsx:82-98 | after clicks the primary is the last click |
| ColumnHeader.ResortAllKeepsTwoColumns | packages/components/src/components/ui/PaymentRequestTable/PaymentRequestTable.tsx:82-98 | any run of clicks keeps the two levels on different columns |
| ColumnHeader.ReclickKeepsSecondary | packages/components/src/components/ui/PaymentRequestTable/PaymentRequestTable.tsx:85-90 | re-clicking the primary column keeps the secondary sort |
| PaymentRequestTable.OnPaymentRequestClicked | packages/components/src/components/ui/PaymentRequestTable/PaymentRequestTable.tsx:71-80 | a meta click opens the payment page iff that callback exists; any other click reports the request iff that callback exists |
| PaymentRequestTable.HandleOnSort | packages/components/src/components/ui/PaymentRequestTable/PaymentRequestTable.tsx:82-98 | a sort is emitted iff the table has `onSort`, with the clicked column as primary |
| PaymentRequestTable.HeaderClickFlipsPrimary | packages/components/src/components/ui/PaymentRequestTable/PaymentRequestTable.tsx:85-90 | a click on the primary header flips its direction and keeps the secondary |
| PaymentRequestTable.HeaderClickOnOtherColumn | packages/components/src/components/ui/PaymentRequestTable/PaymentRequestTable.tsx:91-97 | a click on another header sorts it descending and demotes the old primary |
| PaymentRequestTable.DeleteOffered | packages/components/src/components/ui/PaymentRequestTable/PaymentRequestTable.tsx:333-338 | a desktop row offers delete while the remote status is None, a mobile card (lines 381-386) while the request has no payment attempts; compared in `DeleteOfferedBothLayouts` and `LayoutsDisagree` |
| PaymentRequestTable.DeleteOfferedBothLayouts | packages/components/src/components/ui/PaymentRequestTable/PaymentRequestTable.tsx:333-338 | a fresh request is deletable in both layouts; one with a result and an attempt in neither (see also the mobile card at lines 381-386) |
| PaymentRequestTable.LayoutsDisagree | packages/components/src/components/ui/PaymentRequestTable/PaymentRequestTable.tsx:333-338 | with an attempt but no result, delete is offered on a desktop row only (see also the mobile card at lines 381-386) |
| EditColumns.Selections | packages/components/src/components/ui/molecules/EditColumns/EditColumns.tsx:15-18 | the selected flags, column by column |
| EditColumns.CountTrue | packages/components/src/components/ui/molecules/EditColumns/EditColumns.tsx:15-18 | zero iff no flag is set |
| EditColumns.FirstSelected | packages/components/src/components/ui/molecules/EditColumns/EditColumns.tsx:15-18 | a selected column, found iff one exists |
| EditColumns.SingleSelectedColumn | packages/components/src/components/ui/molecules/EditColumns/EditColumns.tsx:15-18 | defined iff exactly one column is selected, and then that column |
| EditColumns.CheckboxDisabled | packages/components/src/components/ui/molecules/EditColumns/EditColumns.tsx:38 | a checkbox is disabled when its column is the single selected column; `DisabledIsSoleSelected` proves when that is |
| EditColumns.DisabledIsSoleSelected | packages/components/src/components/ui/molecules/EditColumns/EditColumns.tsx:38 | with distinct ids, a checkbox is disabled iff its column is the only selected one |
| EditColumns.ToggleColumn | packages/components/src/components/ui/molecules/EditColumns/EditColumns.tsx:33-37 | the array keeps its columns; only the shared object's flag changes; with distinct ids only the flag at that index changes |
| EditColumns.ToggleKeepsOneSelected | packages/components/src/components/ui/molecules/EditColumns/EditColumns.tsx:15-18 | no toggle the panel allows leaves zero columns selected (see also the checkbox at line 38) |
| EditColumns.FindById | packages/components/src/components/ui/PaymentRequestTable/PaymentRequestTable.tsx:106-108 | the first column with that id, or none iff no column has it |
| EditColumns.IsColumnSelected | packages/components/src/components/ui/PaymentRequestTable/PaymentRequestTable.tsx:106-108 | a column is shown when the table has columns and the first column with that id is selected; `ColumnShownIffSelected` and `NoColumnsNothingShown` characterise it |
| EditColumns.ColumnShownIffSelected | packages/components/src/components/ui/PaymentRequestTable/PaymentRequestTable.tsx:106-108 | with distinct ids, a column is shown iff its own flag is set |
| EditColumns.NoColumnsNothingShown | packages/components/src/components/ui/PaymentRequestTable/PaymentRequestTable.tsx:106-108 | without a column list nothing is shown |
| UserTable.IsExpired | packages/components/src/components/ui/organisms/UsersTable/UserTable.tsx:59-63 | an invitation has expired when it was last changed more than three days before now; `ExpiryIsFinal` |
| UserTable.OnUserClicked | packages/components/src/components/ui/organisms/UsersTable/UserTable.tsx:50-57 | a click opens the user only when the row is not an invitation and a handler is given; `InvitationRow` |
| UserTable.HasInvite | packages/components/src/components/ui/organisms/UsersTable/UserTable.tsx:201-202 | the row is an invitation with a non-empty invite id, the condition of both invite cells and of the resend button; `InviteCellOf` and `ActionButtonOf` |
| UserTable.ExpiryIsFinal | packages/components/src/components/ui/organisms/UsersTable/UserTable.tsx:59-63 | an expired invite stays expired; one modified within the last 3 days is not expired |
| UserTable.NameCell | packages/components/src/components/ui/organisms/UsersTable/UserTable.tsx:194 | the name if non-empty, otherwise the e-mail |
| UserTable.InviteCellOf | packages/components/src/components/ui/organisms/UsersTable/UserTable.tsx:201-217 | an invited user with an invite id gets exactly one of "expired link" or "Copy link", by expiry; no one else gets either |
| UserTable.ActionButtonOf | packages/components/src/components/ui/organisms/UsersTable/UserTable.tsx:220-233 | "Resend invitation" iff invited with an invite id; "Set role" iff role pending |
| UserTable.InvitationRow | packages/components/src/components/ui/organisms/UsersTable/UserTable.tsx:201-233 | an invited user's row has the resend button and an invite cell, and clicking it does nothing (see also lines 50-57) |
| UserTable.HandleOnSort | packages/components/src/components/ui/organisms/UsersTable/UserTable.tsx:75-91 | the clicked column becomes primary; the same column keeps the secondary, a new one demotes the old primary |
| UserTable.HandleOnSortKeepsTwoColumns | packages/components/src/components/ui/organisms/UsersTable/UserTable.tsx:75-91 | the two levels stay on different columns |
| PaymentRequestRow.CountByStatus | packages/components/src/components/ui/PaymentRequestRow/PaymentRequestRow.tsx:71-75 | 0 without attempts; at most the number of attempts; 0 iff no attempt has the status |
| PaymentRequestRow.CountIn | packages/components/src/components/ui/PaymentRequestRow/PaymentRequestRow.tsx:71-75 | equals the number of attempts iff all have the status; 0 iff none has |
| PaymentRequestRow.CountsPartition | packages/components/src/components/ui/PaymentRequestRow/PaymentRequestRow.tsx:71-75 | the counts of the four status kinds add up to the number of attempts |
| PaymentRequestRow.CountsAtMostAttempts | packages/components/src/components/ui/PaymentRequestRow/PaymentRequestRow.tsx:71-75 | received, pending and failed never add up to more than the attempts |
| PaymentRequestRow.PaymentMethodOf | packages/components/src/components/ui/PaymentRequestRow/PaymentRequestRow.tsx:81-95 | the attempts' single payment method, None without attempts or when they used several; both directions in `PaymentMethodShown` and `MixedMethodsShowNone` |
| PaymentRequestRow.PaymentMethodShown | packages/components/src/components/ui/PaymentRequestRow/PaymentRequestRow.tsx:81-95 | a real method is shown iff there are attempts and every one used it |
| PaymentRequestRow.MixedMethodsShowNone | packages/components/src/components/ui/PaymentRequestRow/PaymentRequestRow.tsx:81-95 | attempts with two different methods show `None` |
| PaymentRequestRow.AmountPaid | packages/components/src/components/ui/PaymentRequestRow/PaymentRequestRow.tsx:97 | the paid amount plus the refunded amount is the received amount |
| PaymentRequestRow.HasSettledPaymentAttempts | packages/components/src/components/ui/PaymentRequestRow/PaymentRequestRow.tsx:99-103 | true iff some attempt settled money or had a positive card authorisation |
| PaymentRequestRow.SettledCountPositive | packages/components/src/components/ui/PaymentRequestRow/PaymentRequestRow.tsx:99-103 | the settled count is positive iff some attempt is settled |
| PaymentRequestRow.Row.constructor | packages/components/src/components/ui/PaymentRequestRow/PaymentRequestRow.tsx:54 | no confirmation shown |
| PaymentRequestRow.Row.OnDeletePaymentRequestClicked | packages/components/src/components/ui/PaymentRequestRow/PaymentRequestRow.tsx:56-58 | the confirmation is shown |
| PaymentRequestRow.Row.OnCancelDeletingPaymentRequestClicked | packages/components/src/components/ui/PaymentRequestRow/PaymentRequestRow.tsx:60-62 | the confirmation is hidden |
| PaymentRequestRow.Row.OnConfirmDeletePaymentRequestClicked | packages/components/src/components/ui/PaymentRequestRow/PaymentRequestRow.tsx:64-69 | `onDelete` is called once when present, then the confirmation is hidden |
| PaymentRequestRow.DeleteThenCancel | packages/components/src/components/ui/PaymentRequestRow/PaymentRequestRow.tsx:56-62 | opening then cancelling the confirmation asks for no deletion |
| DetailsTabs.WithEvents | packages/components/src/components/ui/DetailsTabs/DetailsTabs.tsx:36-46 | exactly the attempts with at least one of the seven timestamps, with multiplicity |
| DetailsTabs.InsertByTime | packages/components/src/components/ui/DetailsTabs/DetailsTabs.tsx:47-52 | insertion adds exactly the one attempt |
| DetailsTabs.InsertLatestFirst | packages/components/src/components/ui/DetailsTabs/DetailsTabs.tsx:47-52 | insertion keeps a list newest-first |
| DetailsTabs.SortLatestFirst | packages/components/src/components/ui/DetailsTabs/DetailsTabs.tsx:47-52 | a newest-first permutation; `SortStable` proves that attempts with equal times keep their input order |
| DetailsTabs.InsertAtTime | packages/components/src/components/ui/DetailsTabs/DetailsTabs.tsx:47-52 | inserting an attempt puts it before every attempt of its own time and leaves the attempts of other times as they were; the sort inserts the earlier input attempt into the sorted rest, so equal times keep their order |
| DetailsTabs.SortStable | packages/components/src/components/ui/DetailsTabs/DetailsTabs.tsx:47-52 | the sort is stable, as `Array.prototype.sort` is: for every time, the attempts with that time appear in their input order |
| DetailsTabs.ListedAttempts | packages/components/src/components/ui/DetailsTabs/DetailsTabs.tsx:36-52 | sorted newest-first, every attempt has an event, and a permutation of the filtered attempts; `ListedKeepsRequestOrder` ties the order of equal times to the request |
| DetailsTabs.WithEventsAtTime | packages/components/src/components/ui/DetailsTabs/DetailsTabs.tsx:36-46 | the `filter` keeps request order: for every time, the kept attempts of that time are those of the request with an event, in request order |
| DetailsTabs.ListedKeepsRequestOrder | packages/components/src/components/ui/DetailsTabs/DetailsTabs.tsx:36-52 | the attempts the tab lists with the same event time (every attempt without a time counts as 0) appear in request order: the filter keeps order and the sort is stable |
| DetailsTabs.ListedIffEvent | packages/components/src/components/ui/DetailsTabs/DetailsTabs.tsx:36-46 | an attempt is listed iff one of its seven timestamps is set |
| DetailsTabs.UntimedAfterTimed | packages/components/src/components/ui/DetailsTabs/DetailsTabs.tsx:49-50 | a missing latest-event time counts as 0: everything after such an attempt has time at most 0 |
| DetailsTabs.CardAuthoriseOnly | packages/components/src/components/ui/DetailsTabs/DetailsTabs.tsx:53 | a request that does not capture funds only authorises cards |
| CaptureModal.GetCurrencySymbol | packages/components/src/components/ui/CaptureModal/CaptureModal.tsx:43-47 | the euro symbol iff the currency is EUR, otherwise the pound symbol |
| CaptureModal.CaptureError | packages/components/src/components/ui/CaptureModal/CaptureModal.tsx:49-66 | the message is one of the four; the negative message exactly for negative amounts and the zero message exactly for zero |
| CaptureModal.CaptureAccepted | packages/components/src/components/ui/CaptureModal/CaptureModal.tsx:53-65 | the capture goes ahead when `CaptureError` leaves no message; `AcceptedAmounts` and `NotANumberIsCaptured` characterise it |
| CaptureModal.AcceptedAmounts | packages/components/src/components/ui/CaptureModal/CaptureModal.tsx:54-65 | an amount is captured iff positive and within a non-zero maximum; a maximum of 0 disables that check |
| CaptureModal.NotANumberIsCaptured | packages/components/src/components/ui/CaptureModal/CaptureModal.tsx:53-65 | an amount that is not a number passes every check |
| CaptureModal.CaptureDialog.constructor | packages/components/src/components/ui/CaptureModal/CaptureModal.tsx:36-37 | the button is enabled and there is no message |
| CaptureModal.CaptureDialog.OnCaptureClick | packages/components/src/components/ui/CaptureModal/CaptureModal.tsx:49-66 | the message is the failed check's; the button stays disabled iff `onCapture` is called, which happens iff every check passes |
| ImportInvoiceRow.ReplaceFirstSpace | packages/components/src/components/ui/molecules/ImportInvoiceRow/ImportInvoiceRow.tsx:31-32 | a string without a space is unchanged; one with a space loses exactly one character |
| ImportInvoiceRow.ReplaceFirstSpaceAt | packages/components/src/components/ui/molecules/ImportInvoiceRow/ImportInvoiceRow.tsx:31-32 | the character removed is the first space; everything before and after it is kept in order |
| ImportInvoiceRow.GroupedIbanKeepsSpaces | packages/components/src/components/ui/molecules/ImportInvoiceRow/ImportInvoiceRow.tsx:31-32 | an IBAN written in groups keeps every space after the first |
| ImportInvoiceRow.RemoveSpaces | packages/components/src/components/ui/molecules/ImportInvoiceRow/ImportInvoiceRow.tsx:31-32 | no space is left and every other character is kept |
| ImportInvoiceRow.RemoveSpacesIdempotent | packages/components/src/components/ui/molecules/ImportInvoiceRow/ImportInvoiceRow.tsx:31-32 | removing spaces twice is removing them once |
| ImportInvoiceRow.RemoveSpacesAppend | packages/components/src/components/ui/molecules/ImportInvoiceRow/ImportInvoiceRow.tsx:31-32 | space removal distributes over concatenation |
| ImportInvoiceRow.DestinationAccountAsWritten | packages/components/src/components/ui/molecules/ImportInvoiceRow/ImportInvoiceRow.tsx:31-35 | a truthy IBAN is shown with its first space removed |
| ImportInvoiceRow.DestinationAccount | packages/components/src/components/ui/molecules/ImportInvoiceRow/ImportInvoiceRow.tsx:31-35 | the intended, corrected display (see Findings): a truthy IBAN with every space removed and its other characters kept in order (`RemoveSpaces`), so no space is left; otherwise "<number> - <sort code>" when both are truthy; otherwise "-" |
| ImportInvoiceRow.AsWrittenAgreesUpToOneSpace | packages/components/src/components/ui/molecules/ImportInvoiceRow/ImportInvoiceRow.tsx:31-35 | the as-written and the corrected destinations agree whenever the IBAN has at most one space, and on every row without an IBAN |
| ImportInvoiceRow.OneSpaceRemovedAlike | packages/components/src/components/ui/molecules/ImportInvoiceRow/ImportInvoiceRow.tsx:31-32 | on a text with at most one space, replacing the first space removes every space |
| ImportInvoiceRow.DisplayedAmountUnsigned | packages/components/src/components/ui/molecules/ImportInvoiceRow/ImportInvoiceRow.tsx:69 | the shown amount is non-negative, with the magnitude of `TotalAmount` |
| ImportInvoiceRow.SwitchValue | packages/components/src/components/ui/molecules/ImportInvoiceRow/ImportInvoiceRow.tsx:92 | the switch is on iff `isSelected` is true; undefined means off |
| ImportInvoiceRow.SwitchOffIffGreyed | packages/components/src/components/ui/molecules/ImportInvoiceRow/ImportInvoiceRow.tsx:92 | a row is greyed out iff its switch is off (see also line 42) |
| CustomModal.Dialog.constructor | packages/components/src/components/ui/CustomModal/CustomModal.tsx:41-42 | not checked, no snapshot |
| CustomModal.Dialog.SetIsDefaultChecked | packages/components/src/components/ui/CustomModal/CustomModal.tsx:109 | the checkbox sets the flag; the snapshot is kept |
| CustomModal.Dialog.OnApplyClicked | packages/components/src/components/ui/CustomModal/CustomModal.tsx:44-54 | without `onApply` nothing changes; otherwise the current flag is snapshotted and passed on |
| CustomModal.Dialog.HandleOnDismiss | packages/components/src/components/ui/CustomModal/CustomModal.tsx:56-63 | `onDismiss` is called, and the flag goes back to the last applied snapshot; without one it is kept |
| CustomModal.ApplyChangeDismiss | packages/components/src/components/ui/CustomModal/CustomModal.tsx:44-63 | apply, then any changes, then dismiss: the flag is the applied one |
| CustomModal.ChangeDismissBeforeApply | packages/components/src/components/ui/CustomModal/CustomModal.tsx:56-63 | before any apply, dismissing keeps the changed flag |
| PayoutDashboard.TotalAmountPerCurrencyAndStatus | packages/components/src/components/ui/pages/PayoutDashboard/PayoutDashboard.tsx:101-114 | a total iff metrics exist, the all-status amount of the currency is truthy and the status count is positive; then the status amount, or 0 when missing |
| PayoutDashboard.TotalsHidden | packages/components/src/components/ui/pages/PayoutDashboard/PayoutDashboard.tsx:101-114 | no tab shows a total for a currency without payouts, nor for a status whose count is not positive |
| PayoutDashboard.ScheduledTabTotal | packages/components/src/components/ui/pages/PayoutDashboard/PayoutDashboard.tsx:208-213 | the scheduled tab shows the scheduled total of the currency (0 when missing) once there are scheduled payouts and payouts in the currency |
| PayoutDashboard.MissingStatusTotalShowsZero | packages/components/src/components/ui/pages/PayoutDashboard/PayoutDashboard.tsx:112 | a missing status amount is shown as 0 |
| PayoutDashboard.ShowBatchApprove | packages/components/src/components/ui/pages/PayoutDashboard/PayoutDashboard.tsx:127-129 | the batch approve button shows for a non-zero role at least the approver role once more than one payout is selected; `BatchApproveNeedsRoleAndTwo` |
| PayoutDashboard.BatchApproveNeedsRoleAndTwo | packages/components/src/components/ui/pages/PayoutDashboard/PayoutDashboard.tsx:127-130 | the batch button shows iff the role is at least approver and more than one payout is selected |
| PayoutDashboard.Dashboard.constructor | packages/components/src/components/ui/pages/PayoutDashboard/PayoutDashboard.tsx:96 | the approve button starts enabled |
| PayoutDashboard.Dashboard.HandleApproveBatchPayouts | packages/components/src/components/ui/pages/PayoutDashboard/PayoutDashboard.tsx:116-119 | the button is disabled and `onApproveBatchPayouts` called |
| PayoutDashboard.ClickApprove | packages/components/src/components/ui/pages/PayoutDashboard/PayoutDashboard.tsx:116-119 | a click approves once while the button is enabled; the button is never re-enabled |

## Left out

- HTTP clients, react-query hooks, routing, authentication, rendering, styling, animation, toasts and effect scheduling. Each handler is one sequential step on the current state.
- Floating point, `Number()` parsing of text, and locale formatting. Amounts are integers in minor units, and a parsed amount is given as a `JsNum` alongside its text.
- Wall-clock time and time zones. "Now" is a parameter, and a day is taken to be 86 400 000 ms with no daylight-saving change.
- The e-mail test of the schema library (`string().email()`) is a parameter. Only `validateEmail`'s own regular expression is modelled.
- papaparse and FileReader. The parse outcome is a parameter of `HandleFileAdded`.
- `window.confirm`, `console.log` and clipboard copies. The answer to the confirmation is a parameter of `LeavesPage`.
- The payout form's `onCurrencyChange`, `handleBeneficiaryOnChange`, `onDateChange`, `resetFields`, `handleOnOpenChange` and the `selectedPayout` effect. Their results enter the model as the form's field values.
- The formatted latest date in the schedule-date message is a parameter `maxDateText`.
- `LocalEnums` and `LocalTypes` are not part of this model. Payment results, user statuses and payment methods are abstracted to the cases the components test, and the approver role is a parameter.
- PayrunState.DisableInvoiceNeverRaisesTotal: holds only for an enabled group with non-negative amounts. In a switched-off group the quirk can raise the total, which `DisableInvoiceCanRaiseTotal` shows.
- PayrunState.Diff: requires that every working group exists in the saved state. Otherwise the source's lookup of the saved group fails at run time, and that failure is not modelled.
- Paging.Pager.constructor: requires a positive page size. The page-size selector offers only positive sizes, and `Math.ceil(n / 0)` is not modelled.
- Validation.AbortSkipsRefinements: states that the issues are exactly the field messages and include "Required". It does not state separately that the IBAN message is absent.
- Utils.AddAutoSuggestion: the source mutates the caller's arrays in place, and the model returns a new list. Aliasing of the caller's arrays is not captured.
- Utils.SetPageSizeForTable: the source assigns into and pushes onto the caller's array, which may be the stored page sizes, and the model returns a new list. Aliasing of the caller's array is not captured.
- CaptureModal.GetCurrencySymbol: the two symbols are abstract values, not their glyphs.
- Validation.AmountCheck: the schema's `TotalAmount` and `OutstandingAmount` are whole numbers of the CSV cell's unit, and fractional cells are not modelled. A cell such as "0.50", which the source rejects with "TotalAmount must be greater than 0", has no counterpart in the model.
- SavePayout.TheirReferenceMessage: a string's length is its number of characters, whereas `.length` counts UTF-16 code units. For text with characters outside the Basic Multilingual Plane (such as emoji) the 6, 17 and 139 limits are compared with a smaller length than in the source, so a reference such as three emoji gets the "too short" message here and the character-class message in the source. The same holds for every other `.length` test in the model.
- PayrunState.RequestIsIncludedPerCurrency: the order is the insertion order of the currencies and contacts. JavaScript enumerates integer-like keys (a contact named "2024", say) first and in ascending numeric order, so such contacts are displayed and requested before the others; that reordering is not modelled, here or in any other `Object.keys`, `Object.values` or `Object.entries` of the model.

## Findings

| source | as written | input that shows it | evidently intended | confidence | as-written member | corrected member |
|---|---|---|---|---|---|---|
| packages/components/src/components/ui/molecules/ImportInvoiceRow/ImportInvoiceRow.tsx:31-32 | `DestinationIban.replace(' ', '')` removes only the first space | "GB33 BUKB 2020" is shown as "GB33BUKB 2020" | every space removed, giving "GB33BUKB2020" | not executed | ImportInvoiceRow.GroupedIbanKeepsSpaces | ImportInvoiceRow.DestinationAccount |

=== FILE: assoc_list.dfy ===
/** A JavaScript object used as a dictionary: its entries in insertion order.
    Reading `obj[k]` finds the entry with key `k`; assigning `obj[k] = v` (or
    spreading `{ ...obj, [k]: v }`) replaces that entry in place when the key
    is present and appends a new entry otherwise. JavaScript enumerates
    integer-like keys first, in ascending numeric order; this list keeps
    every key in insertion order. */
module AssocList {
  import opened Prelude

  function Keys<K, V>(s: seq<(K, V)>): (r: seq<K>)
    ensures |r| == |s|
    ensures forall i :: 0 <= i < |s| ==> r[i] == s[i].0
  {
    if s == [] then [] else [s[0].0] + Keys(s[1..])
  }

  /** No key occurs twice, as in every JavaScript object. */
  predicate UniqueKeys<K(==), V>(s: seq<(K, V)>) {
    forall i, j :: 0 <= i < j < |s| ==> s[i].0 != s[j].0
  }

  /** The position of the entry with key `k`. */
  function IndexOf<K(==), V>(s: seq<(K, V)>, k: K): (r: Option<nat>)
    ensures r.Some? ==> r.value < |s| && s[r.value].0 == k
    ensures r.Some? ==> forall j :: 0 <= j < r.value ==> s[j].0 != k
    ensures r.None? <==> forall j :: 0 <= j < |s| ==> s[j].0 != k
  {
    if s == [] then None
    else if s[0].0 == k then Some(0)
    else
      match IndexOf(s[1..], k)
      case None => None
      case Some(i) => Some(i + 1)
  }

  /** The first entry holding `k` is the one `IndexOf` finds. */
  lemma IndexOfAt<K, V>(s: seq<(K, V)>, k: K, i: nat)
    requires i < |s| && s[i].0 == k
    requires forall j :: 0 <= j < i ==> s[j].0 != k
    ensures IndexOf(s, k) == Some(i)
  {
  }

  /** `obj[k]`. */
  function Get<K(==), V>(s: seq<(K, V)>, k: K): (r: Option<V>)
    ensures r.Some? <==> exists i :: 0 <= i < |s| && s[i].0 == k
  {
    match IndexOf(s, k)
    case None => None
    case Some(i) => Some(s[i].1)
  }

  /** What `Get` returns is the value of an entry of the object. */
  lemma GetMember<K, V>(s: seq<(K, V)>, k: K)
    requires Get(s, k).Some?
    ensures (k, Get(s, k).value) in s
  {
    assert s[IndexOf(s, k).value] == (k, Get(s, k).value);
  }

  /** `obj[k] = v`. */
  function Put<K(==), V>(s: seq<(K, V)>, k: K, v: V): (r: seq<(K, V)>)
  {
    match IndexOf(s, k)
    case None => s + [(k, v)]
    case Some(i) => s[i := (k, v)]
  }

  lemma GetPutSame<K, V>(s: seq<(K, V)>, k: K, v: V)
    ensures Get(Put(s, k, v), k) == Some(v)
  {
    match IndexOf(s, k)
    case None =>
      IndexOfAt(Put(s, k, v), k, |s|);
    case Some(i) =>
      IndexOfAt(Put(s, k, v), k, i);
  }

  lemma GetPutOther<K, V>(s: seq<(K, V)>, k: K, v: V, k': K)
    requires k' != k
    ensures Get(Put(s, k, v), k') == Get(s, k')
  {
    var r := Put(s, k, v);
    match IndexOf(s, k')
    case None =>
      assert forall j :: 0 <= j < |r| ==> r[j].0 != k';
    case Some(i) =>
      IndexOfAt(r, k', i);
  }

  /** Assigning to a present key keeps every key where it was. */
  lemma KeysPutPresent<K, V>(s: seq<(K, V)>, k: K, v: V)
    requires Get(s, k).Some?
    ensures Keys(Put(s, k, v)) == Keys(s)
  {
  }

  lemma PutUnique<K, V>(s: seq<(K, V)>, k: K, v: V)
    requires UniqueKeys(s)
    ensures UniqueKeys(Put(s, k, v))
  {
  }

  /** Every entry after an assignment is the new one or an old one. */
  lemma PutMembers<K, V>(s: seq<(K, V)>, k: K, v: V)
    ensures forall p :: p in Put(s, k, v) ==> p == (k, v) || p in s
  {
    var r := Put(s, k, v);
    forall p | p in r ensures p == (k, v) || p in s {
      var j :| 0 <= j < |r| && r[j] == p;
      if j < |s| && r[j] != (k, v) {
        assert r[j] == s[j];
      }
    }
  }

  /** Assigning a key the value it already has changes nothing. */
  lemma PutGetIdentity<K, V>(s: seq<(K, V)>, k: K)
    requires Get(s, k).Some?
    ensures Put(s, k, Get(s, k).value) == s
  {
  }

  /** A second assignment to the same key overwrites the first. */
  lemma PutPut<K, V>(s: seq<(K, V)>, k: K, v1: V, v2: V)
    ensures Put(Put(s, k, v1), k, v2) == Put(s, k, v2)
  {
    match IndexOf(s, k)
    case None =>
      IndexOfAt(Put(s, k, v1), k, |s|);
    case Some(i) =>
      IndexOfAt(Put(s, k, v1), k, i);
  }

  /** With unique keys, `Get` finds the entry at any position holding the key. */
  lemma GetAt<K, V>(s: seq<(K, V)>, i: nat)
    requires UniqueKeys(s) && i < |s|
    ensures Get(s, s[i].0) == Some(s[i].1)
  {
  }

  /** In an object with unique keys, the last entry is found under its own
      key, and every other key is found in the entries before it. */
  lemma GetSnoc<K, V>(s: seq<(K, V)>, k': K, v: V, k: K)
    requires UniqueKeys(s + [(k', v)])
    ensures Get(s + [(k', v)], k) == if k == k' then Some(v) else Get(s, k)
  {
    var r := s + [(k', v)];
    if k == k' {
      assert forall j :: 0 <= j < |s| ==> r[j].0 != r[|s|].0;
      IndexOfAt(r, k, |s|);
    } else {
      match IndexOf(s, k)
      case None =>
        assert forall j :: 0 <= j < |r| ==> r[j].0 != k;
      case Some(i) =>
        IndexOfAt(r, k, i);
    }
  }

  lemma UniquePrefix<K, V>(s: seq<(K, V)>, n: nat)
    requires UniqueKeys(s) && n <= |s|
    ensures UniqueKeys(s[..n])
  {
  }

  /** A key found among the first entries is found at the same entry in the whole. */
  lemma GetPrefix<K, V>(s: seq<(K, V)>, n: nat, k: K)
    requires n <= |s| && Get(s[..n], k).Some?
    ensures Get(s, k) == Get(s[..n], k)
  {
    var i := IndexOf(s[..n], k).value;
    IndexOfAt(s, k, i);
  }

  lemma GetPrefixAll<K, V>(s: seq<(K, V)>, n: nat)
    requires n <= |s|
    ensures forall k :: Get(s[..n], k).Some? ==> Get(s, k) == Get(s[..n], k)
  {
    forall k | Get(s[..n], k).Some? ensures Get(s, k) == Get(s[..n], k) {
      GetPrefix(s, n, k);
    }
  }
}

=== FILE: capture_modal.dfy ===
/** The card capture dialog: the checks on the amount before a capture is
    asked for, and the state of its confirm button.
    Source: packages/components/src/components/ui/CaptureModal/CaptureModal.tsx */
module CaptureModal {
  import opened Prelude

  /** The two currency symbols the dialog shows; their glyphs are not part
      of this model. */
  datatype CurrencySymbol = EuroSymbol | PoundSymbol

  /** `getCurrencySymbol`: the euro symbol for "EUR", the pound symbol for
      anything else. */
  function GetCurrencySymbol(transactionCurrency: string): (r: CurrencySymbol)
    ensures r == EuroSymbol <==> transactionCurrency == "EUR"
  {
    if transactionCurrency == "EUR" then EuroSymbol else PoundSymbol
  }

  const NegativeAmount := "The amount must be greater than 0."
  const ZeroAmount := "The amount can't be 0."
  const AboveRemaining := "You can't capture more than the remaining amount."

  /** The message `onCaptureClick` leaves for `Number(initialAmount)`; empty
      when the capture goes ahead. A zero (falsy) remaining amount sets no
      upper limit. */
  function CaptureError(parsedAmount: JsNum, maxCapturableAmount: JsNum): (r: string)
    ensures r in {"", NegativeAmount, ZeroAmount, AboveRemaining}
    ensures r == NegativeAmount <==> NumLess(parsedAmount, Num(0))
    ensures r == ZeroAmount <==> NumEquals(parsedAmount, Num(0))
  {
    if NumLess(parsedAmount, Num(0)) then NegativeAmount
    else if NumEquals(parsedAmount, Num(0)) then ZeroAmount
    else if NumTruthy(maxCapturableAmount) && NumLess(maxCapturableAmount, parsedAmount) then AboveRemaining
    else ""
  }

  /** The capture goes ahead when no message is left. */
  predicate CaptureAccepted(parsedAmount: JsNum, maxCapturableAmount: JsNum) {
    CaptureError(parsedAmount, maxCapturableAmount) == ""
  }

  /** A number is captured exactly when it is positive and, with a limit,
      within the remaining amount. */
  lemma AcceptedAmounts(amount: int, maxCapturableAmount: int)
    ensures CaptureAccepted(Num(amount), Num(maxCapturableAmount))
      <==> amount > 0 && (maxCapturableAmount == 0 || amount <= maxCapturableAmount)
  {
  }

  /** An amount that does not parse as a number fails none of the three
      comparisons, so it is passed on to the capture. */
  lemma NotANumberIsCaptured(maxCapturableAmount: JsNum)
    ensures CaptureAccepted(NaN, maxCapturableAmount)
  {
  }

  /** The dialog's `useState` fields, and the captures it asked for through
      `onCapture`. */
  class CaptureDialog {
    var isCaptureButtonDisabled: bool
    var validationErrorMessage: string
    var captures: nat

    constructor ()
      ensures !isCaptureButtonDisabled && validationErrorMessage == "" && captures == 0
    {
      isCaptureButtonDisabled := false;
      validationErrorMessage := "";
      captures := 0;
    }

    /** `onCaptureClick`: the button is disabled while the amount is checked;
        a rejected amount leaves its message and enables the button again,
        an accepted one asks for the capture and leaves the button disabled. */
    method OnCaptureClick(parsedAmount: JsNum, maxCapturableAmount: JsNum)
      modifies this
      ensures validationErrorMessage == CaptureError(parsedAmount, maxCapturableAmount)
      ensures isCaptureButtonDisabled <==> CaptureAccepted(parsedAmount, maxCapturableAmount)
      ensures captures == old(captures) + if CaptureAccepted(parsedAmount, maxCapturableAmount) then 1 else 0
    {
      isCaptureButtonDisabled := true;
      validationErrorMessage := "";
      if NumLess(parsedAmount, Num(0)) {
        validationErrorMessage := NegativeAmount;
        isCaptureButtonDisabled := false;
      } else if NumEquals(parsedAmount, Num(0)) {
        validationErrorMessage := ZeroAmount;
        isCaptureButtonDisabled := false;
      } else if NumTruthy(maxCapturableAmount) && NumLess(maxCapturableAmount, parsedAmount) {
        validationErrorMessage := AboveRemaining;
        isCaptureButtonDisabled := false;
      } else {
        captures := captures + 1;
      }
    }
  }
}

=== FILE: column_header.dfy ===
/** A sortable column header, and the two-level sort the tables build from
    the clicks on their headers.
    Source: packages/components/src/components/ui/ColumnHeader/ColumnHeader.tsx */
module ColumnHeader {
  import opened Prelude

  datatype SortDirection = NONE | ASC | DESC

  /** `doSort`: the direction a click on the header emits through `onSort`;
      `None` when the header has no `onSort` (the button is then disabled and
      nothing is emitted). Whatever the header shows, a click never asks
      for the unsorted state. */
  function DoSort(sortDirection: Option<SortDirection>, hasOnSort: bool): (r: Option<SortDirection>)
    ensures r.Some? <==> hasOnSort
    ensures r != Some(NONE)
  {
    if !hasOnSort then None
    else if sortDirection == Some(NONE) then Some(DESC)
    else if sortDirection == Some(DESC) then Some(ASC)
    else Some(DESC)
  }

  /** The cycle: unsorted, ascending and no direction go to descending, and
      descending goes to ascending. */
  lemma DoSortCycle(sortDirection: Option<SortDirection>)
    ensures DoSort(sortDirection, true) == Some(if sortDirection == Some(DESC) then ASC else DESC)
    ensures DoSort(Some(DESC), true) == Some(ASC) && DoSort(Some(ASC), true) == Some(DESC)
  {
  }

  /** Once the header shows what it emitted, further clicks alternate
      between descending and ascending. */
  lemma DoSortAlternates(sortDirection: Option<SortDirection>)
    ensures var first := DoSort(sortDirection, true);
      var second := DoSort(first, true);
      second.Some? && first.Some? && second != first && DoSort(second, true) == first
  {
  }

  /** One column and its direction (`SortByPaymentRequests`, `SortByUsers`). */
  datatype SortBy = SortBy(name: string, direction: SortDirection)

  /** The table's two-level sort. */
  datatype DoubleSort = DoubleSort(primary: SortBy, secondary: Option<SortBy>)

  /** The sort a table asks for after a header emits `sortInfo`: the clicked
      column becomes the primary sort; re-clicking the primary column keeps
      the secondary sort, while a click on another column demotes the old
      primary sort to secondary. */
  function Resort(sortBy: Option<DoubleSort>, sortInfo: SortBy): (r: DoubleSort)
    ensures r.primary == sortInfo
    ensures sortBy.Some? && sortBy.value.primary.name == sortInfo.name ==> r.secondary == sortBy.value.secondary
    ensures sortBy.Some? && sortBy.value.primary.name != sortInfo.name ==> r.secondary == Some(sortBy.value.primary)
    ensures sortBy.None? ==> r.secondary.None?
  {
    if sortBy.Some? && sortBy.value.primary.name == sortInfo.name then
      DoubleSort(sortInfo, sortBy.value.secondary)
    else
      DoubleSort(sortInfo, if sortBy.Some? then Some(sortBy.value.primary) else None)
  }

  /** A two-level sort never sorts twice by the same column. */
  predicate TwoColumns(s: DoubleSort) {
    s.secondary.None? || s.secondary.value.name != s.primary.name
  }

  /** Starting from no sort, or from a sort on two different columns, every
      click keeps the two levels on different columns. */
  lemma ResortKeepsTwoColumns(sortBy: Option<DoubleSort>, sortInfo: SortBy)
    requires sortBy.None? || TwoColumns(sortBy.value)
    ensures TwoColumns(Resort(sortBy, sortInfo))
  {
  }

  /** Any run of clicks from no sort keeps two different columns. */
  function ResortAll(sortBy: Option<DoubleSort>, clicks: seq<SortBy>): (r: Option<DoubleSort>)
    ensures clicks != [] ==> r.Some? && r.value.primary == clicks[|clicks| - 1]
    ensures clicks == [] ==> r == sortBy
    decreases |clicks|
  {
    if clicks == [] then sortBy else ResortAll(Some(Resort(sortBy, clicks[0])), clicks[1..])
  }

  lemma {:induction false} ResortAllKeepsTwoColumns(sortBy: Option<DoubleSort>, clicks: seq<SortBy>)
    requires sortBy.None? || TwoColumns(sortBy.value)
    ensures var r := ResortAll(sortBy, clicks); r.None? || TwoColumns(r.value)
    decreases |clicks|
  {
    if clicks != [] {
      ResortKeepsTwoColumns(sortBy, clicks[0]);
      ResortAllKeepsTwoColumns(Some(Resort(sortBy, clicks[0])), clicks[1..]);
    }
  }

  /** Clicking the primary column again only flips its direction: the
      secondary sort survives any number of re-clicks. */
  lemma ReclickKeepsSecondary(sortBy: DoubleSort, first: SortBy, again: SortBy)
    requires first.name == again.name
    ensures Resort(Some(Resort(Some(sortBy), first)), again).secondary == Resort(Some(sortBy), first).secondary
  {
  }
}

=== FILE: custom_modal.dfy ===
/** The filter dialog frame: its "Use as my default" checkbox, the apply
    button and the restore on dismiss.
    Source: packages/components/src/components/ui/CustomModal/CustomModal.tsx */
module CustomModal {
  import opened Prelude

  /** The dialog's two `useState` fields (`currentState` is the checkbox
      value at the last apply, absent before any), and the values passed to
      `onApply` and the calls of `onDismiss`. */
  class Dialog {
    var isDefaultChecked: bool
    var currentState: Option<bool>
    var applied: seq<bool>
    var dismissals: nat

    /** `currentState` holds the last applied value, and only once the
        dialog has been applied. */
    predicate Valid()
      reads this
    {
      (currentState.Some? <==> |applied| > 0) &&
      (currentState.Some? ==> currentState.value == applied[|applied| - 1])
    }

    constructor ()
      ensures Valid()
      ensures !isDefaultChecked && currentState.None? && applied == [] && dismissals == 0
    {
      isDefaultChecked := false;
      currentState := None;
      applied := [];
      dismissals := 0;
    }

    /** The checkbox's `onChange`. */
    method SetIsDefaultChecked(value: bool)
      requires Valid()
      modifies this
      ensures Valid()
      ensures isDefaultChecked == value
      ensures currentState == old(currentState) && applied == old(applied) && dismissals == old(dismissals)
    {
      isDefaultChecked := value;
    }

    /** `onApplyClicked`: without `onApply` nothing happens; otherwise the
        checkbox value is remembered and passed on. */
    method OnApplyClicked(hasOnApply: bool)
      requires Valid()
      modifies this
      ensures Valid()
      ensures isDefaultChecked == old(isDefaultChecked) && dismissals == old(dismissals)
      ensures hasOnApply ==> currentState == Some(isDefaultChecked) && applied == old(applied) + [isDefaultChecked]
      ensures !hasOnApply ==> currentState == old(currentState) && applied == old(applied)
    {
      if !hasOnApply {
        return;
      }
      currentState := Some(isDefaultChecked);
      applied := applied + [isDefaultChecked];
    }

    /** `handleOnDismiss`: `onDismiss` is called and the checkbox goes back
        to the last applied value; before any apply it keeps its value. */
    method HandleOnDismiss()
      requires Valid()
      modifies this
      ensures Valid()
      ensures dismissals == old(dismissals) + 1
      ensures isDefaultChecked == if |applied| > 0 then applied[|applied| - 1] else old(isDefaultChecked)
      ensures currentState == old(currentState) && applied == old(applied)
    {
      dismissals := dismissals + 1;
      if currentState.Some? {
        isDefaultChecked := currentState.value;
      }
    }
  }

  /** Changes that were not applied are undone by a dismiss: after an
      apply, any number of checkbox changes and a dismiss, the checkbox
      shows the applied value again. */
  method ApplyChangeDismiss(d: Dialog, changes: seq<bool>)
    requires d.Valid()
    modifies d
    ensures d.Valid()
    ensures d.isDefaultChecked == old(d.isDefaultChecked)
    ensures d.applied == old(d.applied) + [old(d.isDefaultChecked)]
  {
    d.OnApplyClicked(true);
    for i := 0 to |changes|
      invariant d.Valid()
      invariant d.applied == old(d.applied) + [old(d.isDefaultChecked)]
    {
      d.SetIsDefaultChecked(changes[i]);
    }
    d.HandleOnDismiss();
  }

  /** Before the first apply, a dismiss keeps the unapplied change. */
  method ChangeDismissBeforeApply(d: Dialog, value: bool)
    requires d.Valid() && d.applied == []
    modifies d
    ensures d.Valid()
    ensures d.isDefaultChecked == value && d.applied == []
  {
    d.SetIsDefaultChecked(value);
    d.HandleOnDismiss();
  }
}

=== FILE: details_tabs.dfy ===
/** The payment request details: the list of payment attempts shown in the
    "Payment attempts" tab.
    Source: packages/components/src/components/ui/DetailsTabs/DetailsTabs.tsx */
module DetailsTabs {
  import opened Prelude
  import opened PaymentRequestRow

  /** An attempt that reached any of the seven recorded events. */
  predicate HasEvent(a: PaymentAttempt) {
    a.cardAuthorisedAt.Some? || a.authorisedAt.Some? || a.settledAt.Some? ||
    a.cardPayerAuthenticationSetupFailedAt.Some? || a.cardAuthoriseFailedAt.Some? ||
    a.settleFailedAt.Some? || a.pispAuthorisationFailedAt.Some?
  }

  /** The `filter`: the attempts with an event, in their order. */
  function WithEvents(attempts: seq<PaymentAttempt>): (r: seq<PaymentAttempt>)
    ensures forall i :: 0 <= i < |r| ==> HasEvent(r[i])
    ensures forall a :: multiset(r)[a] == if HasEvent(a) then multiset(attempts)[a] else 0
  {
    if attempts == [] then []
    else
      assert attempts == [attempts[0]] + attempts[1..];
      (if HasEvent(attempts[0]) then [attempts[0]] else []) + WithEvents(attempts[1..])
  }

  /** The time the `sort` compares: `latestEventOccurredAt ?? 0`. */
  function EventTime(a: PaymentAttempt): int {
    a.latestEventOccurredAt.GetOr(0)
  }

  predicate LatestFirst(xs: seq<PaymentAttempt>) {
    forall i, j :: 0 <= i < j < |xs| ==> EventTime(xs[j]) <= EventTime(xs[i])
  }

  /** Insertion before the first attempt that is not later. */
  function InsertByTime(a: PaymentAttempt, xs: seq<PaymentAttempt>): (r: seq<PaymentAttempt>)
    ensures multiset(r) == multiset(xs) + multiset{a}
  {
    if xs == [] then [a]
    else if EventTime(xs[0]) <= EventTime(a) then [a] + xs
    else
      assert xs == [xs[0]] + xs[1..];
      [xs[0]] + InsertByTime(a, xs[1..])
  }

  /** Insertion keeps a list latest first. */
  lemma {:induction false} InsertLatestFirst(a: PaymentAttempt, xs: seq<PaymentAttempt>)
    requires LatestFirst(xs)
    ensures LatestFirst(InsertByTime(a, xs))
  {
    if xs != [] && EventTime(xs[0]) > EventTime(a) {
      var rest := InsertByTime(a, xs[1..]);
      InsertLatestFirst(a, xs[1..]);
      forall j | 0 <= j < |rest| ensures EventTime(rest[j]) <= EventTime(xs[0]) {
        assert rest[j] in multiset(rest);
        if rest[j] != a {
          assert rest[j] in multiset(xs[1..]);
          var k :| 0 <= k < |xs[1..]| && xs[1..][k] == rest[j];
          assert xs[k + 1] == rest[j];
        }
      }
      var r := InsertByTime(a, xs);
      assert r == [xs[0]] + rest;
      forall i, j | 0 <= i < j < |r| ensures EventTime(r[j]) <= EventTime(r[i]) {
        if i > 0 {
          assert r[i] == rest[i - 1] && r[j] == rest[j - 1];
        }
      }
    }
  }

  /** The `sort`: latest event first. */
  function SortLatestFirst(xs: seq<PaymentAttempt>): (r: seq<PaymentAttempt>)
    ensures LatestFirst(r)
    ensures multiset(r) == multiset(xs)
  {
    if xs == [] then []
    else
      assert xs == [xs[0]] + xs[1..];
      InsertLatestFirst(xs[0], SortLatestFirst(xs[1..]));
      InsertByTime(xs[0], SortLatestFirst(xs[1..]))
  }

  /** The attempts with event time `t`, in their order. */
  function AtTime(xs: seq<PaymentAttempt>, t: int): (r: seq<PaymentAttempt>)
    ensures forall i :: 0 <= i < |r| ==> EventTime(r[i]) == t
  {
    if xs == [] then []
    else (if EventTime(xs[0]) == t then [xs[0]] else []) + AtTime(xs[1..], t)
  }

  /** Insertion puts `a` before every attempt of its time and leaves the
      attempts of every other time as they were. */
  lemma {:induction false} InsertAtTime(a: PaymentAttempt, xs: seq<PaymentAttempt>, t: int)
    ensures AtTime(InsertByTime(a, xs), t)
      == (if EventTime(a) == t then [a] else []) + AtTime(xs, t)
  {
    if xs == [] {
    } else if EventTime(xs[0]) <= EventTime(a) {
      AtTimeCons(a, xs, t);
    } else {
      InsertAtTime(a, xs[1..], t);
      AtTimeCons(xs[0], InsertByTime(a, xs[1..]), t);
    }
  }

  lemma AtTimeCons(x: PaymentAttempt, xs: seq<PaymentAttempt>, t: int)
    ensures EventTime(x) == t ==> AtTime([x] + xs, t) == [x] + AtTime(xs, t)
    ensures EventTime(x) != t ==> AtTime([x] + xs, t) == AtTime(xs, t)
  {
    assert ([x] + xs)[1..] == xs;
  }

  /** The sort is stable, as `Array.prototype.sort` is: attempts with the
      same event time keep their input order. */
  lemma {:induction false} SortStable(xs: seq<PaymentAttempt>, t: int)
    ensures AtTime(SortLatestFirst(xs), t) == AtTime(xs, t)
  {
    if xs != [] {
      SortStable(xs[1..], t);
      InsertAtTime(xs[0], SortLatestFirst(xs[1..]), t);
    }
  }

  /** The attempts the tab lists: those with an event, latest first, each
      as often as in the request. */
  function ListedAttempts(attempts: seq<PaymentAttempt>): (r: seq<PaymentAttempt>)
    ensures LatestFirst(r)
    ensures forall i :: 0 <= i < |r| ==> HasEvent(r[i])
    ensures forall a :: multiset(r)[a] == if HasEvent(a) then multiset(attempts)[a] else 0
  {
    var shown := WithEvents(attempts);
    var r := SortLatestFirst(shown);
    assert forall i :: 0 <= i < |r| ==> r[i] in multiset(shown);
    r
  }

  /** The `filter` keeps the order of each time's attempts. */
  lemma {:induction false} WithEventsAtTime(xs: seq<PaymentAttempt>, t: int)
    ensures AtTime(WithEvents(xs), t) == WithEvents(AtTime(xs, t))
  {
    if xs != [] {
      assert xs == [xs[0]] + xs[1..];
      WithEventsAtTime(xs[1..], t);
      WithEventsAtTimeCons(xs[0], xs[1..], t);
    }
  }

  lemma WithEventsAtTimeCons(x: PaymentAttempt, rest: seq<PaymentAttempt>, t: int)
    requires AtTime(WithEvents(rest), t) == WithEvents(AtTime(rest, t))
    ensures AtTime(WithEvents([x] + rest), t) == WithEvents(AtTime([x] + rest, t))
  {
    WithEventsCons(x, rest);
    AtTimeCons(x, rest, t);
    if HasEvent(x) {
      AtTimeCons(x, WithEvents(rest), t);
    }
    if EventTime(x) == t {
      WithEventsCons(x, AtTime(rest, t));
    }
  }

  lemma WithEventsCons(x: PaymentAttempt, xs: seq<PaymentAttempt>)
    ensures HasEvent(x) ==> WithEvents([x] + xs) == [x] + WithEvents(xs)
    ensures !HasEvent(x) ==> WithEvents([x] + xs) == WithEvents(xs)
  {
    assert ([x] + xs)[1..] == xs;
  }

  /** Attempts listed at the same time appear in request order. */
  lemma ListedKeepsRequestOrder(xs: seq<PaymentAttempt>, t: int)
    ensures AtTime(ListedAttempts(xs), t) == WithEvents(AtTime(xs, t))
  {
    SortStable(WithEvents(xs), t);
    WithEventsAtTime(xs, t);
  }

  /** An attempt with an event is listed, and one without is not. */
  lemma ListedIffEvent(attempts: seq<PaymentAttempt>, a: PaymentAttempt)
    requires a in attempts
    ensures a in ListedAttempts(attempts) <==> HasEvent(a)
  {
    assert a in multiset(attempts);
    assert a in ListedAttempts(attempts) <==> a in multiset(ListedAttempts(attempts));
  }

  /** Attempts without an event time sort as time 0: nothing listed after
      one of them has a later time. */
  lemma UntimedAfterTimed(attempts: seq<PaymentAttempt>, i: nat, j: nat)
    requires var r := ListedAttempts(attempts); i < j < |r| && r[i].latestEventOccurredAt.None?
    ensures EventTime(ListedAttempts(attempts)[j]) <= 0
  {
    var r := ListedAttempts(attempts);
    assert EventTime(r[i]) == 0;
  }

  /** `cardAuthoriseOnly`: a request that does not capture funds only
      authorises cards. */
  predicate CardAuthoriseOnly(captureFunds: bool) {
    !captureFunds
  }
}

=== FILE: edit_columns.dfy ===
/** The table's column picker: a checkbox per column, with the last
    selected column's checkbox disabled so that a table always shows one.
    Source: packages/components/src/components/ui/molecules/EditColumns/EditColumns.tsx */
module EditColumns {
  import opened Prelude

  /** A table column. The picker flips `selected` on the object itself. */
  class Column {
    const id: string
    /** `column.label` (`label` is a reserved word here). */
    const labelText: string
    var selected: bool

    constructor (id: string, labelText: string, selected: bool)
      ensures this.id == id && this.labelText == labelText && this.selected == selected
    {
      this.id := id;
      this.labelText := labelText;
      this.selected := selected;
    }
  }

  /** The `selected` flags, column by column. */
  function Selections(columns: seq<Column>): (r: seq<bool>)
    reads columns
    ensures |r| == |columns| && forall i :: 0 <= i < |columns| ==> r[i] == columns[i].selected
  {
    if columns == [] then [] else [columns[0].selected] + Selections(columns[1..])
  }

  function CountTrue(bs: seq<bool>): (r: nat)
    ensures r <= |bs|
    ensures r == 0 <==> forall i :: 0 <= i < |bs| ==> !bs[i]
  {
    if bs == [] then 0 else (if bs[0] then 1 else 0) + CountTrue(bs[1..])
  }

  /** `columns.filter((column) => column.selected).length` */
  function SelectedCount(columns: seq<Column>): nat
    reads columns
  {
    CountTrue(Selections(columns))
  }

  /** `columns.find((column) => column.selected)` */
  function FirstSelected(columns: seq<Column>): (r: Option<Column>)
    reads columns
    ensures r.Some? <==> exists i :: 0 <= i < |columns| && columns[i].selected
    ensures r.Some? ==> r.value in columns && r.value.selected
  {
    if columns == [] then None
    else if columns[0].selected then Some(columns[0])
    else
      assert forall i :: 1 <= i < |columns| ==> columns[1..][i - 1] == columns[i];
      FirstSelected(columns[1..])
  }

  /** `singleSelectedColumn`: the selected column when exactly one is. */
  function SingleSelectedColumn(columns: seq<Column>): (r: Option<Column>)
    reads columns
    ensures r.Some? <==> SelectedCount(columns) == 1
    ensures r.Some? ==> r.value in columns && r.value.selected
  {
    if SelectedCount(columns) == 1 then
      assert exists i :: 0 <= i < |columns| && columns[i].selected by {
        assert CountTrue(Selections(columns)) != 0;
      }
      FirstSelected(columns)
    else None
  }

  /** The `disabled` flag of a column's checkbox. */
  predicate CheckboxDisabled(columns: seq<Column>, column: Column)
    reads columns, column
  {
    var single := SingleSelectedColumn(columns);
    single.Some? && single.value.id == column.id
  }

  /** Column ids are distinct. */
  predicate UniqueIds(columns: seq<Column>)
    reads columns
  {
    forall i, j :: 0 <= i < j < |columns| ==> columns[i].id != columns[j].id
  }

  /** Only the sole selected column's checkbox is disabled. */
  lemma DisabledIsSoleSelected(columns: seq<Column>, index: nat)
    requires index < |columns| && UniqueIds(columns)
    ensures CheckboxDisabled(columns, columns[index]) <==> SelectedCount(columns) == 1 && columns[index].selected
  {
    var single := SingleSelectedColumn(columns);
    if SelectedCount(columns) == 1 && columns[index].selected {
      var k :| 0 <= k < |columns| && columns[k] == single.value;
      if k != index {
        OnlyOneSelected(Selections(columns), k, index);
      }
    }
  }

  /** With exactly one flag set, two different positions cannot both be set. */
  lemma {:induction false} OnlyOneSelected(bs: seq<bool>, i: nat, j: nat)
    requires i < |bs| && j < |bs| && i != j && bs[i] && bs[j]
    ensures CountTrue(bs) >= 2
  {
    if i > 0 && j > 0 {
      OnlyOneSelected(bs[1..], i - 1, j - 1);
    } else if i == 0 {
      assert bs[1..][j - 1];
      assert CountTrue(bs[1..]) != 0;
    } else {
      assert bs[1..][i - 1];
      assert CountTrue(bs[1..]) != 0;
    }
  }

  /** The checkbox's `onChange`: the array is copied, but the column object
      is shared, so the flag changes in the caller's array as well. Every
      entry holding that same object changes with it; when ids are distinct
      the entries are distinct objects and only the flag at `index` changes. */
  method ToggleColumn(columns: seq<Column>, index: nat, value: bool) returns (newColumns: seq<Column>)
    requires index < |columns|
    modifies columns[index]
    ensures newColumns == columns
    ensures forall j :: 0 <= j < |columns| ==>
      columns[j].selected == if columns[j] == columns[index] then value else old(columns[j].selected)
    ensures UniqueIds(columns) ==> Selections(newColumns) == old(Selections(columns))[index := value]
  {
    newColumns := columns;
    newColumns[index].selected := value;
  }

  /** A toggle that the panel allows cannot leave zero columns selected. */
  lemma {:induction false} ToggleKeepsOneSelected(bs: seq<bool>, index: nat, value: bool)
    requires index < |bs| && CountTrue(bs) >= 1
    requires !(CountTrue(bs) == 1 && bs[index])
    ensures CountTrue(bs[index := value]) >= 1
  {
    if index == 0 {
      assert bs[index := value][1..] == bs[1..];
    } else {
      assert bs[index := value][1..] == bs[1..][index - 1 := value];
      if bs[0] {
      } else {
        ToggleKeepsOneSelected(bs[1..], index - 1, value);
      }
    }
  }

  /** `columns.find((x) => x.id == columnId)` */
  function FindById(columns: seq<Column>, columnId: string): (r: Option<nat>)
    reads columns
    ensures r.Some? ==> r.value < |columns| && columns[r.value].id == columnId
    ensures r.Some? ==> forall j :: 0 <= j < r.value ==> columns[j].id != columnId
    ensures r.None? ==> forall j :: 0 <= j < |columns| ==> columns[j].id != columnId
  {
    if columns == [] then None
    else if columns[0].id == columnId then Some(0)
    else
      var rest := FindById(columns[1..], columnId);
      if rest.Some? then Some(rest.value + 1) else None
  }

  /** `isColumnSelected`, in the payment request table and in its rows: a
      column is shown when the table has columns and the first column with
      that id is selected. */
  predicate IsColumnSelected(columns: Option<seq<Column>>, columnId: string)
    reads if columns.Some? then columns.value else []
  {
    columns.Some? && var found := FindById(columns.value, columnId); found.Some? && columns.value[found.value].selected
  }

  /** With distinct ids, a column is shown exactly when its own flag is set;
      so after `ToggleColumn(columns, index, value)` the table shows that
      column exactly when `value` holds. */
  lemma ColumnShownIffSelected(columns: seq<Column>, index: nat)
    requires index < |columns| && UniqueIds(columns)
    ensures IsColumnSelected(Some(columns), columns[index].id) <==> columns[index].selected
  {
    var found := FindById(columns, columns[index].id);
    assert found == Some(index);
  }

  /** Without a column list nothing is shown. */
  lemma NoColumnsNothingShown(columnId: string)
    ensures !IsColumnSelected(None, columnId)
  {
  }
}

=== FILE: import_invoice_modal.dfy ===
/** The invoice import dialog: the CSV template header, the rows loaded
    from a file, which of them are selected, and what is imported.
    Source: packages/components/src/components/ui/Modals/ImportInvoiceModal/ImportInvoiceModal.tsx */
module ImportInvoices {
  import opened Prelude
  import opened Validation

  // ---- template header (ImportInvoiceModal.tsx:34-80) ------------------------

  /** The properties of a `LocalInvoice`. */
  datatype InvoiceField =
    | Id | InvoiceNumber | PaymentTerms | InvoiceDate | DueDate | Contact | Currency
    | Subtotal | Discounts | Taxes | TotalAmount | InvoiceStatus | Reference
    | RemittanceEmail | DestinationIban | DestinationAccountNumber | DestinationSortCode

  /** A property's name, as `Object.getOwnPropertyNames` reports it. */
  function FieldName(f: InvoiceField): string {
    match f
    case Id => "Id"
    case InvoiceNumber => "InvoiceNumber"
    case PaymentTerms => "PaymentTerms"
    case InvoiceDate => "InvoiceDate"
    case DueDate => "DueDate"
    case Contact => "Contact"
    case Currency => "Currency"
    case Subtotal => "Subtotal"
    case Discounts => "Discounts"
    case Taxes => "Taxes"
    case TotalAmount => "TotalAmount"
    case InvoiceStatus => "InvoiceStatus"
    case Reference => "Reference"
    case RemittanceEmail => "RemittanceEmail"
    case DestinationIban => "DestinationIban"
    case DestinationAccountNumber => "DestinationAccountNumber"
    case DestinationSortCode => "DestinationSortCode"
  }

  function FieldNames(fs: seq<InvoiceField>): (r: seq<string>)
    ensures |r| == |fs| && forall i :: 0 <= i < |fs| ==> r[i] == FieldName(fs[i])
  {
    if fs == [] then [] else [FieldName(fs[0])] + FieldNames(fs[1..])
  }

  /** The own properties of the IBAN-variant dummy invoice, in declaration
      order. */
  const IbanInvoiceFields: seq<InvoiceField> := [
    Id, InvoiceNumber, PaymentTerms, InvoiceDate, DueDate, Contact, Currency,
    Subtotal, Discounts, Taxes, TotalAmount, InvoiceStatus, Reference,
    RemittanceEmail, DestinationIban]

  /** The own properties of the account-variant dummy invoice. */
  const AccountInvoiceFields: seq<InvoiceField> := [
    Id, InvoiceNumber, PaymentTerms, InvoiceDate, DueDate, Contact, Currency,
    Subtotal, Discounts, Taxes, TotalAmount, InvoiceStatus, Reference,
    RemittanceEmail, DestinationAccountNumber, DestinationSortCode]

  /** The header the template has. */
  const TemplateFields: seq<InvoiceField> := [
    InvoiceNumber, PaymentTerms, InvoiceDate, DueDate, Contact, Currency,
    Subtotal, Discounts, Taxes, TotalAmount, Reference, RemittanceEmail,
    DestinationIban, DestinationAccountNumber, DestinationSortCode]

  /** `xs.filter((x) => !drop.includes(x))` */
  function Excluding(xs: seq<InvoiceField>, drop: seq<InvoiceField>): (r: seq<InvoiceField>)
    ensures |r| <= |xs|
  {
    if xs == [] then []
    else (if xs[0] in drop then [] else [xs[0]]) + Excluding(xs[1..], drop)
  }

  /** The filter keeps exactly the elements not dropped. */
  lemma {:induction false} ExcludingMembers(xs: seq<InvoiceField>, drop: seq<InvoiceField>)
    ensures forall x :: x in Excluding(xs, drop) <==> x in xs && x !in drop
  {
    if xs != [] {
      ExcludingMembers(xs[1..], drop);
      assert xs == [xs[0]] + xs[1..];
    }
  }

  lemma {:induction false} ExcludingAppend(a: seq<InvoiceField>, b: seq<InvoiceField>, drop: seq<InvoiceField>)
    ensures Excluding(a + b, drop) == Excluding(a, drop) + Excluding(b, drop)
  {
    if a == [] {
      assert a + b == b;
    } else {
      assert (a + b)[0] == a[0] && (a + b)[1..] == a[1..] + b;
      ExcludingAppend(a[1..], b, drop);
      var h := if a[0] in drop then [] else [a[0]];
      assert Excluding(a + b, drop) == h + Excluding(a[1..] + b, drop);
      assert h + (Excluding(a[1..], drop) + Excluding(b, drop)) == (h + Excluding(a[1..], drop)) + Excluding(b, drop);
    }
  }

  lemma {:induction false} ExcludingNone(xs: seq<InvoiceField>, drop: seq<InvoiceField>)
    requires forall x :: x in xs ==> x !in drop
    ensures Excluding(xs, drop) == xs
  {
    if xs != [] {
      ExcludingNone(xs[1..], drop);
    }
  }

  lemma {:induction false} ExcludingAll(xs: seq<InvoiceField>, drop: seq<InvoiceField>)
    requires forall x :: x in xs ==> x in drop
    ensures Excluding(xs, drop) == []
  {
    if xs != [] {
      ExcludingAll(xs[1..], drop);
    }
  }

  lemma AccountVariantSplit()
    ensures AccountInvoiceFields == IbanInvoiceFields[..14] + [DestinationAccountNumber, DestinationSortCode]
  {
  }

  lemma SharedFieldsDropped()
    ensures Excluding(IbanInvoiceFields[..14], IbanInvoiceFields) == []
  {
    ExcludingAll(IbanInvoiceFields[..14], IbanInvoiceFields);
  }

  lemma AccountFieldsKept()
    ensures Excluding([DestinationAccountNumber, DestinationSortCode], IbanInvoiceFields) == [DestinationAccountNumber, DestinationSortCode]
    ensures Excluding([DestinationAccountNumber, DestinationSortCode], [Id, InvoiceStatus]) == [DestinationAccountNumber, DestinationSortCode]
  {
    ExcludingNone([DestinationAccountNumber, DestinationSortCode], IbanInvoiceFields);
    ExcludingNone([DestinationAccountNumber, DestinationSortCode], [Id, InvoiceStatus]);
  }

  /** The account-variant properties the IBAN variant lacks. */
  lemma AccountOnlyFields()
    ensures Excluding(AccountInvoiceFields, IbanInvoiceFields) == [DestinationAccountNumber, DestinationSortCode]
  {
    AccountVariantSplit();
    ExcludingAppend(IbanInvoiceFields[..14], [DestinationAccountNumber, DestinationSortCode], IbanInvoiceFields);
    SharedFieldsDropped();
    AccountFieldsKept();
  }

  /** The IBAN-variant properties between `Id` and `InvoiceStatus`, and
      after `InvoiceStatus`. */
  const IbanMiddle: seq<InvoiceField> := [
    InvoiceNumber, PaymentTerms, InvoiceDate, DueDate, Contact, Currency,
    Subtotal, Discounts, Taxes, TotalAmount]
  const IbanTail: seq<InvoiceField> := [Reference, RemittanceEmail, DestinationIban]

  lemma IbanVariantSplit()
    ensures IbanInvoiceFields == ([Id] + IbanMiddle) + ([InvoiceStatus] + IbanTail)
  {
  }

  lemma HeadDropped(a: seq<InvoiceField>, d: InvoiceField)
    requires Id !in a && InvoiceStatus !in a
    requires d == Id || d == InvoiceStatus
    ensures Excluding([d] + a, [Id, InvoiceStatus]) == a
  {
    ExcludingAppend([d], a, [Id, InvoiceStatus]);
    ExcludingNone(a, [Id, InvoiceStatus]);
  }

  lemma HeadsDropped(a: seq<InvoiceField>, b: seq<InvoiceField>)
    requires Id !in a && InvoiceStatus !in a && Id !in b && InvoiceStatus !in b
    ensures Excluding(([Id] + a) + ([InvoiceStatus] + b), [Id, InvoiceStatus]) == a + b
  {
    ExcludingAppend([Id] + a, [InvoiceStatus] + b, [Id, InvoiceStatus]);
    HeadDropped(a, Id);
    HeadDropped(b, InvoiceStatus);
  }

  /** The IBAN-variant properties without `Id` and `InvoiceStatus`. */
  lemma IbanFieldsKept()
    ensures Excluding(IbanInvoiceFields, [Id, InvoiceStatus]) == IbanMiddle + IbanTail
  {
    IbanVariantSplit();
    HeadsDropped(IbanMiddle, IbanTail);
  }

  lemma TemplateFieldsSplit()
    ensures TemplateFields == IbanMiddle + IbanTail + [DestinationAccountNumber, DestinationSortCode]
  {
  }

  /** The template header has no property twice, and holds every property
      of either variant except `Id` and `InvoiceStatus`. */
  lemma TemplateFieldsDistinct()
    ensures NoDuplicates(TemplateFields)
    ensures forall c :: c in TemplateFields <==> (c in IbanInvoiceFields || c in AccountInvoiceFields) && c != Id && c != InvoiceStatus
  {
  }

  predicate NoDuplicates<T(==)>(xs: seq<T>) {
    forall i, j :: 0 <= i < j < |xs| ==> xs[i] != xs[j]
  }

  /** `getTemplateColumns`: the IBAN-variant properties, then the
      account-variant properties not already present, without `Id` and
      `InvoiceStatus`, comma-joined. */
  method GetTemplateColumns() returns (columns: seq<InvoiceField>, header: string)
    ensures header == Join(FieldNames(columns), ",")
    ensures columns == TemplateFields
  {
    columns := IbanInvoiceFields;
    AccountOnlyFields();
    columns := columns + Excluding(AccountInvoiceFields, columns);
    ExcludingAppend(IbanInvoiceFields, [DestinationAccountNumber, DestinationSortCode], [Id, InvoiceStatus]);
    IbanFieldsKept();
    AccountFieldsKept();
    columns := Excluding(columns, [Id, InvoiceStatus]);
    TemplateFieldsSplit();
    header := Join(FieldNames(columns), ",");
  }

  // ---- loaded rows and selection -----------------------------------------------

  /** `validationResults.filter((r) => r.valid).map((r) => r.result)` */
  function ValidRows(results: seq<ValidationResult>): (r: seq<InvoiceRow>)
    ensures |r| <= |results|
  {
    if results == [] then []
    else (if results[0].valid then [results[0].result] else []) + ValidRows(results[1..])
  }

  /** The rows the invoice schema accepts, in file order. */
  function AcceptedRows(rows: seq<InvoiceRow>, isEmail: string -> bool): (r: seq<InvoiceRow>)
    ensures forall x :: x in r ==> x in rows && RowAcceptable(x, isEmail)
    ensures forall x :: x in rows && RowAcceptable(x, isEmail) ==> x in r
  {
    if rows == [] then []
    else (if RowAcceptable(rows[0], isEmail) then [rows[0]] else []) + AcceptedRows(rows[1..], isEmail)
  }

  /** The valid results of `validateInvoices` are the accepted rows. */
  lemma {:induction false} ValidRowsAccepted(rows: seq<InvoiceRow>, results: seq<ValidationResult>, isEmail: string -> bool)
    requires |results| == |rows|
    requires forall i :: 0 <= i < |rows| ==> results[i].result == rows[i] && (results[i].valid <==> RowAcceptable(rows[i], isEmail))
    ensures ValidRows(results) == AcceptedRows(rows, isEmail)
  {
    if rows != [] {
      ValidRowsAccepted(rows[1..], results[1..], isEmail);
    }
  }

  /** The first steps of the parse's `complete` callback: the rows are
      validated, and the valid results kept. */
  method ValidateAndFilter(rows: seq<InvoiceRow>, isEmail: string -> bool)
    returns (results: seq<ValidationResult>, validResults: seq<InvoiceRow>)
    ensures ReportsRows(results, rows, isEmail)
    ensures validResults == AcceptedRows(rows, isEmail)
  {
    results := ValidateInvoices(rows, isEmail);
    validResults := ValidRows(results);
    ValidRowsAccepted(rows, results, isEmail);
  }

  /** `invoices.map((invoice) => invoice.InvoiceNumber)` */
  function InvoiceNumbers(invoices: seq<InvoiceRow>): (r: seq<Option<string>>)
    ensures |r| == |invoices|
    ensures forall i :: 0 <= i < |r| ==> r[i] == invoices[i].invoiceNumber
  {
    if invoices == [] then [] else [invoices[0].invoiceNumber] + InvoiceNumbers(invoices[1..])
  }

  /** `invoices.filter((invoice) => selected.includes(invoice.InvoiceNumber))` */
  function SelectedOnly(invoices: seq<InvoiceRow>, selected: seq<Option<string>>): (r: seq<InvoiceRow>)
    ensures forall x :: x in r <==> x in invoices && x.invoiceNumber in selected
    ensures |r| <= |invoices|
  {
    if invoices == [] then []
    else (if invoices[0].invoiceNumber in selected then [invoices[0]] else []) + SelectedOnly(invoices[1..], selected)
  }

  /** With every loaded invoice selected, import emits them all, in order. */
  lemma {:induction false} AllSelectedImportsAll(invoices: seq<InvoiceRow>, selected: seq<Option<string>>)
    requires forall x :: x in invoices ==> x.invoiceNumber in selected
    ensures SelectedOnly(invoices, selected) == invoices
  {
    if invoices != [] {
      assert invoices[0] in invoices;
      AllSelectedImportsAll(invoices[1..], selected);
      assert invoices == [invoices[0]] + invoices[1..];
    }
  }

  /** With nothing selected, import emits nothing. */
  lemma {:induction false} NoneSelectedImportsNone(invoices: seq<InvoiceRow>)
    ensures SelectedOnly(invoices, []) == []
  {
    if invoices != [] {
      NoneSelectedImportsNone(invoices[1..]);
    }
  }

  /** Import emits the loaded invoices in their loaded order: its result is a
      subsequence of them. */
  lemma {:induction false} SelectedOnlyKeepsOrder(invoices: seq<InvoiceRow>, selected: seq<Option<string>>)
    ensures IsSubsequence(SelectedOnly(invoices, selected), invoices)
  {
    if invoices != [] {
      var rest := SelectedOnly(invoices[1..], selected);
      SelectedOnlyKeepsOrder(invoices[1..], selected);
      SubsequenceCons(rest, invoices[1..], invoices[0]);
      assert invoices == [invoices[0]] + invoices[1..];
      if invoices[0].invoiceNumber in selected {
        assert SelectedOnly(invoices, selected) == [invoices[0]] + rest;
      } else {
        assert SelectedOnly(invoices, selected) == rest;
      }
    }
  }

  /** `xs` is `ys` with some elements left out, order kept. */
  predicate IsSubsequence(xs: seq<InvoiceRow>, ys: seq<InvoiceRow>)
    decreases |ys|
  {
    if xs == [] then true
    else if ys == [] then false
    else (xs[0] == ys[0] && IsSubsequence(xs[1..], ys[1..])) || IsSubsequence(xs, ys[1..])
  }

  lemma SubsequenceCons(xs: seq<InvoiceRow>, ys: seq<InvoiceRow>, y: InvoiceRow)
    requires IsSubsequence(xs, ys)
    ensures IsSubsequence(xs, [y] + ys) && IsSubsequence([y] + xs, [y] + ys)
  {
    assert ([y] + ys)[1..] == ys;
    assert ([y] + xs)[1..] == xs;
  }

  datatype Tab = Upload | Review

  /** The selected file: its MIME type and its name. */
  datatype FileInfo = FileInfo(fileType: string, name: string)

  /** What papaparse reports for the file's text: the parsed rows, or an
      error. Reading and parsing the file is not part of this model. */
  datatype ParseOutcome = Parsed(rows: seq<InvoiceRow>) | ParseError

  /** The dialog's `useState` fields. */
  class ImportInvoiceModal {
    var validationResults: Option<seq<ValidationResult>>
    var invoices: Option<seq<InvoiceRow>>
    var hasUploadError: bool
    var selectedTab: Tab
    var isLoading: bool
    var selectedInvoices: seq<Option<string>>
    var fileName: Option<string>

    constructor ()
      ensures validationResults.None? && invoices.None? && !hasUploadError && selectedTab == Upload
      ensures !isLoading && selectedInvoices == [] && fileName.None?
    {
      validationResults := None;
      invoices := None;
      hasUploadError := false;
      selectedTab := Upload;
      isLoading := false;
      selectedInvoices := [];
      fileName := None;
    }

    /** `displayErrorWarning`: a file was loaded but no invoice came of it,
        or some line has errors. */
    function DisplayErrorWarning(): (r: bool)
      reads this
      ensures r <==>
        (StrTruthy(fileName) && (invoices.None? || invoices.value == []))
        || (validationResults.Some? && exists i :: 0 <= i < |validationResults.value| && !validationResults.value[i].valid)
    {
      (StrTruthy(fileName) && (invoices.None? || |invoices.value| == 0))
      || (validationResults.Some? && |InvalidLines(validationResults.value)| > 0)
    }

    /** The effect on `isOpen`: opening the dialog starts afresh. */
    method OnOpenChanged(isOpen: bool)
      modifies this
      ensures isOpen ==>
          selectedTab == Upload && fileName.None? && validationResults == Some([])
          && invoices.None? && selectedInvoices == []
      ensures !isOpen ==>
          selectedTab == old(selectedTab) && fileName == old(fileName)
          && validationResults == old(validationResults) && invoices == old(invoices)
          && selectedInvoices == old(selectedInvoices)
      ensures hasUploadError == old(hasUploadError) && isLoading == old(isLoading)
      ensures isOpen ==> !DisplayErrorWarning()
    {
      if isOpen {
        selectedTab := Upload;
        fileName := None;
        validationResults := Some([]);
        invoices := None;
        selectedInvoices := [];
      }
    }

    /** `handleFileAdded`, with the file's parse completing in the same
        step: a file that is not CSV only raises the upload error; a parsed
        file loads its valid rows, all selected, and moves to the review tab
        when there is at least one. */
    method HandleFileAdded(file: Option<FileInfo>, parse: ParseOutcome, isEmail: string -> bool)
      modifies this
      ensures file.None? ==>
        && validationResults == old(validationResults) && invoices == old(invoices)
        && hasUploadError == old(hasUploadError) && isLoading == old(isLoading)
        && selectedTab == old(selectedTab) && selectedInvoices == old(selectedInvoices) && fileName == old(fileName)
      ensures file.Some? && file.value.fileType != "text/csv" ==>
        && hasUploadError && !isLoading
        && validationResults == old(validationResults) && invoices == old(invoices)
        && selectedTab == old(selectedTab) && selectedInvoices == old(selectedInvoices) && fileName == old(fileName)
      ensures file.Some? && file.value.fileType == "text/csv" && parse.ParseError? ==>
        && hasUploadError && !isLoading
        && validationResults == old(validationResults) && invoices == old(invoices)
        && selectedTab == old(selectedTab) && selectedInvoices == old(selectedInvoices) && fileName == old(fileName)
      ensures file.Some? && file.value.fileType == "text/csv" && parse.Parsed? ==>
        && invoices == Some(AcceptedRows(parse.rows, isEmail))
        && selectedInvoices == InvoiceNumbers(invoices.value)
        && validationResults.Some? && ReportsRows(validationResults.value, parse.rows, isEmail)
        && selectedTab == (if invoices.value != [] then Review else old(selectedTab))
        && fileName == Some(file.value.name) && !isLoading && hasUploadError == old(hasUploadError)
    {
      if file.Some? && file.value.fileType != "text/csv" {
        hasUploadError := true;
        isLoading := false;
        return;
      }
      if file.Some? {
        isLoading := true;
        match parse {
          case ParseError => OnParseError();
          case Parsed(rows) => OnParseComplete(rows, file.value.name, isEmail);
        }
      }
    }

    /** The parse's `complete` callback: the rows are validated, the valid
        ones loaded and all selected, and the review tab shown when there
        is at least one. */
    method OnParseComplete(rows: seq<InvoiceRow>, name: string, isEmail: string -> bool)
      modifies this
      ensures invoices == Some(AcceptedRows(rows, isEmail))
      ensures selectedInvoices == InvoiceNumbers(invoices.value)
      ensures validationResults.Some? && ReportsRows(validationResults.value, rows, isEmail)
      ensures selectedTab == (if invoices.value != [] then Review else old(selectedTab))
      ensures fileName == Some(name) && !isLoading && hasUploadError == old(hasUploadError)
    {
      var results, validResults := ValidateAndFilter(rows, isEmail);
      var tab := if |validResults| > 0 then Review else selectedTab;
      validationResults, invoices, selectedInvoices := Some(results), Some(validResults), InvoiceNumbers(validResults);
      isLoading, selectedTab, fileName := false, tab, Some(name);
    }

    /** The parse's `error` callback: loading stops with the upload error. */
    method OnParseError()
      modifies this
      ensures hasUploadError && !isLoading
      ensures validationResults == old(validationResults) && invoices == old(invoices)
      ensures selectedTab == old(selectedTab) && selectedInvoices == old(selectedInvoices) && fileName == old(fileName)
    {
      isLoading := false;
      hasUploadError := true;
    }

    /** `onRemoveFile`: the loaded file is forgotten. */
    method OnRemoveFile()
      modifies this
      ensures fileName.None? && validationResults == Some([]) && invoices.None? && selectedInvoices == []
      ensures hasUploadError == old(hasUploadError) && selectedTab == old(selectedTab) && isLoading == old(isLoading)
      ensures !DisplayErrorWarning()
    {
      fileName := None;
      validationResults := Some([]);
      invoices := None;
      selectedInvoices := [];
    }

    /** `onImportInvoices`: the loaded invoices whose number is selected, in
        loaded order; none when nothing is loaded. */
    function InvoicesToImport(): (r: seq<InvoiceRow>)
      reads this
      ensures forall x :: x in r <==> invoices.Some? && x in invoices.value && x.invoiceNumber in selectedInvoices
      ensures invoices.None? ==> r == []
    {
      match invoices
      case None => []
      case Some(loaded) => SelectedOnly(loaded, selectedInvoices)
    }
  }

  /** `validationResults.filter((r) => !r.valid)` */
  function InvalidLines(results: seq<ValidationResult>): (r: seq<ValidationResult>)
    ensures |r| > 0 <==> exists i :: 0 <= i < |results| && !results[i].valid
  {
    if results == [] then []
    else
      assert forall i :: 1 <= i < |results| ==> results[1..][i - 1] == results[i];
      (if results[0].valid then [] else [results[0]]) + InvalidLines(results[1..])
  }

  /** Right after a file is loaded, every loaded invoice is selected, so
      importing emits exactly the accepted rows of the file. */
  lemma ImportAfterLoad(rows: seq<InvoiceRow>, isEmail: string -> bool)
    ensures var loaded := AcceptedRows(rows, isEmail);
      SelectedOnly(loaded, InvoiceNumbers(loaded)) == loaded
  {
    var loaded := AcceptedRows(rows, isEmail);
    forall x | x in loaded ensures x.invoiceNumber in InvoiceNumbers(loaded) {
      var k :| 0 <= k < |loaded| && loaded[k] == x;
      assert InvoiceNumbers(loaded)[k] == x.invoiceNumber;
    }
    AllSelectedImportsAll(loaded, InvoiceNumbers(loaded));
  }
}

=== FILE: import_invoice_row.dfy ===
/** One invoice in the review list of the invoice import: its destination
    account, the amount shown and its selection switch.
    Source: packages/components/src/components/ui/molecules/ImportInvoiceRow/ImportInvoiceRow.tsx */
module ImportInvoiceRow {
  import opened Prelude

  /** `s.replace(' ', '')`: a string pattern replaces only the first space. */
  function ReplaceFirstSpace(s: string): (r: string)
    ensures ' ' !in s ==> r == s
    ensures ' ' in s ==> |r| == |s| - 1
  {
    if s == [] then []
    else if s[0] == ' ' then s[1..]
    else [s[0]] + ReplaceFirstSpace(s[1..])
  }

  /** The space removed is the first one, and the rest is kept in order. */
  lemma {:induction false} ReplaceFirstSpaceAt(s: string, k: nat)
    requires k < |s| && s[k] == ' ' && ' ' !in s[..k]
    ensures ReplaceFirstSpace(s) == s[..k] + s[k + 1..]
  {
    if k > 0 {
      assert s[0] in s[..k];
      assert s[1..][..k - 1] == s[..k][1..];
      ReplaceFirstSpaceAt(s[1..], k - 1);
      assert s[..k] == [s[0]] + s[1..][..k - 1];
      assert s[k + 1..] == s[1..][k..];
    }
  }

  /** An IBAN written in groups of four, such as "GB33 BUKB 2020", keeps
      every space but the first: "GB33BUKB 2020". */
  lemma GroupedIbanKeepsSpaces(group: string, rest: string)
    requires ' ' !in group && ' ' in rest
    ensures ReplaceFirstSpace(group + " " + rest) == group + rest
    ensures ' ' in ReplaceFirstSpace(group + " " + rest)
  {
    var s := group + " " + rest;
    assert s[|group|] == ' ' && s[..|group|] == group && s[|group| + 1..] == rest;
    ReplaceFirstSpaceAt(s, |group|);
  }

  /** Every space removed (`replaceAll(' ', '')`). */
  function RemoveSpaces(s: string): (r: string)
    ensures ' ' !in r
    ensures forall c :: c != ' ' ==> multiset(r)[c] == multiset(s)[c]
    ensures ' ' !in s ==> r == s
  {
    if s == [] then []
    else
      assert s == [s[0]] + s[1..];
      (if s[0] == ' ' then [] else [s[0]]) + RemoveSpaces(s[1..])
  }

  /** Removing the spaces twice changes nothing more than removing them once. */
  lemma RemoveSpacesIdempotent(s: string)
    ensures RemoveSpaces(RemoveSpaces(s)) == RemoveSpaces(s)
  {
  }

  lemma {:induction false} RemoveSpacesAppend(a: string, b: string)
    ensures RemoveSpaces(a + b) == RemoveSpaces(a) + RemoveSpaces(b)
  {
    if a == [] {
      assert a + b == b;
    } else {
      assert (a + b)[1..] == a[1..] + b;
      RemoveSpacesAppend(a[1..], b);
    }
  }

  /** `destinationAccount` as written: the IBAN with its first space
      removed, else "number - sort code", else "-". */
  function DestinationAccountAsWritten(iban: Option<string>, accountNumber: Option<string>, sortCode: Option<string>): (r: string)
    ensures StrTruthy(iban) ==> r == ReplaceFirstSpace(iban.value)
  {
    if StrTruthy(iban) then ReplaceFirstSpace(iban.value)
    else if StrTruthy(accountNumber) && StrTruthy(sortCode) then accountNumber.value + " - " + sortCode.value
    else "-"
  }

  /** The intended display of the destination account, which the single
      `replace` above falls short of: the IBAN without any space when there
      is one, else the account number and sort code, else a dash. */
  function DestinationAccount(iban: Option<string>, accountNumber: Option<string>, sortCode: Option<string>): (r: string)
    ensures StrTruthy(iban) ==> r == RemoveSpaces(iban.value) && ' ' !in r
    ensures !StrTruthy(iban) && StrTruthy(accountNumber) && StrTruthy(sortCode) ==>
      r == accountNumber.value + " - " + sortCode.value
    ensures !StrTruthy(iban) && !(StrTruthy(accountNumber) && StrTruthy(sortCode)) ==> r == "-"
  {
    if StrTruthy(iban) then RemoveSpaces(iban.value)
    else if StrTruthy(accountNumber) && StrTruthy(sortCode) then accountNumber.value + " - " + sortCode.value
    else "-"
  }

  /** At most one space in the string. */
  predicate AtMostOneSpace(s: string) {
    forall i, j :: 0 <= i < j < |s| && s[i] == ' ' ==> s[j] != ' '
  }

  /** With at most one space, removing the first space removes them all. */
  lemma OneSpaceRemovedAlike(s: string)
    requires AtMostOneSpace(s)
    ensures ReplaceFirstSpace(s) == RemoveSpaces(s)
  {
    if ' ' in s {
      var k := FirstIndexOf(s, ' ');
      ReplaceFirstSpaceAt(s, k);
      NoSpaceAfter(s, k);
      assert s == s[..k] + ([' '] + s[k + 1..]);
      RemoveOneSpace(s[..k], s[k + 1..]);
    }
  }

  /** Nothing after the only space is a space. */
  lemma NoSpaceAfter(s: string, k: nat)
    requires AtMostOneSpace(s) && k < |s| && s[k] == ' '
    ensures ' ' !in s[k + 1..]
  {
    var tail := s[k + 1..];
    forall j | 0 <= j < |tail| ensures tail[j] != ' ' {
      assert tail[j] == s[k + 1 + j];
    }
  }

  /** Removing the spaces around one space between two space-free parts. */
  lemma RemoveOneSpace(head: string, tail: string)
    requires ' ' !in head && ' ' !in tail
    ensures RemoveSpaces(head + ([' '] + tail)) == head + tail
  {
    var spaced := [' '] + tail;
    RemoveSpacesAppend(head, spaced);
    assert spaced[0] == ' ' && spaced[1..] == tail;
    assert RemoveSpaces(spaced) == RemoveSpaces(tail) == tail;
    assert RemoveSpaces(head) == head;
  }

  /** The two agree on every IBAN with at most one space, and on all
      account-number rows. */
  lemma AsWrittenAgreesUpToOneSpace(iban: Option<string>, accountNumber: Option<string>, sortCode: Option<string>)
    requires StrTruthy(iban) ==> AtMostOneSpace(iban.value)
    ensures DestinationAccountAsWritten(iban, accountNumber, sortCode) == DestinationAccount(iban, accountNumber, sortCode)
  {
    if StrTruthy(iban) {
      OneSpaceRemovedAlike(iban.value);
    }
  }

  /** `Math.abs(TotalAmount)`: the amount shown has no sign. */
  lemma DisplayedAmountUnsigned(totalAmount: JsNum)
    ensures NumAbs(totalAmount).Num? <==> totalAmount.Num?
    ensures totalAmount.Num? ==> NumAbs(totalAmount).n >= 0
    ensures totalAmount.Num? ==> NumAbs(totalAmount).n == totalAmount.n || NumAbs(totalAmount).n == -totalAmount.n
    ensures NumAbs(NumAbs(totalAmount)) == NumAbs(totalAmount)
  {
  }

  /** The switch: `isSelected ?? false`. */
  function SwitchValue(isSelected: Option<bool>): (r: bool)
    ensures r <==> isSelected == Some(true)
  {
    isSelected.GetOr(false)
  }

  /** The row is greyed out when `!isSelected`. */
  predicate Greyed(isSelected: Option<bool>) {
    !(isSelected.Some? && isSelected.value)
  }

  /** The switch is off exactly when the row is greyed out, also when no
      selection was given. */
  lemma SwitchOffIffGreyed(isSelected: Option<bool>)
    ensures !SwitchValue(isSelected) <==> Greyed(isSelected)
  {
  }
}

=== FILE: pager.dfy ===
/** The table pager: which slice of the records is shown, and the page
    cursor moved by the four arrow buttons.
    Source: packages/components/src/components/ui/Pager/Pager.tsx */
module Paging {

  /** `Math.ceil(a / b)` for a count and a positive page size. */
  function CeilDiv(a: nat, b: nat): (r: nat)
    requires b >= 1
    ensures a <= r * b < a + b
  {
    if a % b == 0 then a / b else a / b + 1
  }

  /** `getToRecord`: the last record of the first page. */
  function FirstPageEnd(pageSize: int, totalRecords: int): (r: int)
    ensures r <= pageSize && r <= totalRecords
    ensures r == pageSize || r == totalRecords
  {
    if pageSize > totalRecords then totalRecords else pageSize
  }

  /** The `fromRecord`-`toRecord` range `reset(page)` shows, given the
      `totalPages` it reads. */
  function PageRange(pageSize: int, totalRecords: int, totalPages: int, page: int): (r: (int, int)) {
    if page <= 1 then (1, FirstPageEnd(pageSize, totalRecords))
    else if page < totalPages then (pageSize * page - pageSize + 1, pageSize * page)
    else (pageSize * page - pageSize + 1, totalRecords)
  }

  /** The first page starts at record 1 and ends at min(pageSize, totalRecords);
      a middle page p holds records pageSize*(p-1)+1 through pageSize*p; the
      last page ends at the last record. */
  lemma PageRangeCases(pageSize: int, totalRecords: int, totalPages: int, page: int)
    ensures var r := PageRange(pageSize, totalRecords, totalPages, page);
      && (page <= 1 ==> r.0 == 1 && r.1 <= pageSize && r.1 <= totalRecords && (r.1 == pageSize || r.1 == totalRecords))
      && (1 < page < totalPages ==> r.0 == pageSize * (page - 1) + 1 && r.1 == pageSize * page && r.1 - r.0 + 1 == pageSize)
      && (1 < page && totalPages <= page ==> r.0 == pageSize * (page - 1) + 1 && r.1 == totalRecords)
  {
  }

  /** With an up-to-date page count, every page from 1 to the last shows a
      range inside the records, no longer than a page, and not empty when
      there are records. */
  lemma PageRangeWithin(pageSize: nat, totalRecords: nat, page: int)
    requires pageSize >= 1 && 1 <= page <= CeilDiv(totalRecords, pageSize)
    ensures var r := PageRange(pageSize, totalRecords, CeilDiv(totalRecords, pageSize), page);
      && 1 <= r.0 <= r.1 <= totalRecords
      && r.1 - r.0 + 1 <= pageSize
  {
    var n := CeilDiv(totalRecords, pageSize);
    var r := PageRange(pageSize, totalRecords, n, page);
    MulPred(pageSize, n);
    assert pageSize * (n - 1) < totalRecords <= pageSize * n;
    if page > 1 {
      MulPred(pageSize, page);
      MulMonotone(pageSize, page - 1, n - 1);
      assert r.0 == pageSize * (page - 1) + 1;
      if page < n {
        MulMonotone(pageSize, page, n - 1);
        assert r.1 == pageSize * page;
      } else {
        assert r.1 == totalRecords;
      }
    } else {
      assert r == (1, FirstPageEnd(pageSize, totalRecords));
    }
  }

  lemma MulPred(a: int, x: int)
    ensures a * x - a == a * (x - 1)
  {
  }

  lemma MulMonotone(a: nat, x: int, y: int)
    requires x <= y
    ensures a * x <= a * y
  {
  }

  /** Consecutive pages tile the records: each page starts right after the
      previous one ends. */
  lemma PagesTile(pageSize: nat, totalRecords: nat, page: int)
    requires pageSize >= 1 && 1 <= page < CeilDiv(totalRecords, pageSize)
    ensures var n := CeilDiv(totalRecords, pageSize);
      PageRange(pageSize, totalRecords, n, page).1 + 1 == PageRange(pageSize, totalRecords, n, page + 1).0
  {
    MulPred(pageSize, page + 1);
    if page == 1 {
      assert pageSize < totalRecords by {
        assert CeilDiv(totalRecords, pageSize) >= 2;
      }
    }
  }

  /** The four arrow buttons. */
  datatype Press = Beginning | Back | Forward | End

  /** The page a button press leads to: back never goes below page 1 and
      forward never past the page count. */
  function Step(page: int, totalPages: int, p: Press): (r: int)
    ensures p == Back ==> r >= 1 && r <= if page <= 1 then 1 else page
    ensures p == Forward ==> (page < totalPages ==> r == page + 1 <= totalPages) && (page >= totalPages ==> r == page)
  {
    match p
    case Beginning => 1
    case Back => if page <= 1 then 1 else page - 1
    case Forward => if page < totalPages then page + 1 else page
    case End => totalPages
  }

  /** The pager's state: the two props it is rendered with and its four
      `useState` fields, plus the pages reported through `onPageChange`. */
  class Pager {
    var pageSize: nat
    var totalRecords: nat
    var currentPage: int
    var fromRecord: int
    var toRecord: int
    var totalPages: int
    var pageChanges: seq<int>

    /** The page sizes offered are positive. */
    predicate Valid()
      reads this
    {
      pageSize >= 1
    }

    /** The initial `useState` values. */
    constructor (pageSize: nat, totalRecords: nat)
      requires pageSize >= 1
      ensures Valid()
      ensures this.pageSize == pageSize && this.totalRecords == totalRecords
      ensures currentPage == 1 && fromRecord == 1
      ensures toRecord == FirstPageEnd(pageSize, totalRecords)
      ensures totalPages == CeilDiv(totalRecords, pageSize)
      ensures pageChanges == []
    {
      this.pageSize := pageSize;
      this.totalRecords := totalRecords;
      currentPage := 1;
      fromRecord := 1;
      toRecord := FirstPageEnd(pageSize, totalRecords);
      totalPages := CeilDiv(totalRecords, pageSize);
      pageChanges := [];
    }

    /** `reset(page)`: the page count is recomputed, but the range is chosen
        with the page count read before that update; the page is reported. */
    method Reset(page: int)
      requires Valid()
      modifies this
      ensures Valid()
      ensures totalPages == CeilDiv(totalRecords, pageSize)
      ensures (fromRecord, toRecord) == PageRange(pageSize, totalRecords, old(totalPages), page)
      ensures pageChanges == old(pageChanges) + [page]
      ensures pageSize == old(pageSize) && totalRecords == old(totalRecords) && currentPage == old(currentPage)
    {
      var stalePages := totalPages;
      totalPages := CeilDiv(totalRecords, pageSize);
      if page <= 1 {
        fromRecord := 1;
        toRecord := FirstPageEnd(pageSize, totalRecords);
      } else if page < stalePages {
        fromRecord := pageSize * page - pageSize + 1;
        toRecord := pageSize * page;
      } else {
        fromRecord := pageSize * page - pageSize + 1;
        toRecord := totalRecords;
      }
      pageChanges := pageChanges + [page];
    }

    /** The first effect: back to page 1 when one page holds every record,
        otherwise the current page is shown again. */
    method SyncPage()
      requires Valid()
      modifies this
      ensures Valid()
      ensures currentPage == (if old(pageSize) > old(totalRecords) then 1 else old(currentPage))
      ensures pageChanges == old(pageChanges) + [currentPage]
      ensures totalPages == CeilDiv(totalRecords, pageSize)
      ensures (fromRecord, toRecord) == PageRange(pageSize, totalRecords, old(totalPages), currentPage)
      ensures pageSize == old(pageSize) && totalRecords == old(totalRecords)
    {
      if pageSize > totalRecords {
        currentPage := 1;
        Reset(1);
      } else {
        Reset(currentPage);
      }
    }

    /** New props: the table was re-rendered with another page size or
        record count. */
    method Rerender(newPageSize: nat, newTotalRecords: nat)
      requires newPageSize >= 1
      modifies this
      ensures Valid()
      ensures pageSize == newPageSize && totalRecords == newTotalRecords
      ensures currentPage == old(currentPage) && fromRecord == old(fromRecord) && toRecord == old(toRecord)
      ensures totalPages == old(totalPages) && pageChanges == old(pageChanges)
    {
      pageSize := newPageSize;
      totalRecords := newTotalRecords;
    }

    /** The second effect, on a new record count: the page count is
        recomputed, and the cursor goes back to page 1 when the shown range
        ends beyond the records. */
    method TotalRecordsChanged()
      requires Valid()
      modifies this
      ensures Valid()
      ensures totalPages == CeilDiv(totalRecords, pageSize)
      ensures currentPage == (if totalRecords < old(toRecord) then 1 else old(currentPage))
      ensures pageSize == old(pageSize) && totalRecords == old(totalRecords)
      ensures fromRecord == old(fromRecord) && toRecord == old(toRecord) && pageChanges == old(pageChanges)
    {
      totalPages := CeilDiv(totalRecords, pageSize);
      if totalRecords < toRecord {
        currentPage := 1;
      }
    }

    /** `goToBeginning` */
    method GoToBeginning()
      modifies this
      ensures currentPage == Step(old(currentPage), totalPages, Beginning) == 1
      ensures pageSize == old(pageSize) && totalRecords == old(totalRecords) && totalPages == old(totalPages)
      ensures fromRecord == old(fromRecord) && toRecord == old(toRecord) && pageChanges == old(pageChanges)
    {
      currentPage := 1;
    }

    /** `goToEnd` */
    method GoToEnd()
      modifies this
      ensures currentPage == Step(old(currentPage), totalPages, End) == totalPages
      ensures pageSize == old(pageSize) && totalRecords == old(totalRecords) && totalPages == old(totalPages)
      ensures fromRecord == old(fromRecord) && toRecord == old(toRecord) && pageChanges == old(pageChanges)
    {
      currentPage := totalPages;
    }

    /** `decrementPageNumber`: one page back, never below page 1. */
    method DecrementPageNumber()
      modifies this
      ensures currentPage == Step(old(currentPage), totalPages, Back) >= 1
      ensures pageSize == old(pageSize) && totalRecords == old(totalRecords) && totalPages == old(totalPages)
      ensures fromRecord == old(fromRecord) && toRecord == old(toRecord) && pageChanges == old(pageChanges)
    {
      if currentPage <= 1 {
        currentPage := 1;
      } else {
        currentPage := currentPage - 1;
      }
    }

    /** `incrementPageNumber`: one page on, only while not on the last page,
        so the cursor never moves past the page count. */
    method IncrementPageNumber()
      modifies this
      ensures currentPage == Step(old(currentPage), totalPages, Forward)
      ensures pageSize == old(pageSize) && totalRecords == old(totalRecords) && totalPages == old(totalPages)
      ensures fromRecord == old(fromRecord) && toRecord == old(toRecord) && pageChanges == old(pageChanges)
    {
      if currentPage < totalPages {
        currentPage := currentPage + 1;
      }
    }
  }

  /** The page after a sequence of presses. */
  function AfterPresses(page: int, totalPages: int, ps: seq<Press>): int
    decreases |ps|
  {
    if ps == [] then page else AfterPresses(Step(page, totalPages, ps[0]), totalPages, ps[1..])
  }

  /** From a page within 1..n, any sequence of presses stays within 1..n. */
  lemma {:induction false} PressesStayInRange(page: int, totalPages: int, ps: seq<Press>)
    requires 1 <= page <= totalPages
    ensures 1 <= AfterPresses(page, totalPages, ps) <= totalPages
    decreases |ps|
  {
    if ps != [] {
      PressesStayInRange(Step(page, totalPages, ps[0]), totalPages, ps[1..]);
    }
  }

  /** The end button takes the cursor to page 0 exactly when there are no
      records, and otherwise to the last page, at least 1. */
  lemma EndPage(pageSize: nat, totalRecords: nat, page: int)
    requires pageSize >= 1
    ensures var r := Step(page, CeilDiv(totalRecords, pageSize), End);
      && (r == 0 <==> totalRecords == 0)
      && r * pageSize >= totalRecords
      && (totalRecords > 0 ==> r >= 1 && (r - 1) * pageSize < totalRecords)
  {
    var n := CeilDiv(totalRecords, pageSize);
    if n >= 1 {
      MulPred(pageSize, n);
    }
  }

  /** With no records the page count is 0, so the end button takes the
      cursor to page 0; the first effect then shows page 1 again, as one
      page holds every record. */
  lemma EndWithNoRecords(pageSize: nat)
    requires pageSize >= 1
    ensures Step(1, CeilDiv(0, pageSize), End) == 0
  {
  }
}

=== FILE: payment_request_row.dfy ===
/** One row of the payment request table: attempt counts, the payment
    method shown for the attempts, the "paid" test, and the delete
    confirmation.
    Source: packages/components/src/components/ui/PaymentRequestRow/PaymentRequestRow.tsx */
module PaymentRequestRow {
  import opened Prelude

  /** The attempt statuses the row counts, and every other status. */
  datatype AttemptStatus = Received | Pending | Failed | OtherStatus

  /** `LocalPaymentMethodTypes`: `None`, or a named method (card, pay by
      bank, ...). */
  datatype PaymentMethod = MethodNone | Method(name: string)

  /** A payment attempt (`LocalPaymentAttempt`), with the fields the rows and
      the details tabs read. Amounts are in minor units; times are
      milliseconds since the epoch. */
  datatype PaymentAttempt = PaymentAttempt(
    paymentStatus: AttemptStatus,
    paymentMethod: PaymentMethod,
    settledAmount: int,
    cardAuthorisedAmount: Option<int>,
    cardAuthorisedAt: Option<int>,
    authorisedAt: Option<int>,
    settledAt: Option<int>,
    cardPayerAuthenticationSetupFailedAt: Option<int>,
    cardAuthoriseFailedAt: Option<int>,
    settleFailedAt: Option<int>,
    pispAuthorisationFailedAt: Option<int>,
    latestEventOccurredAt: Option<int>)

  /** `getPaymentAttemptCountByStatus`: attempts with that status, 0 when
      the request has no attempt list. */
  function CountByStatus(attempts: Option<seq<PaymentAttempt>>, status: AttemptStatus): (r: nat)
    ensures attempts.None? ==> r == 0
    ensures attempts.Some? ==> r <= |attempts.value|
    ensures attempts.Some? && (forall i :: 0 <= i < |attempts.value| ==> attempts.value[i].paymentStatus != status) ==> r == 0
  {
    if attempts.None? then 0 else CountIn(attempts.value, status)
  }

  function CountIn(attempts: seq<PaymentAttempt>, status: AttemptStatus): (r: nat)
    ensures r <= |attempts|
    ensures r == |attempts| <==> forall i :: 0 <= i < |attempts| ==> attempts[i].paymentStatus == status
    ensures r == 0 <==> forall i :: 0 <= i < |attempts| ==> attempts[i].paymentStatus != status
  {
    if attempts == [] then 0
    else (if attempts[0].paymentStatus == status then 1 else 0) + CountIn(attempts[1..], status)
  }

  /** The received, pending and failed counts the attempts cell shows never
      add up to more than the attempts, and add up to all of them when
      every attempt has one of those three statuses. */
  lemma {:induction false} CountsPartition(attempts: seq<PaymentAttempt>)
    ensures CountIn(attempts, Received) + CountIn(attempts, Pending) + CountIn(attempts, Failed) + CountIn(attempts, OtherStatus) == |attempts|
  {
    if attempts != [] {
      CountsPartition(attempts[1..]);
    }
  }

  lemma CountsAtMostAttempts(attempts: Option<seq<PaymentAttempt>>)
    ensures attempts.Some? ==> CountByStatus(attempts, Received) + CountByStatus(attempts, Pending) + CountByStatus(attempts, Failed) <= |attempts.value|
    ensures attempts.Some? && CountIn(attempts.value, OtherStatus) == 0 ==>
      CountByStatus(attempts, Received) + CountByStatus(attempts, Pending) + CountByStatus(attempts, Failed) == |attempts.value|
  {
    if attempts.Some? {
      CountsPartition(attempts.value);
    }
  }

  /** The attempts' payment methods, in order. */
  function Methods(attempts: seq<PaymentAttempt>): (r: seq<PaymentMethod>)
    ensures |r| == |attempts| && forall i :: 0 <= i < |attempts| ==> r[i] == attempts[i].paymentMethod
  {
    if attempts == [] then [] else [attempts[0].paymentMethod] + Methods(attempts[1..])
  }

  /** `getPaymentAttemptPaymentMethod`: the attempts' one payment method,
      `None` when there are no attempts or they used several methods. */
  function PaymentMethodOf(attempts: Option<seq<PaymentAttempt>>): (r: PaymentMethod)
  {
    if attempts.None? || |attempts.value| == 0 then MethodNone
    else
      var methods := Dedupe(Methods(attempts.value));
      if |methods| != 1 then MethodNone else methods[0]
  }

  /** Every attempt used the same method `m`, and there is at least one. */
  predicate AllUsed(attempts: Option<seq<PaymentAttempt>>, m: PaymentMethod) {
    attempts.Some? && |attempts.value| > 0 &&
    forall i :: 0 <= i < |attempts.value| ==> attempts.value[i].paymentMethod == m
  }

  /** The method shown is a real one exactly when all attempts used it. */
  lemma PaymentMethodShown(attempts: Option<seq<PaymentAttempt>>, m: PaymentMethod)
    requires m != MethodNone
    ensures PaymentMethodOf(attempts) == m <==> AllUsed(attempts, m)
  {
    if attempts.Some? && |attempts.value| > 0 {
      var ms := Methods(attempts.value);
      var methods := Dedupe(ms);
      if AllUsed(attempts, m) {
        DedupeConstant(ms, m);
      }
      if PaymentMethodOf(attempts) == m {
        assert methods == [m];
        forall i | 0 <= i < |attempts.value|
          ensures attempts.value[i].paymentMethod == m
        {
          assert ms[i] in methods;
        }
      }
    }
  }

  /** Attempts with two different methods show `None`. */
  lemma MixedMethodsShowNone(attempts: seq<PaymentAttempt>, i: nat, j: nat)
    requires i < |attempts| && j < |attempts| && attempts[i].paymentMethod != attempts[j].paymentMethod
    ensures PaymentMethodOf(Some(attempts)) == MethodNone
  {
    var ms := Methods(attempts);
    var methods := Dedupe(ms);
    assert ms[i] in methods && ms[j] in methods;
    TwoDistinctMembers(methods, ms[i], ms[j]);
  }

  lemma TwoDistinctMembers<T>(s: seq<T>, x: T, y: T)
    requires x in s && y in s && x != y
    ensures |s| >= 2
  {
    var a :| 0 <= a < |s| && s[a] == x;
    var b :| 0 <= b < |s| && s[b] == y;
    assert a != b;
  }

  /** `amountPaid`: what was received less what was refunded; it is what
      stays with the merchant, and it is zero exactly when everything
      received was refunded. */
  function AmountPaid(amountReceived: int, amountRefunded: int): (r: int)
    ensures r + amountRefunded == amountReceived
    ensures r == 0 <==> amountRefunded == amountReceived
    ensures amountRefunded <= amountReceived ==> r >= 0
  {
    amountReceived - amountRefunded
  }

  /** An attempt with money settled, or a positive card authorisation. */
  predicate Settled(a: PaymentAttempt) {
    a.settledAmount > 0 || (a.cardAuthorisedAmount.Some? && a.cardAuthorisedAmount.value > 0)
  }

  function CountSettled(attempts: seq<PaymentAttempt>): (r: nat)
    ensures r <= |attempts|
  {
    if attempts == [] then 0 else (if Settled(attempts[0]) then 1 else 0) + CountSettled(attempts[1..])
  }

  /** `hasSettledPaymentAttempts`: some attempt settled money or had a card
      authorisation. */
  function HasSettledPaymentAttempts(attempts: Option<seq<PaymentAttempt>>): (r: bool)
    ensures r <==> attempts.Some? && exists i :: 0 <= i < |attempts.value| && Settled(attempts.value[i])
  {
    SettledCountPositive(attempts.GetOr([]));
    attempts.Some? && CountSettled(attempts.value) > 0
  }

  lemma {:induction false} SettledCountPositive(attempts: seq<PaymentAttempt>)
    ensures CountSettled(attempts) > 0 <==> exists i :: 0 <= i < |attempts| && Settled(attempts[i])
  {
    if attempts != [] {
      SettledCountPositive(attempts[1..]);
      if Settled(attempts[0]) {
        assert Settled(attempts[0]);
      } else {
        assert forall i :: 1 <= i < |attempts| ==> attempts[i] == attempts[1..][i - 1];
      }
    }
  }

  /** The row's delete confirmation (`isDeleting`), and the deletions it
      asked the parent for through `onDelete`. */
  class Row {
    var isDeleting: bool
    var deletions: nat

    constructor ()
      ensures !isDeleting && deletions == 0
    {
      isDeleting := false;
      deletions := 0;
    }

    /** The menu's delete item: shows the confirmation. The item is offered
        only when the row has `onDelete`. */
    method OnDeletePaymentRequestClicked()
      modifies this
      ensures isDeleting && deletions == old(deletions)
    {
      isDeleting := true;
    }

    /** Cancel: hides the confirmation. */
    method OnCancelDeletingPaymentRequestClicked()
      modifies this
      ensures !isDeleting && deletions == old(deletions)
    {
      isDeleting := false;
    }

    /** Confirm: asks the parent to delete, when it can, then hides the
        confirmation. */
    method OnConfirmDeletePaymentRequestClicked(hasOnDelete: bool)
      modifies this
      ensures !isDeleting
      ensures deletions == old(deletions) + (if hasOnDelete then 1 else 0)
    {
      if hasOnDelete {
        deletions := deletions + 1;
      }
      OnCancelDeletingPaymentRequestClicked();
    }
  }

  /** Asking for a deletion takes a click on the item and one on confirm:
      cancelling asks for nothing. */
  method DeleteThenCancel(row: Row)
    modifies row
    ensures !row.isDeleting && row.deletions == old(row.deletions)
  {
    row.OnDeletePaymentRequestClicked();
    row.OnCancelDeletingPaymentRequestClicked();
  }
}

=== FILE: payment_request_table.dfy ===
/** The payment request table: what a click on a row does, the two-level
    sort it asks for, and when a request offers the delete action.
    Source: packages/components/src/components/ui/PaymentRequestTable/PaymentRequestTable.tsx */
module PaymentRequestTable {
  import opened Prelude
  import opened ColumnHeader
  import opened PaymentRequestRow

  /** `PaymentResult`: `None` for a request nothing was paid against; the
      other results are not told apart here. */
  datatype PaymentResult = ResultNone | ResultOther(name: string)

  /** The fields of `LocalPaymentRequest` the table reads. */
  datatype PaymentRequestSummary = PaymentRequestSummary(
    id: string,
    remoteStatus: PaymentResult,
    paymentAttempts: Option<seq<PaymentAttempt>>)

  /** What a click on a row leads to. */
  datatype ClickOutcome = OpenedPaymentPage | ReportedClick | NoAction

  /** `onPaymentRequestClickedHandler`: a click with the meta key opens the
      payment page, any other click reports the request; either only when
      the table was given that callback. */
  function OnPaymentRequestClicked(metaKey: bool, hasOnOpenPaymentPage: bool, hasOnPaymentRequestClicked: bool): (r: ClickOutcome)
    ensures r == OpenedPaymentPage <==> metaKey && hasOnOpenPaymentPage
    ensures r == ReportedClick <==> !metaKey && hasOnPaymentRequestClicked
  {
    if metaKey then (if hasOnOpenPaymentPage then OpenedPaymentPage else NoAction)
    else if hasOnPaymentRequestClicked then ReportedClick
    else NoAction
  }

  /** `handleOnSort`: the sort passed to `onSort` when the table has one. */
  function HandleOnSort(sortBy: Option<DoubleSort>, sortInfo: SortBy, hasOnSort: bool): (r: Option<DoubleSort>)
    ensures r.Some? <==> hasOnSort
    ensures r.Some? ==> r.value.primary == sortInfo
  {
    if hasOnSort then Some(Resort(sortBy, sortInfo)) else None
  }

  /** A click on the primary column's header flips its direction and leaves
      the secondary sort alone. */
  lemma HeaderClickFlipsPrimary(sortBy: DoubleSort)
    ensures var emitted := DoSort(Some(sortBy.primary.direction), true);
      emitted.Some? &&
      HandleOnSort(Some(sortBy), SortBy(sortBy.primary.name, emitted.value), true)
        == Some(DoubleSort(SortBy(sortBy.primary.name, if sortBy.primary.direction == DESC then ASC else DESC), sortBy.secondary))
  {
    DoSortCycle(Some(sortBy.primary.direction));
  }

  /** A click on another column's header sorts by it descending first, and
      the old primary sort becomes the secondary one. */
  lemma HeaderClickOnOtherColumn(sortBy: DoubleSort, name: string, shown: Option<SortDirection>)
    requires name != sortBy.primary.name && shown != Some(DESC)
    ensures var emitted := DoSort(shown, true);
      emitted.Some? &&
      HandleOnSort(Some(sortBy), SortBy(name, emitted.value), true) == Some(DoubleSort(SortBy(name, DESC), Some(sortBy.primary)))
  {
    DoSortCycle(shown);
  }

  /** The two layouts of the table. */
  datatype Layout = Desktop | Mobile

  /** Whether the row (desktop) or the card (mobile) gets an `onDelete`:
      a desktop row while nothing was paid, a mobile card while the request
      has no payment attempts. */
  predicate DeleteOffered(layout: Layout, pr: PaymentRequestSummary) {
    match layout
    case Desktop => pr.remoteStatus == ResultNone
    case Mobile => !(pr.paymentAttempts.Some? && |pr.paymentAttempts.value| > 0)
  }

  /** A fresh request, with no result and no attempts, can be deleted in
      both layouts, and one with a result and an attempt in neither... */
  lemma DeleteOfferedBothLayouts(pr: PaymentRequestSummary)
    ensures pr.remoteStatus == ResultNone && (pr.paymentAttempts.None? || pr.paymentAttempts.value == [])
      ==> DeleteOffered(Desktop, pr) && DeleteOffered(Mobile, pr)
    ensures pr.remoteStatus != ResultNone && pr.paymentAttempts.Some? && pr.paymentAttempts.value != []
      ==> !DeleteOffered(Desktop, pr) && !DeleteOffered(Mobile, pr)
  {
  }

  /** ... but the two layouts test different fields: a request with a
      payment attempt and no result is deletable on a desktop only. */
  lemma LayoutsDisagree(attempt: PaymentAttempt)
    ensures var pr := PaymentRequestSummary("pr", ResultNone, Some([attempt]));
      DeleteOffered(Desktop, pr) && !DeleteOffered(Mobile, pr)
  {
  }
}

=== FILE: payout_dashboard.dfy ===
/** The payouts dashboard: the totals shown on the status tabs, and the
    batch approval button.
    Source: packages/components/src/components/ui/pages/PayoutDashboard/PayoutDashboard.tsx */
module PayoutDashboard {
  import opened Prelude

  datatype CurrencyKey = Eur | Gbp

  /** The statuses a tab asks a total for. */
  datatype TabStatus = Paid | InProgress | Failed | PendingApproval | Scheduled

  /** `Record<'eur' | 'gbp', number | undefined>`; amounts in minor units. */
  datatype CurrencyAmounts = CurrencyAmounts(eur: Option<int>, gbp: Option<int>) {
    function Of(currency: CurrencyKey): Option<int> {
      match currency
      case Eur => eur
      case Gbp => gbp
    }
  }

  /** `totalAmountsByCurrency`, per status. */
  datatype TotalAmounts = TotalAmounts(
    all: Option<CurrencyAmounts>,
    paid: Option<CurrencyAmounts>,
    pendingApproval: Option<CurrencyAmounts>,
    inProgress: Option<CurrencyAmounts>,
    failed: Option<CurrencyAmounts>,
    scheduled: Option<CurrencyAmounts>)

  /** `PayoutMetrics`: the payout counts per status and their totals. */
  datatype PayoutMetrics = PayoutMetrics(
    all: int,
    paid: int,
    inProgress: int,
    pendingApproval: int,
    failed: int,
    scheduled: int,
    totalAmountsByCurrency: Option<TotalAmounts>)

  /** `payoutMetrics[status]`: the status's count. */
  function CountOf(m: PayoutMetrics, status: TabStatus): int {
    match status
    case Paid => m.paid
    case InProgress => m.inProgress
    case Failed => m.failed
    case PendingApproval => m.pendingApproval
    case Scheduled => m.scheduled
  }

  /** `totalAmountsByCurrency?.[status]?.[currency]` */
  function TotalOf(t: TotalAmounts, status: TabStatus, currency: CurrencyKey): Option<int> {
    var amounts := match status
      case Paid => t.paid
      case InProgress => t.inProgress
      case Failed => t.failed
      case PendingApproval => t.pendingApproval
      case Scheduled => t.scheduled;
    if amounts.Some? then amounts.value.Of(currency) else None
  }

  /** There are payouts in the currency, in any status: its overall total
      is present and not zero. */
  predicate HasPayoutsIn(metrics: Option<PayoutMetrics>, currency: CurrencyKey) {
    metrics.Some? && metrics.value.totalAmountsByCurrency.Some? &&
    var all := metrics.value.totalAmountsByCurrency.value.all;
    all.Some? && all.value.Of(currency).Some? && all.value.Of(currency).value != 0
  }

  /** There are payouts with the status, in any currency. */
  predicate HasPayoutsWith(metrics: Option<PayoutMetrics>, status: TabStatus) {
    metrics.Some? && CountOf(metrics.value, status) > 0
  }

  /** `getTotalAmountPerCurrencyAndStatus`: a total is shown only when
      there are payouts in the currency and payouts with the status; it is
      then the status's total in that currency, 0 when that is missing. */
  function TotalAmountPerCurrencyAndStatus(metrics: Option<PayoutMetrics>, currency: CurrencyKey, status: TabStatus): (r: Option<int>)
    ensures r.Some? <==> HasPayoutsIn(metrics, currency) && HasPayoutsWith(metrics, status)
    ensures r.Some? ==> r.value == TotalOf(metrics.value.totalAmountsByCurrency.value, status, currency).GetOr(0)
  {
    if HasPayoutsIn(metrics, currency) && HasPayoutsWith(metrics, status) then
      Some(TotalOf(metrics.value.totalAmountsByCurrency.value, status, currency).GetOr(0))
    else None
  }

  /** No tab shows a total for a currency without payouts, nor for a
      status whose count is not positive. */
  lemma TotalsHidden(metrics: Option<PayoutMetrics>, currency: CurrencyKey, status: TabStatus)
    ensures !HasPayoutsIn(metrics, currency) ==> TotalAmountPerCurrencyAndStatus(metrics, currency, status).None?
    ensures metrics.Some? && CountOf(metrics.value, status) <= 0 ==> TotalAmountPerCurrencyAndStatus(metrics, currency, status).None?
  {
  }

  /** The scheduled tab reads its own count and totals: with scheduled
      payouts and payouts in the currency it shows the scheduled total of
      that currency, 0 when it is missing. */
  lemma ScheduledTabTotal(m: PayoutMetrics, currency: CurrencyKey)
    requires HasPayoutsIn(Some(m), currency) && m.scheduled > 0
    ensures var scheduled := m.totalAmountsByCurrency.value.scheduled;
      TotalAmountPerCurrencyAndStatus(Some(m), currency, Scheduled)
        == Some(if scheduled.Some? then scheduled.value.Of(currency).GetOr(0) else 0)
  {
  }

  /** When a status has payouts but none in the currency was reported for
      it, the tab shows 0 rather than nothing. */
  lemma MissingStatusTotalShowsZero(m: PayoutMetrics, currency: CurrencyKey, status: TabStatus)
    requires HasPayoutsIn(Some(m), currency) && HasPayoutsWith(Some(m), status)
    requires TotalOf(m.totalAmountsByCurrency.value, status, currency).None?
    ensures TotalAmountPerCurrencyAndStatus(Some(m), currency, status) == Some(0)
  {
  }

  /** The batch approve button is shown to users whose (non-zero) role is
      at least the approver role, once more than one payout is selected. */
  predicate ShowBatchApprove(userRole: Option<int>, approverRole: int, selectedPayouts: nat) {
    userRole.Some? && userRole.value != 0 && userRole.value >= approverRole && selectedPayouts > 1
  }

  /** With a positive approver role the non-zero test adds nothing; a
      single selected payout never shows the button. */
  lemma BatchApproveNeedsRoleAndTwo(userRole: Option<int>, approverRole: int, selectedPayouts: nat)
    requires approverRole > 0
    ensures ShowBatchApprove(userRole, approverRole, selectedPayouts)
      <==> userRole.Some? && userRole.value >= approverRole && selectedPayouts >= 2
  {
  }

  /** The dashboard's `isApproveButtonDisabled`, and the batch approvals it
      asked for through `onApproveBatchPayouts`. */
  class Dashboard {
    var isApproveButtonDisabled: bool
    var batchApprovals: nat

    constructor ()
      ensures !isApproveButtonDisabled && batchApprovals == 0
    {
      isApproveButtonDisabled := false;
      batchApprovals := 0;
    }

    /** `handleApproveBatchPayouts`: the button is disabled and the batch
        approval asked for; nothing enables the button again. */
    method HandleApproveBatchPayouts()
      modifies this
      ensures isApproveButtonDisabled
      ensures batchApprovals == old(batchApprovals) + 1
    {
      isApproveButtonDisabled := true;
      batchApprovals := batchApprovals + 1;
    }
  }

  /** A click on the button, while it is enabled, asks for one approval;
      the next click cannot reach it. */
  method ClickApprove(d: Dashboard)
    modifies d
    ensures !old(d.isApproveButtonDisabled) ==> d.batchApprovals == old(d.batchApprovals) + 1
    ensures old(d.isApproveButtonDisabled) ==> d.batchApprovals == old(d.batchApprovals)
    ensures d.isApproveButtonDisabled
  {
    if !d.isApproveButtonDisabled {
      d.HandleApproveBatchPayouts();
    }
  }
}

=== FILE: payrun_details.dfy ===
/** The payrun details page: its working and saved selection states, the
    selected source account per currency, the open contact rows, and the
    payment-date rule of the authorisation side panel.
    Source: packages/components/src/components/ui/pages/PayrunDetails/PayrunDetails.tsx */
module PayrunDetails {
  import opened Prelude
  import opened AssocList
  import opened PayrunState

  // ---- building the selection state (PayrunDetails.tsx:79-99) ---------------

  /** `getPayrunStateFromPayrun`: the `reduce` creating the currency map and
      the contact group on first use and pushing each invoice, enabled. */
  method GroupInvoices(xs: seq<Invoice>) returns (s: State)
    ensures s == Grouped(xs)
    ensures Consistent(s)
  {
    s := [];
    for i := 0 to |xs|
      invariant s == Grouped(xs[..i])
    {
      s := PushInvoice(s, xs[i]);
      assert xs[..i + 1][..i] == xs[..i];
    }
    assert xs[..|xs|] == xs;
    GroupedConsistent(xs);
  }

  /** One iteration of that `reduce`: create the currency entry and the
      contact group when missing, then push the invoice, enabled. */
  method PushInvoice(s0: State, x: Invoice) returns (s: State)
    ensures s == AddInvoice(s0, x)
  {
    s := s0;
    if Get(s, x.currency).None? {
      s := Put(s, x.currency, []);
    }
    GetPutSame(s0, x.currency, []);
    var contacts := Get(s, x.currency).value;
    if Get(contacts, x.contact).None? {
      contacts := Put(contacts, x.contact, ContactGroup(true, []));
      GetPutSame(Get(s, x.currency).value, x.contact, ContactGroup(true, []));
    }
    var g := Get(contacts, x.contact).value;
    var g' := g.(invoices := g.invoices + [InvoiceWithState(x, true)]);
    s := Put(s, x.currency, Put(contacts, x.contact, g'));
    AddInvoiceSteps(s0, x);
  }

  /** The three in-place steps of one `reduce` iteration produce `AddInvoice`. */
  lemma AddInvoiceSteps(s0: State, x: Invoice)
    ensures
      var s1 := if Get(s0, x.currency).None? then Put(s0, x.currency, []) else s0;
      var c1 := Get(s1, x.currency).GetOr([]);
      var c2 := if Get(c1, x.contact).None? then Put(c1, x.contact, ContactGroup(true, [])) else c1;
      var g := Get(c2, x.contact).GetOr(ContactGroup(true, []));
      Put(s1, x.currency, Put(c2, x.contact, g.(invoices := g.invoices + [InvoiceWithState(x, true)])))
        == AddInvoice(s0, x)
  {
    var s1 := if Get(s0, x.currency).None? then Put(s0, x.currency, []) else s0;
    var c0 := Get(s0, x.currency).GetOr([]);
    GetPutSame(s0, x.currency, []);
    assert Get(s1, x.currency).GetOr([]) == c0;
    var c2 := if Get(c0, x.contact).None? then Put(c0, x.contact, ContactGroup(true, [])) else c0;
    GetPutSame(c0, x.contact, ContactGroup(true, []));
    var g := Get(c0, x.contact).GetOr(ContactGroup(true, []));
    assert Get(c2, x.contact).GetOr(ContactGroup(true, [])) == g;
    var g' := g.(invoices := g.invoices + [InvoiceWithState(x, true)]);
    PutPut(c0, x.contact, ContactGroup(true, []), g');
    PutPut(s0, x.currency, [], Put(c0, x.contact, g'));
  }

  // ---- the selected source account per currency (PayrunDetails.tsx:131-163) -

  /** The accounts' `reduce`: each default account sets its currency's entry,
      a later default overriding an earlier one. */
  function DefaultSelection(accounts: seq<Account>): seq<(string, string)> {
    if accounts == [] then []
    else
      var n := |accounts| - 1;
      var a := accounts[n];
      if a.isDefault then Put(DefaultSelection(accounts[..n]), a.currency, a.id)
      else DefaultSelection(accounts[..n])
  }

  /** Account `i` is the last default account of currency `c`. */
  predicate LastDefaultAt(accounts: seq<Account>, c: string, i: int) {
    0 <= i < |accounts| && accounts[i].isDefault && accounts[i].currency == c
    && forall j :: i < j < |accounts| ==> !(accounts[j].isDefault && accounts[j].currency == c)
  }

  /** The default selection of a currency is the id of its last default
      account, and a currency without a default account has no entry. */
  lemma {:induction false} DefaultSelectionLookup(accounts: seq<Account>, c: string)
    ensures Get(DefaultSelection(accounts), c).Some? <==> exists i :: LastDefaultAt(accounts, c, i)
    ensures forall i :: LastDefaultAt(accounts, c, i) ==>
      Get(DefaultSelection(accounts), c) == Some(accounts[i].id)
  {
    if accounts != [] {
      var n := |accounts| - 1;
      var a := accounts[n];
      var prev := accounts[..n];
      DefaultSelectionLookup(prev, c);
      if a.isDefault {
        if a.currency == c {
          GetPutSame(DefaultSelection(prev), c, a.id);
          assert LastDefaultAt(accounts, c, n);
          forall i | LastDefaultAt(accounts, c, i) ensures i == n {
          }
        } else {
          GetPutOther(DefaultSelection(prev), a.currency, a.id, c);
        }
      }
      if a.isDefault && a.currency == c {
      } else {
        forall i | LastDefaultAt(accounts, c, i) ensures LastDefaultAt(prev, c, i) {
        }
        forall i | LastDefaultAt(prev, c, i) ensures LastDefaultAt(accounts, c, i) {
        }
      }
    }
  }

  /** The initial value of `selectedAccountsId`. */
  method InitialSelection(accounts: seq<Account>) returns (sel: seq<(string, string)>)
    ensures sel == DefaultSelection(accounts)
  {
    sel := [];
    for i := 0 to |accounts|
      invariant sel == DefaultSelection(accounts[..i])
    {
      assert accounts[..i + 1][..i] == accounts[..i];
      if accounts[i].isDefault {
        sel := Put(sel, accounts[i].currency, accounts[i].id);
      }
    }
    assert accounts[..|accounts|] == accounts;
  }

  /** `payrun.invoices.map((invoice) => invoice.currency)` */
  function InvoiceCurrencies(xs: seq<Invoice>): (r: seq<string>)
    ensures |r| == |xs| && forall i :: 0 <= i < |xs| ==> r[i] == xs[i].currency
  {
    if xs == [] then [] else [xs[0].currency] + InvoiceCurrencies(xs[1..])
  }

  /** `currenciesFromInvoices`: the currencies of the payrun's invoices,
      each once, kept where the `indexOf` filter keeps them, that is at
      their first appearance and in that order. */
  function DistinctCurrencies(xs: seq<Invoice>): (r: seq<string>)
    ensures forall c :: c in r <==> exists x :: x in xs && x.currency == c
    ensures forall i, j :: 0 <= i < j < |r| ==> r[i] != r[j]
    ensures r == KeepFirst(InvoiceCurrencies(xs), |xs|)
  {
    var cs := InvoiceCurrencies(xs);
    DedupeIsIndexOfFilter(cs);
    assert forall c :: c in cs <==> exists x :: x in xs && x.currency == c by {
      forall c | c in cs ensures exists x :: x in xs && x.currency == c {
        var i :| 0 <= i < |cs| && cs[i] == c;
        assert xs[i] in xs;
      }
      forall x | x in xs ensures x.currency in cs {
        var i :| 0 <= i < |xs| && xs[i] == x;
        assert cs[i] == x.currency;
      }
    }
    Dedupe(cs)
  }

  /** `accounts.find((account) => account.currency === currency)` */
  function FirstAccountOf(accounts: seq<Account>, c: string): (r: Option<Account>)
    ensures r.Some? ==> r.value in accounts && r.value.currency == c
    ensures r.None? <==> forall a :: a in accounts ==> a.currency != c
  {
    if accounts == [] then None
    else if accounts[0].currency == c then Some(accounts[0])
    else FirstAccountOf(accounts[1..], c)
  }

  /** The effect's `forEach` over the payrun currencies: an entry that is
      missing or empty is filled with the first account of that currency. */
  function FillSelection(sel: seq<(string, string)>, accounts: seq<Account>, cs: seq<string>): seq<(string, string)> {
    if cs == [] then sel
    else
      var n := |cs| - 1;
      var s := FillSelection(sel, accounts, cs[..n]);
      if !StrTruthy(Get(s, cs[n])) && FirstAccountOf(accounts, cs[n]).Some? then
        Put(s, cs[n], FirstAccountOf(accounts, cs[n]).value.id)
      else s
  }

  /** Every selected id belongs to an account of that currency. */
  ghost predicate SelectionMatchesAccounts(sel: seq<(string, string)>, accounts: seq<Account>) {
    forall c :: Get(sel, c).Some? ==> exists a :: a in accounts && a.currency == c && a.id == Get(sel, c).value
  }

  lemma DefaultSelectionMatches(accounts: seq<Account>)
    ensures SelectionMatchesAccounts(DefaultSelection(accounts), accounts)
  {
    forall c | Get(DefaultSelection(accounts), c).Some?
      ensures exists a :: a in accounts && a.currency == c && a.id == Get(DefaultSelection(accounts), c).value
    {
      DefaultSelectionLookup(accounts, c);
      var i :| LastDefaultAt(accounts, c, i);
      assert accounts[i] in accounts;
    }
  }

  /** Filling keeps the selected ids valid, gives every listed currency that
      has an account an entry, and keeps every non-empty entry. */
  lemma {:induction false} FillSelectionProperties(sel: seq<(string, string)>, accounts: seq<Account>, cs: seq<string>)
    requires SelectionMatchesAccounts(sel, accounts)
    ensures SelectionMatchesAccounts(FillSelection(sel, accounts, cs), accounts)
    ensures forall c :: c in cs && FirstAccountOf(accounts, c).Some? ==> Get(FillSelection(sel, accounts, cs), c).Some?
    ensures forall c :: StrTruthy(Get(sel, c)) ==> Get(FillSelection(sel, accounts, cs), c) == Get(sel, c)
  {
    if cs != [] {
      var n := |cs| - 1;
      var c := cs[n];
      var prev := FillSelection(sel, accounts, cs[..n]);
      FillSelectionProperties(sel, accounts, cs[..n]);
      var account := FirstAccountOf(accounts, c);
      if !StrTruthy(Get(prev, c)) && account.Some? {
        var next := Put(prev, c, account.value.id);
        GetPutSame(prev, c, account.value.id);
        forall c' | c' != c ensures Get(next, c') == Get(prev, c') {
          GetPutOther(prev, c, account.value.id, c');
        }
      }
      forall c' | c' in cs && FirstAccountOf(accounts, c').Some?
        ensures Get(FillSelection(sel, accounts, cs), c').Some?
      {
        if c' != c {
          assert c' in cs[..n];
        }
      }
    }
  }

  /** The selection the accounts effect computes. */
  method SelectionEffect(accounts: seq<Account>, invoices: seq<Invoice>) returns (sel: seq<(string, string)>)
    ensures sel == FillSelection(DefaultSelection(accounts), accounts, DistinctCurrencies(invoices))
    ensures SelectionMatchesAccounts(sel, accounts)
    ensures forall x :: x in invoices && FirstAccountOf(accounts, x.currency).Some? ==> Get(sel, x.currency).Some?
    ensures forall c :: StrTruthy(Get(DefaultSelection(accounts), c)) ==> Get(sel, c) == Get(DefaultSelection(accounts), c)
  {
    var defaults := InitialSelection(accounts);
    var cs := DistinctCurrencies(invoices);
    sel := defaults;
    for i := 0 to |cs|
      invariant sel == FillSelection(defaults, accounts, cs[..i])
    {
      assert cs[..i + 1][..i] == cs[..i];
      var c := cs[i];
      if !StrTruthy(Get(sel, c)) {
        var account := FirstAccountOf(accounts, c);
        if account.Some? {
          sel := Put(sel, c, account.value.id);
        }
      }
    }
    assert cs[..|cs|] == cs;
    DefaultSelectionMatches(accounts);
    FillSelectionProperties(defaults, accounts, cs);
  }

  // ---- the payment-date rule of the authorisation panel (PayrunDetails.tsx:689-697, 731-735)

  /** `onValidateDate`: a warning is shown when the start of the chosen day
      is before the start of tomorrow or after `now` plus 60 days. */
  predicate DateWarning(date: Option<int>, now: int) {
    date.Some? &&
    (StartOfDay(date.value) < StartOfDay(AddDays(now, 1)) || StartOfDay(date.value) > AddDays(now, 60))
  }

  /** The send button is disabled without a date, or when the date is before
      `now` plus one day or after `now` plus 61 days. */
  predicate SendDisabled(date: Option<int>, now: int) {
    date.None? || date.value < AddDays(now, 1) || date.value > AddDays(now, 61)
  }

  lemma StartOfDayMonotone(a: int, b: int)
    requires a <= b
    ensures StartOfDay(a) <= StartOfDay(b)
  {
  }

  /** Between one and sixty days ahead both rules accept the date. */
  lemma DateRulesAgreeInWindow(date: int, now: int)
    requires AddDays(now, 1) <= date <= AddDays(now, 60)
    ensures !DateWarning(Some(date), now) && !SendDisabled(Some(date), now)
  {
    StartOfDayMonotone(AddDays(now, 1), date);
  }

  /** A payment exactly 61 days ahead can be sent although it is warned about. */
  lemma SendableButWarned(now: int)
    ensures DateWarning(Some(AddDays(now, 61)), now)
    ensures !SendDisabled(Some(AddDays(now, 61)), now)
  {
  }

  /** Tomorrow at midnight, chosen after midnight today, is not warned about
      but cannot be sent. */
  lemma WarnFreeButUnsendable(now: int)
    requires now % DayMs != 0
    ensures !DateWarning(Some(StartOfDay(now) + DayMs), now)
    ensures SendDisabled(Some(StartOfDay(now) + DayMs), now)
  {
    var d := StartOfDay(now) + DayMs;
    assert StartOfDay(AddDays(now, 1)) == d by {
      assert AddDays(now, 1) == now + DayMs;
      assert (now + DayMs) % DayMs == now % DayMs;
    }
    assert StartOfDay(d) == d by {
      assert d % DayMs == 0;
    }
  }

  /** `handleOnAllPayrunsClick`: whether the page is left, given the answer
      to the unsaved-changes confirmation. */
  function LeavesPage(hasDataChanged: bool, confirmed: bool): (r: bool)
    ensures !hasDataChanged ==> r
    ensures hasDataChanged ==> (r <==> confirmed)
  {
    !hasDataChanged || confirmed
  }

  // ---- the page ---------------------------------------------------------------

  class PayrunPage {
    const invoices: seq<Invoice>
    const accounts: seq<Account>
    /** `payrunState` */
    var working: State
    /** `savedPayrunState` */
    var saved: State
    /** `selectedAccountsId` */
    var selectedAccounts: seq<(string, string)>
    /** `currentContactAccordionsOpen` */
    var openContacts: seq<string>

    ghost predicate Valid()
      reads this
    {
      Consistent(working) && Consistent(saved) && SameGroups(working, saved)
    }

    constructor(invoices: seq<Invoice>, accounts: seq<Account>)
      ensures Valid()
      ensures this.invoices == invoices && this.accounts == accounts
      ensures working == Grouped(invoices) && saved == Grouped(invoices)
      ensures selectedAccounts == DefaultSelection(accounts)
      ensures openContacts == []
    {
      var s := GroupInvoices(invoices);
      var sel := InitialSelection(accounts);
      this.invoices := invoices;
      this.accounts := accounts;
      working := s;
      saved := s;
      selectedAccounts := sel;
      openContacts := [];
    }

    /** The accounts effect, run once the accounts are known. */
    method OnAccountsLoaded()
      modifies this
      ensures selectedAccounts == FillSelection(DefaultSelection(accounts), accounts, DistinctCurrencies(invoices))
      ensures working == old(working) && saved == old(saved) && openContacts == old(openContacts)
    {
      selectedAccounts := SelectionEffect(accounts, invoices);
    }

    /** `handleAccountChange` */
    method ChangeAccount(currency: string, accountId: string)
      modifies this
      ensures selectedAccounts == Put(old(selectedAccounts), currency, accountId)
      ensures working == old(working) && saved == old(saved) && openContacts == old(openContacts)
    {
      selectedAccounts := Put(selectedAccounts, currency, accountId);
    }

    /** `onCurrencySwitchChange(value, contact)` */
    method SwitchContact(currency: string, contact: string, value: bool)
      requires Valid() && GroupAt(working, currency, contact).Some?
      modifies this
      ensures Valid()
      ensures working == ToggleContact(old(working), currency, contact, value)
      ensures saved == old(saved) && selectedAccounts == old(selectedAccounts) && openContacts == old(openContacts)
    {
      ToggleContactKeepsValid(working, saved, currency, contact, value);
      SetPayrunState(ToggleContact(working, currency, contact, value));
    }

    /** `onInvoiceSwitchChange(value, invoiceId)`: the contact row is closed
        when no other invoice of the group is enabled. */
    method SwitchInvoice(currency: string, contact: string, invoiceId: string, value: bool)
      requires Valid() && GroupAt(working, currency, contact).Some?
      modifies this
      ensures Valid()
      ensures working == ToggleInvoice(old(working), currency, contact, invoiceId, value)
      ensures openContacts == if SomeOtherEnabled(GroupAt(old(working), currency, contact).value.invoices, invoiceId)
        then old(openContacts) else Without(old(openContacts), contact)
      ensures saved == old(saved) && selectedAccounts == old(selectedAccounts)
    {
      var enabled := SomeOtherEnabled(GroupAt(working, currency, contact).value.invoices, invoiceId);
      if !enabled {
        openContacts := Without(openContacts, contact);
      }
      ToggleInvoiceKeepsValid(working, saved, currency, contact, invoiceId, value);
      SetPayrunState(ToggleInvoice(working, currency, contact, invoiceId, value));
    }

    /** `setPayrunState`, with a next state that keeps the page's invariant. */
    method SetPayrunState(next: State)
      requires Consistent(next) && Consistent(saved) && SameGroups(next, saved)
      modifies this
      ensures Valid() && working == next
      ensures saved == old(saved) && selectedAccounts == old(selectedAccounts) && openContacts == old(openContacts)
    {
      working := next;
    }

    /** `handleOnSave`: the working state becomes the baseline. */
    method Save()
      requires Valid()
      modifies this
      ensures Valid() && !HasDataChanged(saved, working)
      ensures saved == old(working) && working == old(working)
      ensures selectedAccounts == old(selectedAccounts) && openContacts == old(openContacts)
    {
      saved := working;
    }

    /** Discard: the baseline is restored. */
    method Discard()
      requires Valid()
      modifies this
      ensures Valid() && !HasDataChanged(saved, working)
      ensures working == old(saved) && saved == old(saved)
      ensures selectedAccounts == old(selectedAccounts) && openContacts == old(openContacts)
    {
      working := saved;
    }

    /** The change set sent on save. */
    function Changes(): State
      reads this
      requires Valid()
    {
      Diff(working, saved)
    }

    predicate CanRequestAuth()
      reads this
    {
      IsRequestAuthEnabled(working, accounts, selectedAccounts)
    }

    /** `handleOnRequestAuth` */
    method RequestAuthorisation(paymentDate: int, notes: string) returns (r: AuthRequest)
      ensures r == RequestAuth(working, paymentDate, notes)
    {
      r := RequestAuth(working, paymentDate, notes);
    }
  }

  /** A switch on a contact row keeps the working state consistent and its
      groups those of the baseline. */
  lemma ToggleContactKeepsValid(working: State, saved: State, currency: string, contact: string, value: bool)
    requires Consistent(working) && Consistent(saved) && SameGroups(working, saved)
    requires GroupAt(working, currency, contact).Some?
    ensures Consistent(ToggleContact(working, currency, contact, value))
    ensures SameGroups(ToggleContact(working, currency, contact, value), saved)
  {
    ToggleContactConsistent(working, currency, contact, value);
    ToggleContactSameGroups(working, currency, contact, value);
  }

  /** The same for a switch on one invoice. */
  lemma ToggleInvoiceKeepsValid(working: State, saved: State, currency: string, contact: string, invoiceId: string, value: bool)
    requires Consistent(working) && Consistent(saved) && SameGroups(working, saved)
    requires GroupAt(working, currency, contact).Some?
    ensures Consistent(ToggleInvoice(working, currency, contact, invoiceId, value))
    ensures SameGroups(ToggleInvoice(working, currency, contact, invoiceId, value), saved)
  {
    ToggleInvoiceConsistent(working, currency, contact, invoiceId, value);
    ToggleInvoiceSameGroups(working, currency, contact, invoiceId, value);
  }

  /** `prev.filter((openContact) => openContact !== contact)` */
  function Without(xs: seq<string>, x: string): (r: seq<string>)
    ensures x !in r
    ensures forall y :: y in r <==> y in xs && y != x
  {
    if xs == [] then [] else (if xs[0] == x then [] else [xs[0]]) + Without(xs[1..], x)
  }

  lemma ValidCovers(working: State, saved: State)
    requires SameGroups(working, saved)
    ensures Covers(working, saved)
  {
  }

  /** Leaving the page with unsaved switches asks first: while the change
      set is not empty the page is left only on confirmation, and right
      after a save (working equal to the baseline) it is left at once. */
  lemma PendingChangesAsk(working: State, saved: State, confirmed: bool)
    requires Consistent(working) && Consistent(saved) && SameGroups(working, saved)
    ensures Covers(working, saved)
    ensures Diff(working, saved) != [] ==> (LeavesPage(HasDataChanged(saved, working), confirmed) <==> confirmed)
    ensures working == saved ==> LeavesPage(HasDataChanged(saved, working), confirmed)
  {
    ValidCovers(working, saved);
    if working == saved {
      DiffSelf(working);
    }
  }
}

=== FILE: payrun_state.dfy ===
/** The payrun selection state of the payrun details page: the invoices of a
    payrun grouped by currency and then by contact, each invoice and each
    contact group carrying an `enabled` flag, and everything derived from it
    (totals, balances, the authorisation request, the change set).
    Source: packages/components/src/components/ui/pages/PayrunDetails/PayrunDetails.tsx */
module PayrunState {
  import opened Prelude
  import opened AssocList

  /** The fields of a payrun invoice that the selection logic reads. */
  datatype Invoice = Invoice(
    id: string,
    invoiceNumber: string,
    contact: string,
    currency: string,
    totalAmount: Option<int>)

  datatype InvoiceWithState = InvoiceWithState(invoice: Invoice, enabled: bool)

  datatype ContactGroup = ContactGroup(enabled: bool, invoices: seq<InvoiceWithState>)

  /** contact name -> group, in insertion order */
  type Contacts = seq<(string, ContactGroup)>

  /** currency -> contacts, in insertion order */
  type State = seq<(string, Contacts)>

  /** `state[currency][contact]`, or `undefined`. */
  function GroupAt(s: State, currency: string, contact: string): Option<ContactGroup> {
    match Get(s, currency)
    case None => None
    case Some(contacts) => Get(contacts, contact)
  }

  /** `{ ...s, [currency]: { ...s[currency], [contact]: g } }` */
  function SetGroup(s: State, currency: string, contact: string, g: ContactGroup): State
    requires Get(s, currency).Some?
  {
    Put(s, currency, Put(Get(s, currency).value, contact, g))
  }

  /** Keys are unique at both levels, as in the nested JavaScript objects. */
  predicate WellFormed(s: State) {
    UniqueKeys(s) && forall p :: p in s ==> UniqueKeys(p.1)
  }

  /** Every group holds an invoice, and an enabled group holds an enabled one. */
  predicate GroupConsistent(g: ContactGroup) {
    g.invoices != [] && (g.enabled ==> exists i :: 0 <= i < |g.invoices| && g.invoices[i].enabled)
  }

  predicate Consistent(s: State) {
    WellFormed(s) && forall p :: p in s ==> forall q :: q in p.1 ==> GroupConsistent(q.1)
  }

  /** A group as grouping creates it: enabled, with every invoice enabled. */
  predicate Fresh(g: ContactGroup) {
    g.enabled && forall i :: 0 <= i < |g.invoices| ==> g.invoices[i].enabled
  }

  lemma SetGroupEffect(s: State, currency: string, contact: string, g: ContactGroup)
    requires Get(s, currency).Some?
    ensures GroupAt(SetGroup(s, currency, contact, g), currency, contact) == Some(g)
    ensures forall c, k :: (c, k) != (currency, contact) ==>
      GroupAt(SetGroup(s, currency, contact, g), c, k) == GroupAt(s, c, k)
    ensures Keys(SetGroup(s, currency, contact, g)) == Keys(s)
  {
    var contacts := Get(s, currency).value;
    var r := SetGroup(s, currency, contact, g);
    GetPutSame(s, currency, Put(contacts, contact, g));
    GetPutSame(contacts, contact, g);
    KeysPutPresent(s, currency, Put(contacts, contact, g));
    forall c, k | (c, k) != (currency, contact)
      ensures GroupAt(r, c, k) == GroupAt(s, c, k)
    {
      if c == currency {
        GetPutOther(contacts, contact, g, k);
      } else {
        GetPutOther(s, currency, Put(contacts, contact, g), c);
      }
    }
  }

  /** Replacing a group by a consistent one keeps the state consistent. */
  lemma SetGroupConsistent(s: State, currency: string, contact: string, g: ContactGroup)
    requires Consistent(s) && Get(s, currency).Some? && GroupConsistent(g)
    ensures Consistent(SetGroup(s, currency, contact, g))
  {
    var contacts := Get(s, currency).value;
    var contacts' := Put(contacts, contact, g);
    GetMember(s, currency);
    PutMembers(s, currency, contacts');
    PutMembers(contacts, contact, g);
    PutUnique(s, currency, contacts');
    PutUnique(contacts, contact, g);
  }

  // ---- grouping (PayrunDetails.tsx:79-99) -----------------------------------

  /** One step of the `reduce`: create the currency and the contact group when
      missing (enabled, no invoices), then push the invoice, enabled. */
  function AddInvoice(s: State, x: Invoice): State {
    var contacts := Get(s, x.currency).GetOr([]);
    var group := Get(contacts, x.contact).GetOr(ContactGroup(true, []));
    Put(s, x.currency,
      Put(contacts, x.contact, group.(invoices := group.invoices + [InvoiceWithState(x, true)])))
  }

  /** `getPayrunStateFromPayrun`, as a specification: the fold of `AddInvoice`. */
  function Grouped(xs: seq<Invoice>): State {
    if xs == [] then [] else AddInvoice(Grouped(xs[..|xs| - 1]), xs[|xs| - 1])
  }

  /** The invoices of `xs` with this currency and contact, in order, enabled. */
  function Matching(xs: seq<Invoice>, currency: string, contact: string): seq<InvoiceWithState> {
    if xs == [] then []
    else
      var x := xs[|xs| - 1];
      Matching(xs[..|xs| - 1], currency, contact)
        + (if x.currency == currency && x.contact == contact then [InvoiceWithState(x, true)] else [])
  }

  /** Grouping places every invoice under its own currency and contact, and
      nowhere else: the group at (currency, contact) exists exactly when some
      invoice has that currency and contact, it is enabled, and it holds those
      invoices in input order, each enabled. */
  lemma {:induction false} GroupedLookup(xs: seq<Invoice>, currency: string, contact: string)
    ensures GroupAt(Grouped(xs), currency, contact)
      == if Matching(xs, currency, contact) == [] then None
         else Some(ContactGroup(true, Matching(xs, currency, contact)))
  {
    if xs != [] {
      var ys, x := xs[..|xs| - 1], xs[|xs| - 1];
      var s := Grouped(ys);
      GroupedLookup(ys, currency, contact);
      var contacts := Get(s, x.currency).GetOr([]);
      var group := Get(contacts, x.contact).GetOr(ContactGroup(true, []));
      var group' := group.(invoices := group.invoices + [InvoiceWithState(x, true)]);
      GetPutSame(s, x.currency, Put(contacts, x.contact, group'));
      if x.currency == currency {
        if x.contact == contact {
          GetPutSame(contacts, x.contact, group');
        } else {
          GetPutOther(contacts, x.contact, group', contact);
          assert GroupAt(s, currency, contact) == Get(contacts, contact);
          assert Matching(xs, currency, contact) == Matching(ys, currency, contact);
        }
      } else {
        GetPutOther(s, x.currency, Put(contacts, x.contact, group'), currency);
        assert Matching(xs, currency, contact) == Matching(ys, currency, contact);
      }
    }
  }

  /** The grouped state has unique keys and only fresh, non-empty groups. */
  lemma {:induction false} GroupedFresh(xs: seq<Invoice>)
    ensures WellFormed(Grouped(xs))
    ensures forall p :: p in Grouped(xs) ==> forall q :: q in p.1 ==> Fresh(q.1) && q.1.invoices != []
  {
    if xs != [] {
      var ys, x := xs[..|xs| - 1], xs[|xs| - 1];
      var s := Grouped(ys);
      GroupedFresh(ys);
      var contacts := Get(s, x.currency).GetOr([]);
      var group := Get(contacts, x.contact).GetOr(ContactGroup(true, []));
      var group' := group.(invoices := group.invoices + [InvoiceWithState(x, true)]);
      var contacts' := Put(contacts, x.contact, group');
      if Get(s, x.currency).Some? {
        GetMember(s, x.currency);
      }
      if Get(contacts, x.contact).Some? {
        GetMember(contacts, x.contact);
      }
      assert Fresh(group');
      PutMembers(s, x.currency, contacts');
      PutMembers(contacts, x.contact, group');
      PutUnique(s, x.currency, contacts');
      PutUnique(contacts, x.contact, group');
    }
  }

  /** The grouped state satisfies the selection invariant. */
  lemma GroupedConsistent(xs: seq<Invoice>)
    ensures Consistent(Grouped(xs))
  {
    GroupedFresh(xs);
    forall p, q | p in Grouped(xs) && q in p.1 ensures GroupConsistent(q.1) {
      assert q.1.invoices[0].enabled;
    }
  }

  // ---- the contact-group switch (PayrunDetails.tsx:387-418) ------------------

  predicate AllDisabled(ivs: seq<InvoiceWithState>) {
    forall i :: 0 <= i < |ivs| ==> !ivs[i].enabled
  }

  function EnableAll(ivs: seq<InvoiceWithState>): (r: seq<InvoiceWithState>)
    ensures |r| == |ivs|
    ensures forall i :: 0 <= i < |r| ==> r[i] == ivs[i].(enabled := true)
  {
    if ivs == [] then [] else [ivs[0].(enabled := true)] + EnableAll(ivs[1..])
  }

  /** The group after its switch is set to `value`. The two state updates of
      the handler combine into this one: the flag takes `value` and, when the
      group is switched on while every invoice is off, every invoice is
      switched on. */
  function SwitchedContact(g: ContactGroup, value: bool): (r: ContactGroup)
    ensures r.enabled == value
    ensures |r.invoices| == |g.invoices|
    ensures forall i :: 0 <= i < |r.invoices| ==> r.invoices[i].invoice == g.invoices[i].invoice
    ensures value && AllDisabled(g.invoices) ==> forall i :: 0 <= i < |r.invoices| ==> r.invoices[i].enabled
    ensures !(value && AllDisabled(g.invoices)) ==> r.invoices == g.invoices
  {
    ContactGroup(value, if value && AllDisabled(g.invoices) then EnableAll(g.invoices) else g.invoices)
  }

  /** `onCurrencySwitchChange(value, contact)` in the accordion of `currency`. */
  function ToggleContact(s: State, currency: string, contact: string, value: bool): State
    requires GroupAt(s, currency, contact).Some?
  {
    SetGroup(s, currency, contact, SwitchedContact(GroupAt(s, currency, contact).value, value))
  }

  /** The group switch changes that group as `SwitchedContact` says, and no
      other group, currency or key. */
  lemma ToggleContactEffect(s: State, currency: string, contact: string, value: bool)
    requires GroupAt(s, currency, contact).Some?
    ensures GroupAt(ToggleContact(s, currency, contact, value), currency, contact)
      == Some(SwitchedContact(GroupAt(s, currency, contact).value, value))
    ensures forall c, k :: (c, k) != (currency, contact) ==>
      GroupAt(ToggleContact(s, currency, contact, value), c, k) == GroupAt(s, c, k)
    ensures Keys(ToggleContact(s, currency, contact, value)) == Keys(s)
  {
    SetGroupEffect(s, currency, contact, SwitchedContact(GroupAt(s, currency, contact).value, value));
  }

  lemma ToggleContactConsistent(s: State, currency: string, contact: string, value: bool)
    requires Consistent(s) && GroupAt(s, currency, contact).Some?
    ensures Consistent(ToggleContact(s, currency, contact, value))
  {
    var g := GroupAt(s, currency, contact).value;
    GetMember(s, currency);
    GetMember(Get(s, currency).value, contact);
    assert GroupConsistent(g);
    var g' := SwitchedContact(g, value);
    if value && !AllDisabled(g.invoices) {
      var i :| 0 <= i < |g.invoices| && g.invoices[i].enabled;
    } else if value {
      assert g'.invoices[0].enabled;
    }
    SetGroupConsistent(s, currency, contact, g');
  }

  /** Switching an enabled group off and on again restores the state exactly,
      every invoice flag included. */
  lemma ToggleContactOffOn(s: State, currency: string, contact: string)
    requires Consistent(s) && GroupAt(s, currency, contact).Some?
    requires GroupAt(s, currency, contact).value.enabled
    ensures GroupAt(ToggleContact(s, currency, contact, false), currency, contact).Some?
    ensures ToggleContact(ToggleContact(s, currency, contact, false), currency, contact, true) == s
  {
    var contacts := Get(s, currency).value;
    var g := GroupAt(s, currency, contact).value;
    GetMember(s, currency);
    GetMember(contacts, contact);
    assert GroupConsistent(g);
    var i :| 0 <= i < |g.invoices| && g.invoices[i].enabled;
    var s1 := ToggleContact(s, currency, contact, false);
    ToggleContactEffect(s, currency, contact, false);
    var g1 := g.(enabled := false);
    assert GroupAt(s1, currency, contact) == Some(g1);
    GetPutSame(s, currency, Put(contacts, contact, g1));
    assert !AllDisabled(g1.invoices);
    assert SwitchedContact(g1, true) == g;
    calc {
      ToggleContact(s1, currency, contact, true);
      SetGroup(s1, currency, contact, g);
      Put(s1, currency, Put(Put(contacts, contact, g1), contact, g));
      { PutPut(contacts, contact, g1, g); }
      Put(s1, currency, Put(contacts, contact, g));
      { PutGetIdentity(contacts, contact); }
      Put(Put(s, currency, Put(contacts, contact, g1)), currency, contacts);
      { PutPut(s, currency, Put(contacts, contact, g1), contacts); }
      Put(s, currency, contacts);
      { PutGetIdentity(s, currency); }
      s;
    }
  }

  // ---- the invoice switch (PayrunDetails.tsx:509-544) -----------------------

  /** Some invoice other than `invoiceId` is enabled. */
  predicate SomeOtherEnabled(ivs: seq<InvoiceWithState>, invoiceId: string) {
    exists i :: 0 <= i < |ivs| && ivs[i].invoice.id != invoiceId && ivs[i].enabled
  }

  function SetEnabled(ivs: seq<InvoiceWithState>, invoiceId: string, value: bool): (r: seq<InvoiceWithState>)
    ensures |r| == |ivs|
    ensures forall i :: 0 <= i < |r| ==>
      r[i] == if ivs[i].invoice.id == invoiceId then ivs[i].(enabled := value) else ivs[i]
  {
    if ivs == [] then []
    else
      [if ivs[0].invoice.id == invoiceId then ivs[0].(enabled := value) else ivs[0]]
        + SetEnabled(ivs[1..], invoiceId, value)
  }

  /** The group after the switch of invoice `invoiceId` is set to `value`:
      every invoice with that id takes `value`, the others keep their flag,
      and the group flag becomes "some other invoice is enabled", whatever
      `value` is. */
  function SwitchedInvoice(g: ContactGroup, invoiceId: string, value: bool): (r: ContactGroup)
    ensures r.enabled <==> exists i :: 0 <= i < |g.invoices| && g.invoices[i].invoice.id != invoiceId && g.invoices[i].enabled
    ensures |r.invoices| == |g.invoices|
    ensures forall i :: 0 <= i < |r.invoices| ==>
      r.invoices[i].invoice == g.invoices[i].invoice
      && r.invoices[i].enabled == (if g.invoices[i].invoice.id == invoiceId then value else g.invoices[i].enabled)
  {
    ContactGroup(SomeOtherEnabled(g.invoices, invoiceId), SetEnabled(g.invoices, invoiceId, value))
  }

  /** `onInvoiceSwitchChange(value, invoiceId)` under `contact` in `currency`. */
  function ToggleInvoice(s: State, currency: string, contact: string, invoiceId: string, value: bool): State
    requires GroupAt(s, currency, contact).Some?
  {
    SetGroup(s, currency, contact, SwitchedInvoice(GroupAt(s, currency, contact).value, invoiceId, value))
  }

  lemma ToggleInvoiceEffect(s: State, currency: string, contact: string, invoiceId: string, value: bool)
    requires GroupAt(s, currency, contact).Some?
    ensures GroupAt(ToggleInvoice(s, currency, contact, invoiceId, value), currency, contact)
      == Some(SwitchedInvoice(GroupAt(s, currency, contact).value, invoiceId, value))
    ensures forall c, k :: (c, k) != (currency, contact) ==>
      GroupAt(ToggleInvoice(s, currency, contact, invoiceId, value), c, k) == GroupAt(s, c, k)
    ensures Keys(ToggleInvoice(s, currency, contact, invoiceId, value)) == Keys(s)
  {
    SetGroupEffect(s, currency, contact, SwitchedInvoice(GroupAt(s, currency, contact).value, invoiceId, value));
  }

  lemma ToggleInvoiceConsistent(s: State, currency: string, contact: string, invoiceId: string, value: bool)
    requires Consistent(s) && GroupAt(s, currency, contact).Some?
    ensures Consistent(ToggleInvoice(s, currency, contact, invoiceId, value))
  {
    var g := GroupAt(s, currency, contact).value;
    GetMember(s, currency);
    GetMember(Get(s, currency).value, contact);
    assert GroupConsistent(g);
    var g' := SwitchedInvoice(g, invoiceId, value);
    if g'.enabled {
      var i :| 0 <= i < |g.invoices| && g.invoices[i].invoice.id != invoiceId && g.invoices[i].enabled;
      assert g'.invoices[i].enabled;
    }
    SetGroupConsistent(s, currency, contact, g');
  }

  /** Switching an invoice to a flag it does not have is always a change. */
  lemma ToggleInvoiceChanges(s: State, currency: string, contact: string, invoiceId: string, value: bool, i: nat)
    requires GroupAt(s, currency, contact).Some?
    requires i < |GroupAt(s, currency, contact).value.invoices|
    requires GroupAt(s, currency, contact).value.invoices[i].invoice.id == invoiceId
    requires GroupAt(s, currency, contact).value.invoices[i].enabled != value
    ensures ToggleInvoice(s, currency, contact, invoiceId, value) != s
  {
    ToggleInvoiceEffect(s, currency, contact, invoiceId, value);
  }

  // ---- totals and the authorisation test (PayrunDetails.tsx:165-194) --------

  /** The fields of a local account the payrun page reads. */
  datatype Account = Account(id: string, currency: string, availableBalance: int, isDefault: bool)

  /** `invoices.filter((invoice) => invoice.enabled)` */
  function EnabledOnly(ivs: seq<InvoiceWithState>): (r: seq<InvoiceWithState>)
    ensures |r| <= |ivs|
    ensures forall iv :: iv in r <==> iv in ivs && iv.enabled
  {
    if ivs == [] then []
    else (if ivs[0].enabled then [ivs[0]] else []) + EnabledOnly(ivs[1..])
  }

  /** The invoices of one currency that are included in the payout: the
      enabled invoices of the enabled groups, in contact order. */
  function IncludedIn(contacts: Contacts): seq<InvoiceWithState> {
    if contacts == [] then []
    else
      (if contacts[0].1.enabled then EnabledOnly(contacts[0].1.invoices) else [])
        + IncludedIn(contacts[1..])
  }

  /** `invoices.reduce((sum, i) => sum + (i.totalAmount ?? 0), 0)` */
  function SumAmounts(ivs: seq<InvoiceWithState>): int {
    if ivs == [] then 0 else ivs[0].invoice.totalAmount.GetOr(0) + SumAmounts(ivs[1..])
  }

  function TotalToPay(contacts: Contacts): int {
    SumAmounts(IncludedIn(contacts))
  }

  /** `accounts.find((account) => account.id === id)`; an absent id matches no account. */
  function FindAccount(accounts: seq<Account>, id: Option<string>): (r: Option<Account>)
    ensures r.Some? ==> r.value in accounts && id == Some(r.value.id)
    ensures r.None? <==> id.None? || forall a :: a in accounts ==> a.id != id.value
  {
    if accounts == [] || id.None? then None
    else if accounts[0].id == id.value then Some(accounts[0])
    else FindAccount(accounts[1..], id)
  }

  /** The selected account's available balance (0 without one) minus the total to pay. */
  function BalanceAfterPayment(accounts: seq<Account>, selected: seq<(string, string)>,
                               currency: string, contacts: Contacts): int
  {
    SelectedBalance(accounts, selected, currency) - TotalToPay(contacts)
  }

  predicate IsBalanceAfterPaymentPositive(s: State, accounts: seq<Account>, selected: seq<(string, string)>) {
    forall i :: 0 <= i < |s| ==> BalanceAfterPayment(accounts, selected, s[i].0, s[i].1) >= 0
  }

  predicate AtLeastOneInvoiceEnabled(s: State) {
    exists i, j, k :: 0 <= i < |s| && 0 <= j < |s[i].1| && 0 <= k < |s[i].1[j].1.invoices|
      && s[i].1[j].1.enabled && s[i].1[j].1.invoices[k].enabled
  }

  predicate IsRequestAuthEnabled(s: State, accounts: seq<Account>, selected: seq<(string, string)>) {
    AtLeastOneInvoiceEnabled(s) && IsBalanceAfterPaymentPositive(s, accounts, selected)
  }

  // ---- the authorisation request (PayrunDetails.tsx:205-215) ----------------

  /** `Object.values(state).flatMap((currency) => Object.values(currency))` */
  function AllGroups(s: State): seq<ContactGroup> {
    if s == [] then [] else Values(s[0].1) + AllGroups(s[1..])
  }

  function Values(contacts: Contacts): (r: seq<ContactGroup>)
    ensures |r| == |contacts| && forall j :: 0 <= j < |r| ==> r[j] == contacts[j].1
  {
    if contacts == [] then [] else [contacts[0].1] + Values(contacts[1..])
  }

  /** `.filter((contact) => contact.enabled)` */
  function EnabledGroups(gs: seq<ContactGroup>): seq<ContactGroup> {
    if gs == [] then [] else (if gs[0].enabled then [gs[0]] else []) + EnabledGroups(gs[1..])
  }

  /** `.flatMap((contact) => contact.invoices)` */
  function InvoicesOf(gs: seq<ContactGroup>): seq<InvoiceWithState> {
    if gs == [] then [] else gs[0].invoices + InvoicesOf(gs[1..])
  }

  /** The invoices sent with an authorisation request, as the handler
      computes them. */
  function RequestInvoices(s: State): seq<InvoiceWithState> {
    EnabledOnly(InvoicesOf(EnabledGroups(AllGroups(s))))
  }

  /** `onRequestAuth(invoices, paymentDate, notes)` */
  datatype AuthRequest = AuthRequest(invoices: seq<InvoiceWithState>, paymentDate: int, notes: string)

  function RequestAuth(s: State, paymentDate: int, notes: string): (r: AuthRequest)
    ensures r.paymentDate == paymentDate && r.notes == notes
    ensures forall iv :: iv in r.invoices ==> iv.enabled
  {
    AuthRequest(RequestInvoices(s), paymentDate, notes)
  }

  lemma {:induction false} EnabledOnlyAppend(a: seq<InvoiceWithState>, b: seq<InvoiceWithState>)
    ensures EnabledOnly(a + b) == EnabledOnly(a) + EnabledOnly(b)
  {
    if a != [] {
      assert (a + b)[1..] == a[1..] + b;
      EnabledOnlyAppend(a[1..], b);
    } else {
      assert a + b == b;
    }
  }

  lemma {:induction false} EnabledGroupsAppend(a: seq<ContactGroup>, b: seq<ContactGroup>)
    ensures EnabledGroups(a + b) == EnabledGroups(a) + EnabledGroups(b)
  {
    if a != [] {
      assert (a + b)[1..] == a[1..] + b;
      EnabledGroupsAppend(a[1..], b);
    } else {
      assert a + b == b;
    }
  }

  lemma {:induction false} InvoicesOfAppend(a: seq<ContactGroup>, b: seq<ContactGroup>)
    ensures InvoicesOf(a + b) == InvoicesOf(a) + InvoicesOf(b)
  {
    if a != [] {
      assert (a + b)[1..] == a[1..] + b;
      InvoicesOfAppend(a[1..], b);
    } else {
      assert a + b == b;
    }
  }

  /** For one currency, the request pipeline computes `IncludedIn`. */
  lemma {:induction false} IncludedInPipeline(contacts: Contacts)
    ensures IncludedIn(contacts) == EnabledOnly(InvoicesOf(EnabledGroups(Values(contacts))))
  {
    if contacts != [] {
      var g := contacts[0].1;
      var vs := Values(contacts[1..]);
      assert Values(contacts) == [g] + vs;
      IncludedInPipeline(contacts[1..]);
      EnabledGroupsAppend([g], vs);
      InvoicesOfAppend(EnabledGroups([g]), EnabledGroups(vs));
      EnabledOnlyAppend(InvoicesOf(EnabledGroups([g])), InvoicesOf(EnabledGroups(vs)));
      assert InvoicesOf([g]) == g.invoices;
    }
  }

  /** The request lists, currency after currency in state order, the
      invoices each currency includes in the payout: the enabled invoices of
      the enabled groups, in contact and then invoice order. */
  lemma {:induction false} RequestIsIncludedPerCurrency(s: State)
    ensures s == [] ==> RequestInvoices(s) == []
    ensures s != [] ==> RequestInvoices(s) == IncludedIn(s[0].1) + RequestInvoices(s[1..])
  {
    if s != [] {
      var vs, rest := Values(s[0].1), AllGroups(s[1..]);
      IncludedInPipeline(s[0].1);
      EnabledGroupsAppend(vs, rest);
      InvoicesOfAppend(EnabledGroups(vs), EnabledGroups(rest));
      EnabledOnlyAppend(InvoicesOf(EnabledGroups(vs)), InvoicesOf(EnabledGroups(rest)));
    }
  }

  lemma {:induction false} SumAppend(a: seq<InvoiceWithState>, b: seq<InvoiceWithState>)
    ensures SumAmounts(a + b) == SumAmounts(a) + SumAmounts(b)
  {
    if a != [] {
      assert (a + b)[1..] == a[1..] + b;
      SumAppend(a[1..], b);
    } else {
      assert a + b == b;
    }
  }

  function TotalOverCurrencies(s: State): int {
    if s == [] then 0 else TotalToPay(s[0].1) + TotalOverCurrencies(s[1..])
  }

  /** The amounts sent for authorisation add up to the per-currency totals shown. */
  lemma {:induction false} RequestTotal(s: State)
    ensures SumAmounts(RequestInvoices(s)) == TotalOverCurrencies(s)
  {
    if s != [] {
      RequestIsIncludedPerCurrency(s);
      SumAppend(IncludedIn(s[0].1), RequestInvoices(s[1..]));
      RequestTotal(s[1..]);
    }
  }

  lemma {:induction false} IncludedInMembers(contacts: Contacts, iv: InvoiceWithState)
    ensures iv in IncludedIn(contacts) <==>
      exists j :: 0 <= j < |contacts| && contacts[j].1.enabled && iv in contacts[j].1.invoices && iv.enabled
  {
    if contacts != [] {
      IncludedInMembers(contacts[1..], iv);
      if iv in IncludedIn(contacts[1..]) {
        var j :| 0 <= j < |contacts[1..]| && contacts[1..][j].1.enabled && iv in contacts[1..][j].1.invoices && iv.enabled;
        assert contacts[j + 1] == contacts[1..][j];
      }
      if exists j :: 0 <= j < |contacts| && contacts[j].1.enabled && iv in contacts[j].1.invoices && iv.enabled {
        var j :| 0 <= j < |contacts| && contacts[j].1.enabled && iv in contacts[j].1.invoices && iv.enabled;
        if j > 0 {
          assert contacts[1..][j - 1] == contacts[j];
        }
      }
    }
  }

  /** An invoice is in the request exactly when it is enabled and lies in an
      enabled group of some currency. */
  lemma {:induction false} RequestMembers(s: State, iv: InvoiceWithState)
    ensures iv in RequestInvoices(s) <==>
      exists i, j :: 0 <= i < |s| && 0 <= j < |s[i].1|
        && s[i].1[j].1.enabled && iv in s[i].1[j].1.invoices && iv.enabled
  {
    if s != [] {
      RequestIsIncludedPerCurrency(s);
      RequestMembers(s[1..], iv);
      IncludedInMembers(s[0].1, iv);
      if iv in RequestInvoices(s[1..]) {
        var i, j :| 0 <= i < |s[1..]| && 0 <= j < |s[1..][i].1|
          && s[1..][i].1[j].1.enabled && iv in s[1..][i].1[j].1.invoices && iv.enabled;
        assert s[i + 1] == s[1..][i];
      }
      if exists i, j :: 0 <= i < |s| && 0 <= j < |s[i].1|
                          && s[i].1[j].1.enabled && iv in s[i].1[j].1.invoices && iv.enabled
      {
        var i, j :| 0 <= i < |s| && 0 <= j < |s[i].1|
          && s[i].1[j].1.enabled && iv in s[i].1[j].1.invoices && iv.enabled;
        if i > 0 {
          assert s[1..][i - 1] == s[i];
        }
      }
    }
  }

  /** Authorisation has something to send exactly when some invoice is enabled
      in an enabled group. */
  lemma AtLeastOneIffRequestNonEmpty(s: State)
    ensures AtLeastOneInvoiceEnabled(s) <==> RequestInvoices(s) != []
  {
    if AtLeastOneInvoiceEnabled(s) {
      var i, j, k :| 0 <= i < |s| && 0 <= j < |s[i].1| && 0 <= k < |s[i].1[j].1.invoices|
        && s[i].1[j].1.enabled && s[i].1[j].1.invoices[k].enabled;
      RequestMembers(s, s[i].1[j].1.invoices[k]);
    }
    if RequestInvoices(s) != [] {
      var iv := RequestInvoices(s)[0];
      RequestMembers(s, iv);
      var i, j :| 0 <= i < |s| && 0 <= j < |s[i].1|
        && s[i].1[j].1.enabled && iv in s[i].1[j].1.invoices && iv.enabled;
      var k :| 0 <= k < |s[i].1[j].1.invoices| && s[i].1[j].1.invoices[k] == iv;
    }
  }

  /** The available balance of the account selected for a currency, 0 when
      none is selected or found. */
  function SelectedBalance(accounts: seq<Account>, selected: seq<(string, string)>, currency: string): int {
    var acct := FindAccount(accounts, Get(selected, currency));
    if acct.Some? then acct.value.availableBalance else 0
  }

  /** The selected balances added up over the currencies of a state. */
  function BalanceOverCurrencies(accounts: seq<Account>, selected: seq<(string, string)>, s: State): int {
    if s == [] then 0 else SelectedBalance(accounts, selected, s[0].0) + BalanceOverCurrencies(accounts, selected, s[1..])
  }

  /** The request button is enabled exactly when the request has an invoice
      and, in every currency, the invoices included there add up to at most
      the selected account's balance; the request's total is then covered
      by the selected balances together. */
  lemma RequestAuthEnabledIff(s: State, accounts: seq<Account>, selected: seq<(string, string)>)
    ensures IsRequestAuthEnabled(s, accounts, selected) <==>
      RequestInvoices(s) != [] &&
      forall i :: 0 <= i < |s| ==> TotalToPay(s[i].1) <= SelectedBalance(accounts, selected, s[i].0)
    ensures IsRequestAuthEnabled(s, accounts, selected) ==>
      SumAmounts(RequestInvoices(s)) <= BalanceOverCurrencies(accounts, selected, s)
  {
    AtLeastOneIffRequestNonEmpty(s);
    RequestTotal(s);
    if IsBalanceAfterPaymentPositive(s, accounts, selected) {
      TotalCovered(s, accounts, selected);
    }
  }

  lemma {:induction false} TotalCovered(s: State, accounts: seq<Account>, selected: seq<(string, string)>)
    requires IsBalanceAfterPaymentPositive(s, accounts, selected)
    ensures TotalOverCurrencies(s) <= BalanceOverCurrencies(accounts, selected, s)
  {
    if s != [] {
      assert BalanceAfterPayment(accounts, selected, s[0].0, s[0].1) >= 0;
      assert forall i :: 0 <= i < |s[1..]| ==> s[1..][i] == s[i + 1];
      TotalCovered(s[1..], accounts, selected);
    }
  }

  // ---- the effect of a toggle on the totals ---------------------------------

  /** What one contact group adds to its currency's total to pay; for an
      enabled group this is the contact total shown in its row
      (PayrunDetails.tsx:495-502). */
  function GroupTotal(g: ContactGroup): int {
    if g.enabled then SumAmounts(EnabledOnly(g.invoices)) else 0
  }

  predicate NonNegativeAmounts(ivs: seq<InvoiceWithState>) {
    forall i :: 0 <= i < |ivs| ==> ivs[i].invoice.totalAmount.GetOr(0) >= 0
  }

  lemma {:induction false} TotalToPayCons(contacts: Contacts)
    requires contacts != []
    ensures TotalToPay(contacts) == GroupTotal(contacts[0].1) + TotalToPay(contacts[1..])
  {
    var g := contacts[0].1;
    SumAppend(if g.enabled then EnabledOnly(g.invoices) else [], IncludedIn(contacts[1..]));
  }

  /** Replacing the group of one contact changes the currency total by the
      difference of the two groups' totals. */
  lemma {:induction false} TotalToPayReplace(contacts: Contacts, i: nat, k: string, g': ContactGroup)
    requires i < |contacts|
    ensures TotalToPay(contacts[i := (k, g')]) == TotalToPay(contacts) - GroupTotal(contacts[i].1) + GroupTotal(g')
  {
    var r := contacts[i := (k, g')];
    TotalToPayCons(contacts);
    TotalToPayCons(r);
    if i > 0 {
      assert r[1..] == contacts[1..][i - 1 := (k, g')];
      TotalToPayReplace(contacts[1..], i - 1, k, g');
    } else {
      assert r[1..] == contacts[1..];
    }
  }

  lemma {:induction false} SumNonNegative(ivs: seq<InvoiceWithState>)
    requires NonNegativeAmounts(ivs)
    ensures SumAmounts(ivs) >= 0
  {
    if ivs != [] {
      SumNonNegative(ivs[1..]);
    }
  }

  lemma {:induction false} EnabledOnlyNonNegative(ivs: seq<InvoiceWithState>)
    requires NonNegativeAmounts(ivs)
    ensures NonNegativeAmounts(EnabledOnly(ivs))
  {
    if ivs != [] {
      EnabledOnlyNonNegative(ivs[1..]);
    }
  }

  /** Switching invoices off never raises the sum over the enabled ones. */
  lemma {:induction false} SetDisabledSum(ivs: seq<InvoiceWithState>, invoiceId: string)
    requires NonNegativeAmounts(ivs)
    ensures SumAmounts(EnabledOnly(SetEnabled(ivs, invoiceId, false))) <= SumAmounts(EnabledOnly(ivs))
  {
    if ivs != [] {
      var r := SetEnabled(ivs, invoiceId, false);
      var tail, rtail := EnabledOnly(ivs[1..]), EnabledOnly(r[1..]);
      var head := if ivs[0].enabled then [ivs[0]] else [];
      var rhead := if r[0].enabled then [r[0]] else [];
      assert r[1..] == SetEnabled(ivs[1..], invoiceId, false);
      assert EnabledOnly(ivs) == head + tail;
      assert EnabledOnly(r) == rhead + rtail;
      SumAppend(head, tail);
      SumAppend(rhead, rtail);
      SetDisabledSum(ivs[1..], invoiceId);
      assert SumAmounts(rhead) <= SumAmounts(head) by {
        if head != [] {
          assert SumAmounts(head) == ivs[0].invoice.totalAmount.GetOr(0) + SumAmounts([]);
        }
        if rhead != [] {
          assert SumAmounts(rhead) == r[0].invoice.totalAmount.GetOr(0) + SumAmounts([]);
        }
      }
    }
  }

  /** Switching an invoice off in an enabled group never raises the total
      to pay of its currency, when amounts are not negative. */
  lemma DisableInvoiceNeverRaisesTotal(s: State, currency: string, contact: string, invoiceId: string)
    requires GroupAt(s, currency, contact).Some?
    requires GroupAt(s, currency, contact).value.enabled
    requires NonNegativeAmounts(GroupAt(s, currency, contact).value.invoices)
    ensures Get(ToggleInvoice(s, currency, contact, invoiceId, false), currency).Some?
    ensures TotalToPay(Get(ToggleInvoice(s, currency, contact, invoiceId, false), currency).value)
      <= TotalToPay(Get(s, currency).value)
  {
    var contacts := Get(s, currency).value;
    var g := GroupAt(s, currency, contact).value;
    var g' := SwitchedInvoice(g, invoiceId, false);
    GetPutSame(s, currency, Put(contacts, contact, g'));
    var i := IndexOf(contacts, contact).value;
    TotalToPayReplace(contacts, i, contact, g');
    SetDisabledSum(g.invoices, invoiceId);
    if !g'.enabled {
      EnabledOnlyNonNegative(g.invoices);
      SumNonNegative(EnabledOnly(g.invoices));
    }
  }

  /** The exception: in a switched-off group that still has another enabled
      invoice, switching an invoice off switches the group back on, and the
      total to pay of the currency rises. */
  lemma DisableInvoiceCanRaiseTotal()
    ensures exists s: State, id: string ::
      GroupAt(s, "EUR", "Acme").Some? && Consistent(s)
      && Get(ToggleInvoice(s, "EUR", "Acme", id, false), "EUR").Some?
      && TotalToPay(Get(ToggleInvoice(s, "EUR", "Acme", id, false), "EUR").value)
         > TotalToPay(Get(s, "EUR").value)
  {
    var a := InvoiceWithState(Invoice("a", "INV-1", "Acme", "EUR", Some(5)), true);
    var b := InvoiceWithState(Invoice("b", "INV-2", "Acme", "EUR", Some(7)), true);
    var g := ContactGroup(false, [a, b]);
    var s: State := [("EUR", [("Acme", g)])];
    assert GroupAt(s, "EUR", "Acme") == Some(g);
    var g' := SwitchedInvoice(g, "a", false);
    assert g'.invoices[1].enabled;
    assert g'.invoices == [a.(enabled := false), b];
    assert Get(ToggleInvoice(s, "EUR", "Acme", "a", false), "EUR").value == [("Acme", g')];
    assert EnabledOnly(g'.invoices) == [b];
    assert IncludedIn([("Acme", g')]) == [b] + IncludedIn([]);
    assert SumAmounts([b]) == 7 + SumAmounts([]);
    assert IncludedIn([("Acme", g)]) == [] + IncludedIn([]);
    assert GroupConsistent(g) by {
      assert g.invoices[0].enabled;
    }
  }

  // ---- the payouts count (PayrunDetails.tsx:380-385) ------------------------

  /** A contact that yields a payout: enabled, with an enabled invoice. */
  predicate Pays(g: ContactGroup) {
    g.enabled && |EnabledOnly(g.invoices)| > 0
  }

  /** The `flatMap` and `filter` over a currency's contacts: the contacts
      that yield a payout, in order. */
  function PayingContacts(contacts: Contacts): (r: Contacts)
    ensures |r| <= |contacts|
    ensures forall x :: x in r <==> x in contacts && Pays(x.1)
  {
    if contacts == [] then []
    else
      assert forall x :: x in contacts <==> x == contacts[0] || x in contacts[1..];
      (if Pays(contacts[0].1) then [contacts[0]] else []) + PayingContacts(contacts[1..])
  }

  /** `payoutsLength`: the number of contacts of a currency that are enabled
      and have an enabled invoice; none exactly when no invoice of the
      currency is included. */
  function PayoutsLength(contacts: Contacts): (r: nat)
    ensures r == |PayingContacts(contacts)|
    ensures r <= |contacts|
    ensures r == 0 <==> IncludedIn(contacts) == []
  {
    if contacts == [] then 0
    else
      (if Pays(contacts[0].1) then 1 else 0) + PayoutsLength(contacts[1..])
  }

  // ---- the "invoices included" text (PayrunDetails.tsx:220-233) -------------

  const OneInvoiceIncluded := "1 invoice included"
  const InvoicesIncluded := " invoices included"

  /** `formatInvoiceIncludedText`: the counts of included and of all
      invoices, which read back from the text (`NatToStringRoundTrip`). */
  function InvoiceIncludedText(ivs: seq<InvoiceWithState>): (r: string)
    ensures r == OneInvoiceIncluded <==> |EnabledOnly(ivs)| == 1 && |ivs| == 1
    ensures |EnabledOnly(ivs)| == |ivs| && |ivs| != 1 ==>
      r == "All " + NatToString(|ivs|) + InvoicesIncluded
    ensures |EnabledOnly(ivs)| != |ivs| ==>
      r == NatToString(|EnabledOnly(ivs)|) + " of " + NatToString(|ivs|) + InvoicesIncluded
    ensures |r| >= 4 && r[..4] == "All " <==> |EnabledOnly(ivs)| == |ivs| && |ivs| != 1
  {
    var total := |ivs|;
    var included := |EnabledOnly(ivs)|;
    if included == 1 && included == total then
      assert OneInvoiceIncluded[0] == '1';
      OneInvoiceIncluded
    else if included == total then
      var r := "All " + NatToString(included) + InvoicesIncluded;
      assert r[..4] == "All ";
      assert r[0] == 'A';
      r
    else
      var r := NatToString(included) + " of " + NatToString(total) + InvoicesIncluded;
      assert r[0] == NatToString(included)[0] && IsDigit(r[0]);
      r
  }

  // ---- unsaved changes and the change set (PayrunDetails.tsx:235-264) ------

  /** `!_.isEqual(saved, working)` */
  predicate HasDataChanged(saved: State, working: State) {
    saved != working
  }

  /** The enabled flag of the first invoice with this id, or `undefined`. */
  function FlagOf(ivs: seq<InvoiceWithState>, invoiceId: string): (r: Option<bool>)
    ensures r.Some? <==> exists i :: 0 <= i < |ivs| && ivs[i].invoice.id == invoiceId
    ensures r.Some? ==>
      exists i :: 0 <= i < |ivs| && ivs[i].invoice.id == invoiceId && r.value == ivs[i].enabled &&
        (forall j :: 0 <= j < i ==> ivs[j].invoice.id != invoiceId)
  {
    if ivs == [] then None
    else if ivs[0].invoice.id == invoiceId then Some(ivs[0].enabled)
    else FlagOf(ivs[1..], invoiceId)
  }

  /** The invoices whose flag differs from the one saved under the same id
      (an invoice missing from the saved group counts as different). */
  function ChangedInvoices(ivs: seq<InvoiceWithState>, saved: seq<InvoiceWithState>): (r: seq<InvoiceWithState>)
    ensures forall iv :: iv in r <==> iv in ivs && FlagOf(saved, iv.invoice.id) != Some(iv.enabled)
  {
    if ivs == [] then []
    else
      (if FlagOf(saved, ivs[0].invoice.id) != Some(ivs[0].enabled) then [ivs[0]] else [])
        + ChangedInvoices(ivs[1..], saved)
  }

  /** Every group of the working state exists in the saved one: otherwise
      the lookup of the saved group fails at run time. */
  ghost predicate Covers(working: State, saved: State) {
    forall c, k :: GroupAt(working, c, k).Some? ==> GroupAt(saved, c, k).Some?
  }

  /** The change-set entry of a contact group against its saved group: none
      when they are equal, otherwise the group with only its changed invoices. */
  function ContactChange(g: ContactGroup, sg: ContactGroup): (r: Option<ContactGroup>)
    ensures r.None? <==> g == sg
    ensures r.Some? ==> r.value.enabled == g.enabled
    ensures r.Some? ==> forall iv :: iv in r.value.invoices <==>
                          iv in g.invoices && FlagOf(sg.invoices, iv.invoice.id) != Some(iv.enabled)
  {
    if g == sg then None else Some(g.(invoices := ChangedInvoices(g.invoices, sg.invoices)))
  }

  /** One iteration of the inner `forEach`: `acc[currency] = { ...acc[currency], [contact]: change }`
      when the contact changed. */
  function DiffStep(acc: State, currency: string, contact: string, g: ContactGroup, sg: ContactGroup): State {
    match ContactChange(g, sg)
    case None => acc
    case Some(g') => Put(acc, currency, Put(Get(acc, currency).GetOr([]), contact, g'))
  }

  lemma DiffStepLookup(acc: State, currency: string, contact: string, g: ContactGroup, sg: ContactGroup, c: string, k: string)
    ensures c != currency ==> Get(DiffStep(acc, currency, contact, g, sg), c) == Get(acc, c)
    ensures GroupAt(DiffStep(acc, currency, contact, g, sg), currency, k)
      == if k == contact && g != sg then ContactChange(g, sg) else GroupAt(acc, currency, k)
  {
    if g != sg {
      var inner := Get(acc, currency).GetOr([]);
      var g' := ContactChange(g, sg).value;
      GetPutSame(acc, currency, Put(inner, contact, g'));
      if k == contact {
        GetPutSame(inner, contact, g');
      } else {
        GetPutOther(inner, contact, g', k);
      }
      if c != currency {
        GetPutOther(acc, currency, Put(inner, contact, g'), c);
      }
    }
  }

  /** The inner `forEach` over the contacts of `currency`, adding to `acc`. */
  function DiffContacts(acc: State, currency: string, contacts: Contacts, saved: State): State
    requires forall k :: Get(contacts, k).Some? ==> GroupAt(saved, currency, k).Some?
  {
    if contacts == [] then acc
    else
      var n := |contacts| - 1;
      GetPrefixAll(contacts, n);
      assert Get(contacts, contacts[n].0).Some?;
      DiffStep(DiffContacts(acc, currency, contacts[..n], saved), currency, contacts[n].0, contacts[n].1,
        GroupAt(saved, currency, contacts[n].0).value)
  }

  lemma CoversPrefix(working: State, saved: State, n: nat)
    requires Covers(working, saved) && n <= |working|
    ensures Covers(working[..n], saved)
  {
    forall c, k | GroupAt(working[..n], c, k).Some? ensures GroupAt(saved, c, k).Some? {
      GetPrefix(working, n, c);
    }
  }

  lemma CoversLast(working: State, saved: State, n: nat)
    requires WellFormed(working) && Covers(working, saved) && n == |working| - 1
    ensures forall k :: Get(working[n].1, k).Some? ==> GroupAt(saved, working[n].0, k).Some?
  {
    GetAt(working, n);
  }

  /** `getDifferenceBetweenPayrunStates(working, saved)`: the outer `reduce`. */
  function Diff(working: State, saved: State): State
    requires WellFormed(working) && Covers(working, saved)
  {
    if working == [] then []
    else
      var n := |working| - 1;
      CoversPrefix(working, saved, n);
      CoversLast(working, saved, n);
      UniquePrefix(working, n);
      DiffContacts(Diff(working[..n], saved), working[n].0, working[n].1, saved)
  }

  /** The change-set entry expected for a group. */
  ghost function ChangeFor(working: State, saved: State, c: string, k: string): Option<ContactGroup>
    requires Covers(working, saved)
  {
    match GroupAt(working, c, k)
    case None => None
    case Some(g) => ContactChange(g, GroupAt(saved, c, k).value)
  }

  lemma {:induction false} DiffContactsOther(acc: State, currency: string, contacts: Contacts, saved: State, c: string)
    requires forall k :: Get(contacts, k).Some? ==> GroupAt(saved, currency, k).Some?
    requires c != currency
    ensures Get(DiffContacts(acc, currency, contacts, saved), c) == Get(acc, c)
  {
    if contacts != [] {
      var n := |contacts| - 1;
      GetPrefixAll(contacts, n);
      DiffContactsOther(acc, currency, contacts[..n], saved, c);
      assert Get(contacts, contacts[n].0).Some?;
      DiffStepLookup(DiffContacts(acc, currency, contacts[..n], saved), currency, contacts[n].0, contacts[n].1,
        GroupAt(saved, currency, contacts[n].0).value, c, "");
    }
  }

  lemma {:induction false} DiffContactsLookup(acc: State, currency: string, contacts: Contacts, saved: State, k: string)
    requires UniqueKeys(contacts)
    requires forall k :: Get(contacts, k).Some? ==> GroupAt(saved, currency, k).Some?
    ensures GroupAt(DiffContacts(acc, currency, contacts, saved), currency, k) ==
      if Get(contacts, k).Some? && ContactChange(Get(contacts, k).value, GroupAt(saved, currency, k).value).Some?
      then ContactChange(Get(contacts, k).value, GroupAt(saved, currency, k).value)
      else GroupAt(acc, currency, k)
  {
    if contacts != [] {
      var n := |contacts| - 1;
      GetPrefixAll(contacts, n);
      UniquePrefix(contacts, n);
      DiffContactsLookup(acc, currency, contacts[..n], saved, k);
      var (contact, g) := contacts[n];
      assert contacts == contacts[..n] + [(contact, g)];
      GetSnoc(contacts[..n], contact, g, k);
      assert Get(contacts, contact).Some?;
      DiffStepLookup(DiffContacts(acc, currency, contacts[..n], saved), currency, contact, g,
        GroupAt(saved, currency, contact).value, currency, k);
    }
  }

  /** The change set has an entry for a contact exactly when its group
      differs from the saved one, and that entry lists the group's invoices
      whose flag differs from the saved flag. */
  lemma {:induction false} DiffLookup(working: State, saved: State, c: string, k: string)
    requires WellFormed(working) && Covers(working, saved)
    ensures GroupAt(Diff(working, saved), c, k) == ChangeFor(working, saved, c, k)
  {
    if working != [] {
      var n := |working| - 1;
      CoversPrefix(working, saved, n);
      CoversLast(working, saved, n);
      UniquePrefix(working, n);
      var prefix := working[..n];
      assert WellFormed(prefix);
      var (currency, contacts) := working[n];
      assert working == prefix + [(currency, contacts)];
      GetSnoc(prefix, currency, contacts, c);
      DiffLookup(prefix, saved, c, k);
      if c == currency {
        DiffContactsLookup(Diff(prefix, saved), currency, contacts, saved, k);
      } else {
        DiffContactsOther(Diff(prefix, saved), currency, contacts, saved, c);
      }
    }
  }

  lemma {:induction false} DiffContactsUnchanged(acc: State, currency: string, contacts: Contacts, saved: State)
    requires forall k :: Get(contacts, k).Some? ==> GroupAt(saved, currency, k).Some?
    requires forall j :: 0 <= j < |contacts| ==> GroupAt(saved, currency, contacts[j].0) == Some(contacts[j].1)
    ensures DiffContacts(acc, currency, contacts, saved) == acc
  {
    if contacts != [] {
      var n := |contacts| - 1;
      GetPrefixAll(contacts, n);
      DiffContactsUnchanged(acc, currency, contacts[..n], saved);
    }
  }

  /** The change set is empty exactly when every working group equals its
      saved group. */
  lemma {:induction false} DiffEmptyIff(working: State, saved: State)
    requires WellFormed(working) && Covers(working, saved)
    ensures Diff(working, saved) == [] <==>
      forall c, k :: GroupAt(working, c, k).Some? ==> GroupAt(working, c, k) == GroupAt(saved, c, k)
  {
    if Diff(working, saved) == [] {
      forall c, k | GroupAt(working, c, k).Some? ensures GroupAt(working, c, k) == GroupAt(saved, c, k) {
        DiffLookup(working, saved, c, k);
      }
    }
    if forall c, k :: GroupAt(working, c, k).Some? ==> GroupAt(working, c, k) == GroupAt(saved, c, k) {
      DiffEmptyWhenUnchanged(working, saved);
    }
  }

  lemma {:induction false} DiffEmptyWhenUnchanged(working: State, saved: State)
    requires WellFormed(working) && Covers(working, saved)
    requires forall c, k :: GroupAt(working, c, k).Some? ==> GroupAt(working, c, k) == GroupAt(saved, c, k)
    ensures Diff(working, saved) == []
  {
    if working != [] {
      var n := |working| - 1;
      CoversPrefix(working, saved, n);
      CoversLast(working, saved, n);
      UniquePrefix(working, n);
      var prefix := working[..n];
      var (currency, contacts) := working[n];
      assert working == prefix + [(currency, contacts)];
      forall c, k | GroupAt(prefix, c, k).Some? ensures GroupAt(prefix, c, k) == GroupAt(saved, c, k) {
        GetPrefix(working, n, c);
      }
      DiffEmptyWhenUnchanged(prefix, saved);
      GetAt(working, n);
      forall j | 0 <= j < |contacts| ensures GroupAt(saved, currency, contacts[j].0) == Some(contacts[j].1) {
        GetAt(contacts, j);
      }
      DiffContactsUnchanged([], currency, contacts, saved);
    }
  }

  /** A state compared with itself has no changes. */
  lemma DiffSelf(s: State)
    requires WellFormed(s)
    ensures Covers(s, s) && Diff(s, s) == []
  {
    DiffEmptyIff(s, s);
  }

  // ---- groups present in two states -----------------------------------------

  /** The two states hold groups for the same (currency, contact) pairs. */
  ghost predicate SameGroups(a: State, b: State) {
    forall c, k :: GroupAt(a, c, k).Some? <==> GroupAt(b, c, k).Some?
  }

  lemma ToggleContactSameGroups(s: State, currency: string, contact: string, value: bool)
    requires GroupAt(s, currency, contact).Some?
    ensures SameGroups(ToggleContact(s, currency, contact, value), s)
  {
    ToggleContactEffect(s, currency, contact, value);
  }

  lemma ToggleInvoiceSameGroups(s: State, currency: string, contact: string, invoiceId: string, value: bool)
    requires GroupAt(s, currency, contact).Some?
    ensures SameGroups(ToggleInvoice(s, currency, contact, invoiceId, value), s)
  {
    ToggleInvoiceEffect(s, currency, contact, invoiceId, value);
  }
}

=== FILE: prelude.dfy ===
/** Shared vocabulary of the dashboard model: optional values, the JavaScript
    numbers the components compare, the character classes their regular
    expressions use, decimal rendering of counts, and wall-clock arithmetic. */
module Prelude {

  /** `undefined` versus a present value. */
  datatype Option<T> = None | Some(value: T) {
    /** The `??` operator. */
    function GetOr(default: T): T {
      match this
      case Some(v) => v
      case None => default
    }
  }

  /** A JavaScript number as the components use it. Amounts are integers in
      minor units (cents, pence) and times are integers in milliseconds; NaN
      is the result of `Number(x)` or `parseInt(x)` on something that is not a
      number. */
  datatype JsNum = NaN | Num(n: int)

  /** `a < b` on JavaScript numbers: every comparison with NaN is false. */
  predicate NumLess(a: JsNum, b: JsNum) {
    a.Num? && b.Num? && a.n < b.n
  }

  /** `a === b` on JavaScript numbers: NaN equals nothing. */
  predicate NumEquals(a: JsNum, b: JsNum) {
    a.Num? && b.Num? && a.n == b.n
  }

  /** A number is truthy unless it is 0 or NaN. */
  predicate NumTruthy(a: JsNum) {
    a.Num? && a.n != 0
  }

  /** An optional string is truthy when present and not empty. */
  predicate StrTruthy(s: Option<string>) {
    s.Some? && s.value != ""
  }

  /** `Math.abs`. */
  function NumAbs(a: JsNum): JsNum {
    match a
    case NaN => NaN
    case Num(n) => Num(if n < 0 then -n else n)
  }

  // ---- character classes of the regular expressions -------------------------

  predicate IsDigit(c: char) { '0' <= c <= '9' }
  predicate IsUpper(c: char) { 'A' <= c <= 'Z' }
  predicate IsLower(c: char) { 'a' <= c <= 'z' }
  /** `[a-zA-Z]` */
  predicate IsLetter(c: char) { IsUpper(c) || IsLower(c) }
  /** `[a-zA-Z0-9]`, also `[^\W_]` */
  predicate IsAlnum(c: char) { IsLetter(c) || IsDigit(c) }
  /** `\w` */
  predicate IsWordChar(c: char) { IsAlnum(c) || c == '_' }

  /** `\s`: the ECMAScript WhiteSpace and LineTerminator code points. */
  predicate IsSpace(c: char) {
    c == ' ' || c == '\t' || c == '\n' || c == '\r' || c == '\U{B}' || c == '\U{C}'
    || c == '\U{A0}' || c == '\U{1680}' || ('\U{2000}' <= c <= '\U{200A}')
    || c == '\U{2028}' || c == '\U{2029}' || c == '\U{202F}' || c == '\U{205F}'
    || c == '\U{3000}' || c == '\U{FEFF}'
  }

  // ---- rendering ------------------------------------------------------------

  function DigitChar(d: nat): (c: char)
    requires d < 10
    ensures IsDigit(c) && DigitValue(c) == d
  {
    ('0' as int + d) as char
  }

  /** The value of a decimal digit character. */
  function DigitValue(c: char): (r: int)
    ensures IsDigit(c) ==> 0 <= r <= 9
  {
    c as int - '0' as int
  }

  /** The decimal text of a count, as a template literal renders it. */
  function NatToString(n: nat): (r: string)
    ensures |r| >= 1
    ensures forall i :: 0 <= i < |r| ==> IsDigit(r[i])
  {
    if n < 10 then [DigitChar(n)] else NatToString(n / 10) + [DigitChar(n % 10)]
  }

  predicate AllDigits(s: string) {
    forall i :: 0 <= i < |s| ==> IsDigit(s[i])
  }

  /** The number a string of decimal digits denotes. */
  function DecimalValue(s: string): nat
    requires AllDigits(s)
  {
    if s == [] then 0 else DecimalValue(s[..|s| - 1]) * 10 + DigitValue(s[|s| - 1])
  }

  /** The rendered count reads back as the count. */
  lemma {:induction false} NatToStringRoundTrip(n: nat)
    ensures DecimalValue(NatToString(n)) == n
  {
    var s := NatToString(n);
    if n >= 10 {
      NatToStringRoundTrip(n / 10);
      assert s[..|s| - 1] == NatToString(n / 10);
    }
  }

  /** `Array.prototype.join(sep)`. */
  function Join(parts: seq<string>, sep: string): string {
    if parts == [] then ""
    else if |parts| == 1 then parts[0]
    else parts[0] + sep + Join(parts[1..], sep)
  }

  // ---- lists ----------------------------------------------------------------

  /** `filter((value, index, self) => self.indexOf(value) === index)`: each
      value at its first occurrence only. */
  function Dedupe<T(==,!new)>(xs: seq<T>): (r: seq<T>)
    ensures forall x :: x in r <==> x in xs
    ensures forall i, j :: 0 <= i < j < |r| ==> r[i] != r[j]
  {
    if xs == [] then []
    else
      var n := |xs| - 1;
      var prev := Dedupe(xs[..n]);
      assert forall x :: x in xs <==> x in xs[..n] || x == xs[n];
      if xs[n] in xs[..n] then prev else prev + [xs[n]]
  }

  /** A non-empty list of one repeated value reduces to that value alone. */
  lemma {:induction false} DedupeConstant<T(!new)>(xs: seq<T>, c: T)
    requires |xs| > 0 && forall i :: 0 <= i < |xs| ==> xs[i] == c
    ensures Dedupe(xs) == [c]
  {
    var n := |xs| - 1;
    if n > 0 {
      DedupeConstant(xs[..n], c);
      assert xs[n] == xs[..n][0];
    }
  }

  /** A list that reduces to one value holds nothing else. */
  lemma DedupeSingleton<T(!new)>(xs: seq<T>)
    requires |Dedupe(xs)| == 1
    ensures |xs| > 0 && forall i :: 0 <= i < |xs| ==> xs[i] == Dedupe(xs)[0]
  {
    var r := Dedupe(xs);
    assert r[0] in xs;
    forall i | 0 <= i < |xs| ensures xs[i] == r[0] {
      assert xs[i] in r;
    }
  }

  /** `xs.indexOf(x)`: the first index holding `x`, -1 when there is none. */
  function FirstIndexOf<T(==)>(xs: seq<T>, x: T): (r: int)
    ensures -1 <= r < |xs|
    ensures r == -1 <==> x !in xs
    ensures r >= 0 ==> xs[r] == x && x !in xs[..r]
  {
    if xs == [] then -1
    else if xs[0] == x then 0
    else
      var k := FirstIndexOf(xs[1..], x);
      assert forall i :: 0 <= i < |xs| - 1 ==> xs[1..][i] == xs[i + 1];
      if k == -1 then -1
      else
        assert xs[..k + 1] == [xs[0]] + xs[1..][..k];
        k + 1
  }

  /** Any index holding `x` with no `x` before it is `indexOf`'s answer. */
  lemma IndexOfFirst<T>(xs: seq<T>, x: T, k: nat)
    requires k < |xs| && xs[k] == x && x !in xs[..k]
    ensures FirstIndexOf(xs, x) == k
  {
    assert xs[k] in xs;
  }

  /** A value at position `k < p` has the same `indexOf` in the first `p`
      positions as in the whole list. */
  lemma IndexOfPrefix<T>(xs: seq<T>, p: nat, k: nat)
    requires k < p <= |xs|
    ensures FirstIndexOf(xs, xs[k]) == FirstIndexOf(xs[..p], xs[k])
  {
    var v := xs[k];
    assert v in xs;
    var r := FirstIndexOf(xs, v);
    assert r <= k;
    assert xs[..p][r] == v && xs[..p][..r] == xs[..r];
    IndexOfFirst(xs[..p], v, r);
  }

  /** The source's filter on the first `m` positions: position `k` is kept
      when `indexOf(xs[k])` is `k`. */
  function KeepFirst<T(==)>(xs: seq<T>, m: nat): seq<T>
    requires m <= |xs|
  {
    if m == 0 then []
    else KeepFirst(xs, m - 1) + (if FirstIndexOf(xs, xs[m - 1]) == m - 1 then [xs[m - 1]] else [])
  }

  /** The filter's verdict on a position does not depend on what follows. */
  lemma {:induction false} KeepFirstPrefix<T>(xs: seq<T>, p: nat, m: nat)
    requires m <= p <= |xs|
    ensures KeepFirst(xs, m) == KeepFirst(xs[..p], m)
  {
    if m > 0 {
      KeepFirstPrefix(xs, p, m - 1);
      IndexOfPrefix(xs, p, m - 1);
    }
  }

  /** `Dedupe` is the `filter((value, index, self) => self.indexOf(value) ===
      index)` of the source, position by position: each value is kept at
      its first occurrence, in the order of those first occurrences. */
  lemma {:induction false} DedupeIsIndexOfFilter<T(!new)>(xs: seq<T>)
    ensures Dedupe(xs) == KeepFirst(xs, |xs|)
  {
    if xs != [] {
      var n := |xs| - 1;
      DedupeIsIndexOfFilter(xs[..n]);
      KeepFirstPrefix(xs, n, n);
      assert xs[..n][..n] == xs[..n];
      assert xs[n] in xs;
      if xs[n] !in xs[..n] {
        IndexOfFirst(xs, xs[n], n);
      }
    }
  }

  // ---- time -----------------------------------------------------------------

  /** Milliseconds in one day. Local time is taken to have no daylight-saving
      jumps, so `addDays` adds whole days of milliseconds. */
  const DayMs: int := 86400000

  /** `addDays(t, days)`. */
  function AddDays(t: int, days: int): int {
    t + days * DayMs
  }

  /** `startOfDay(t)`: midnight at or before `t`. */
  function StartOfDay(t: int): (r: int)
    ensures r <= t < r + DayMs
    ensures r % DayMs == 0
  {
    t - t % DayMs
  }
}

=== FILE: save_payout_modal.dfy ===
/** The payout form: its field validators, the `handleValidation` pass that
    decides whether a payout may be created, and the handlers that keep the
    form fields and their messages.
    Source: packages/components/src/components/ui/organisms/SavePayoutModal/SavePayoutModal.tsx */
module SavePayout {
  import opened Prelude
  import opened PayrunState
  import opened Validation

  // ---- the account currencies (SavePayoutModal.tsx:96-103) -----------------

  function AccountCurrencies(accounts: seq<Account>): (r: seq<string>)
    ensures |r| == |accounts|
    ensures forall i :: 0 <= i < |accounts| ==> r[i] == accounts[i].currency
  {
    if accounts == [] then [] else [accounts[0].currency] + AccountCurrencies(accounts[1..])
  }

    /** `singleCurrency`: the currency shared by every account, when there is
      at least one account and they all have the same currency. */
  function SingleCurrency(accounts: seq<Account>): (r: Option<string>)
    ensures r.Some? <==> |accounts| > 0 && forall i :: 0 <= i < |accounts| ==> accounts[i].currency == accounts[0].currency
    ensures r.Some? ==> r.value == accounts[0].currency
  {
    var currencies := AccountCurrencies(accounts);
    var cs := Dedupe(currencies);
    SameCurrencyDedupe(accounts);
    if |cs| == 1 then
      DedupeSingleton(currencies);
      Some(cs[0])
    else None
  }

  /** Accounts that all share one currency have one distinct currency. */
  lemma SameCurrencyDedupe(accounts: seq<Account>)
    ensures |accounts| > 0 && (forall i :: 0 <= i < |accounts| ==> accounts[i].currency == accounts[0].currency)
      ==> |Dedupe(AccountCurrencies(accounts))| == 1
  {
    var cs := Dedupe(AccountCurrencies(accounts));
    if |accounts| > 0 && forall i :: 0 <= i < |accounts| ==> accounts[i].currency == accounts[0].currency {
      DedupeConstant(AccountCurrencies(accounts), accounts[0].currency);
    }
  }

  /** `accounts.filter((x) => x.currency === currency)[0]`; an undefined
      currency matches no account. */
  function FirstWithCurrency(accounts: seq<Account>, currency: Option<string>): (r: Option<Account>)
    ensures r.Some? <==> currency.Some? && exists i :: 0 <= i < |accounts| && accounts[i].currency == currency.value
    ensures r.Some? ==> r.value in accounts && r.value.currency == currency.value
  {
    if accounts == [] || currency.None? then None
    else if accounts[0].currency == currency.value then Some(accounts[0])
    else
      var r := FirstWithCurrency(accounts[1..], currency);
      assert forall i :: 1 <= i < |accounts| ==> accounts[i] == accounts[1..][i - 1];
      r
  }

  /** `accounts.find((account) => account.id === id)` */
  function FindAccountById(accounts: seq<Account>, id: string): (r: Option<Account>)
    ensures r.Some? <==> exists i :: 0 <= i < |accounts| && accounts[i].id == id
    ensures r.Some? ==> r.value in accounts && r.value.id == id
  {
    if accounts == [] then None
    else if accounts[0].id == id then Some(accounts[0])
    else
      var r := FindAccountById(accounts[1..], id);
      assert forall i :: 1 <= i < |accounts| ==> accounts[i] == accounts[1..][i - 1];
      r
  }

  // ---- the destination account name (SavePayoutModal.tsx:321-328) ----------

  /** `['\.\-\/&\s]` */
  predicate IsNamePunct(c: char) {
    c == '\'' || c == '.' || c == '-' || c == '/' || c == '&' || IsSpace(c)
  }

  /** `^['\.\-\/&\s]*?\w+['\.\-\/&\s\w]*$`: punctuation, then a run of word
      characters ending at `j`, then punctuation and word characters. */
  predicate AccountNamePattern(s: string) {
    exists i, j :: 0 <= i < j <= |s| && AccountNameSplit(s, i, j)
  }

  predicate AccountNameSplit(s: string, i: int, j: int)
    requires 0 <= i < j <= |s|
  {
    && (forall k :: 0 <= k < i ==> IsNamePunct(s[k]))
    && (forall k :: i <= k < j ==> IsWordChar(s[k]))
    && (forall k :: j <= k < |s| ==> IsNamePunct(s[k]) || IsWordChar(s[k]))
  }

  /** The pattern holds exactly when every character is punctuation or a word
      character and at least one is a word character. */
  lemma AccountNamePatternIff(s: string)
    ensures AccountNamePattern(s) <==>
      (forall k :: 0 <= k < |s| ==> IsNamePunct(s[k]) || IsWordChar(s[k]))
      && (exists k :: 0 <= k < |s| && IsWordChar(s[k]))
  {
    if (forall k :: 0 <= k < |s| ==> IsNamePunct(s[k]) || IsWordChar(s[k]))
      && (exists k :: 0 <= k < |s| && IsWordChar(s[k]))
    {
      var i := FirstWordChar(s);
      assert AccountNameSplit(s, i, i + 1);
    }
    if AccountNamePattern(s) {
      var i, j :| 0 <= i < j <= |s| && AccountNameSplit(s, i, j);
      assert IsWordChar(s[i]);
    }
  }

  /** The position of the first word character. */
  function FirstWordChar(s: string): (i: nat)
    requires exists k :: 0 <= k < |s| && IsWordChar(s[k])
    ensures i < |s| && IsWordChar(s[i])
    ensures forall k :: 0 <= k < i ==> !IsWordChar(s[k])
  {
    if IsWordChar(s[0]) then 0
    else
      assert exists k :: 0 <= k < |s[1..]| && IsWordChar(s[1..][k]) by {
        var k :| 0 <= k < |s| && IsWordChar(s[k]);
        assert s[1..][k - 1] == s[k];
      }
      1 + FirstWordChar(s[1..])
  }

  const AccountNameInvalidText := "The account name is not valid"

  /** `onValidateDestinationAccountName` */
  function AccountNameMessage(name: string): (r: Option<string>)
    ensures r.Some? ==> r.value == AccountNameInvalidText
    ensures r.None? <==> name == [] || AccountNamePattern(name)
  {
    if |name| > 0 && !AccountNamePattern(name) then Some(AccountNameInvalidText) else None
  }

  // ---- the IBAN field (SavePayoutModal.tsx:330-362) --------------------------

  const IbanMessageText := "The IBAN is not valid. Please check for incorrectly entered characters."

  /** `onValidateDestinationAccountIBAN`: the same shape test, expansion and
      checksum loops as `validateIBAN`, answering with a message. */
  method IbanMessage(iban: string) returns (r: Option<string>)
    ensures r.None? <==> IsoIbanValid(iban)
    ensures r.Some? ==> r.value == IbanMessageText
  {
    var ok := ValidateIban(iban);
    r := if ok then None else Some(IbanMessageText);
  }

  // ---- their reference (SavePayoutModal.tsx:126, 364-381) --------------------

  /** `[\\.\-/&\s]`: the characters a reference may hold besides letters and digits. */
  predicate IsReferencePunct(c: char) {
    c == '\\' || c == '.' || c == '-' || c == '/' || c == '&' || IsSpace(c)
  }

  /** `replace(/[\\.\-/&\s]/g, '')` */
  function StripPunct(s: string): (r: string)
    ensures |r| <= |s|
    ensures forall i :: 0 <= i < |r| ==> !IsReferencePunct(r[i])
  {
    if s == [] then []
    else
      var rest := StripPunct(s[1..]);
      if IsReferencePunct(s[0]) then rest else [s[0]] + rest
  }

  /** Stripping removes exactly the punctuation: what is left of a string is
      the string with those characters taken out, in order. */
  lemma {:induction false} StripPunctCount(s: string)
    ensures |StripPunct(s)| == |s| - CountPunct(s)
  {
    if s != [] {
      StripPunctCount(s[1..]);
    }
  }

  function CountPunct(s: string): (n: nat)
    ensures n <= |s|
  {
    if s == [] then 0 else (if IsReferencePunct(s[0]) then 1 else 0) + CountPunct(s[1..])
  }

  /** `^([^\W_]|[\\.\-/&\s]){6,}$` */
  predicate ReferencePattern(s: string) {
    |s| >= 6 && forall i :: 0 <= i < |s| ==> IsAlnum(s[i]) || IsReferencePunct(s[i])
  }

  /** `theirReferenceMaxLength`: 139 for euro payouts, 17 otherwise. */
  function TheirReferenceMaxLength(currency: Option<string>): (n: nat)
    ensures currency == Some("EUR") ==> n == 139
    ensures currency != Some("EUR") ==> n == 17
  {
    if currency == Some("EUR") then 139 else 17
  }

  const ReferenceTooLongText := "Their reference is too long"
  const ReferenceTooShortText := "Reference must contain atleast 6 alphanumeric characters"
  const ReferenceCharactersText :=
    "Reference must contain only alphanumeric, space, hyphen(-), full stop (.), ampersand (&), and forward slash (/)."

  /** `onValidateTheirReference` */
  function TheirReferenceMessage(s: string, maxLength: nat): (r: Option<string>)
    ensures |s| > maxLength ==> r == Some(ReferenceTooLongText)
  {
    if |s| > maxLength then Some(ReferenceTooLongText)
    else if |StripPunct(s)| < 6 then Some(ReferenceTooShortText)
    else if |s| > 0 && !ReferencePattern(s) then Some(ReferenceCharactersText)
    else None
  }

  /** A reference is accepted exactly when it fits the length limit, keeps six
      characters once punctuation is stripped, and holds nothing but letters,
      digits and that punctuation; what is left after stripping is then six
      or more letters and digits. */
  lemma TheirReferenceAccepted(s: string, maxLength: nat)
    ensures TheirReferenceMessage(s, maxLength).None? <==>
      |s| <= maxLength && |s| - CountPunct(s) >= 6
      && forall i :: 0 <= i < |s| ==> IsAlnum(s[i]) || IsReferencePunct(s[i])
    ensures TheirReferenceMessage(s, maxLength).None? ==>
      |StripPunct(s)| >= 6 && forall i :: 0 <= i < |StripPunct(s)| ==> IsAlnum(StripPunct(s)[i])
  {
    StripPunctCount(s);
    var message := TheirReferenceMessage(s, maxLength);
    if |s| > maxLength {
      assert message.Some?;
    } else if |StripPunct(s)| < 6 {
      assert message.Some? && |s| - CountPunct(s) < 6;
    } else if !ReferencePattern(s) {
      assert message.Some? && |s| >= 6;
      assert !forall i :: 0 <= i < |s| ==> IsAlnum(s[i]) || IsReferencePunct(s[i]);
    } else {
      assert message.None?;
      StrippedAlnum(s);
    }
  }

  /** A string of letters, digits and reference punctuation is letters and
      digits alone once stripped. */
  lemma {:induction false} StrippedAlnum(s: string)
    requires forall i :: 0 <= i < |s| ==> IsAlnum(s[i]) || IsReferencePunct(s[i])
    ensures forall i :: 0 <= i < |StripPunct(s)| ==> IsAlnum(StripPunct(s)[i])
  {
    if s != [] {
      assert forall i :: 0 <= i < |s| - 1 ==> s[1..][i] == s[i + 1];
      StrippedAlnum(s[1..]);
    }
  }

  /** Letters and digits are not punctuation. */
  lemma AlnumNotPunct(c: char)
    requires IsAlnum(c)
    ensures !IsReferencePunct(c)
  {
  }

  /** Six to `maxLength` letters and digits make an accepted reference. */
  lemma {:induction false} AlnumReferenceAccepted(s: string, maxLength: nat)
    requires 6 <= |s| <= maxLength
    requires forall i :: 0 <= i < |s| ==> IsAlnum(s[i])
    ensures TheirReferenceMessage(s, maxLength).None?
  {
    NoPunctCount(s);
    TheirReferenceAccepted(s, maxLength);
  }

  lemma {:induction false} NoPunctCount(s: string)
    requires forall i :: 0 <= i < |s| ==> IsAlnum(s[i])
    ensures CountPunct(s) == 0
  {
    if s != [] {
      AlnumNotPunct(s[0]);
      NoPunctCount(s[1..]);
    }
  }

  // ---- your reference (SavePayoutModal.tsx:383-389) ---------------------------

  /** `^[\w\-\s]*$` */
  predicate YourReferencePattern(s: string) {
    forall i :: 0 <= i < |s| ==> IsWordChar(s[i]) || s[i] == '-' || IsSpace(s[i])
  }

  const YourReferenceInvalidText := "Your reference must contain only alphanumeric, space, and hyphen(-)."

  /** `onValidateYourReference` */
  function YourReferenceMessage(s: string): (r: Option<string>)
    ensures r.None? <==> YourReferencePattern(s)
    ensures r.Some? ==> r.value == YourReferenceInvalidText
  {
    if |s| > 0 && !YourReferencePattern(s) then
      Some(YourReferenceInvalidText)
    else None
  }

  // ---- the amount (SavePayoutModal.tsx:139-145, 177-184) ----------------------

  /** The text of the amount field and the number `Number` makes of it. */
  datatype AmountText = AmountText(text: string, value: JsNum)

  /** `Number(payoutAmount)`: NaN for `undefined`, 0 for the empty string. */
  function AmountNumber(a: Option<AmountText>): (r: JsNum)
    ensures a.None? ==> r.NaN?
    ensures a.Some? && a.value.text == "" ==> r == Num(0)
  {
    match a
    case None => NaN
    case Some(t) => if t.text == "" then Num(0) else t.value
  }

  const AmountNegativeText := "The amount must be greater than 0."
  const AmountZeroText := "The amount can't be 0."

  /** The amount messages of `handleValidation`. */
  function AmountMessage(v: JsNum): (r: Option<string>)
    ensures r.None? <==> v.NaN? || v.n > 0
    ensures v.Num? && v.n < 0 ==> r == Some(AmountNegativeText)
    ensures v == Num(0) ==> r == Some(AmountZeroText)
  {
    if NumLess(v, Num(0)) then Some(AmountNegativeText)
    else if NumEquals(v, Num(0)) then Some(AmountZeroText)
    else None
  }

  const BalanceLessThanAmountMessage := "This account doesn't have enough funds for this transaction"

  /** The balance test of `validateAmount` and `handleValidation`. */
  predicate ShortOfFunds(account: Option<Account>, amount: JsNum) {
    account.Some? && NumLess(Num(account.value.availableBalance), amount)
  }

  // ---- the schedule date (SavePayoutModal.tsx:391-406) -----------------------

  /** The two rejections of `onValidateDate`: with "choose-date", no date, or
      a date whose day is before tomorrow or after the day sixty-one days on. */
  predicate DateRejected(chooseDate: bool, date: Option<int>, now: int) {
    || (chooseDate && date.None?)
    || (chooseDate && date.Some?
        && (StartOfDay(date.value) < StartOfDay(AddDays(now, 1))
            || StartOfDay(date.value) > StartOfDay(AddDays(now, 61))))
  }

  const InvalidScheduleDateText := "Invalid schedule date."

  /** `onValidateDate`; the formatted latest date of the message is the
      parameter `maxDateText`. */
  function DateMessage(chooseDate: bool, date: Option<int>, now: int, maxDateText: string): (r: Option<string>)
    ensures r.None? <==> !DateRejected(chooseDate, date, now)
    ensures !chooseDate ==> r.None?
    ensures chooseDate && date.None? ==> r == Some(InvalidScheduleDateText)
  {
    if chooseDate && date.None? then Some(InvalidScheduleDateText)
    else if DateRejected(chooseDate, date, now) then
      Some("The payment date should be between tomorrow and " + maxDateText)
    else None
  }

  /** Moving by whole days moves the start of the day by the same amount. */
  lemma StartOfDayShift(t: int, days: int)
    ensures StartOfDay(AddDays(t, days)) == StartOfDay(t) + days * DayMs
  {
    var s := StartOfDay(t);
    var u := AddDays(t, days);
    assert u == s + days * DayMs + (t - s);
    assert 0 <= t - s < DayMs;
    assert (s + days * DayMs) % DayMs == 0 by {
      assert s + days * DayMs == (s / DayMs + days) * DayMs;
    }
    assert u % DayMs == t - s by {
      assert u == (s / DayMs + days) * DayMs + (t - s);
    }
  }

  /** A chosen date is accepted exactly when it falls on one of the sixty-one
      days that start tomorrow. */
  lemma DateAcceptedIff(date: int, now: int)
    ensures !DateRejected(true, Some(date), now) <==>
      StartOfDay(now) + DayMs <= date < StartOfDay(now) + 62 * DayMs
  {
    StartOfDayShift(now, 1);
    StartOfDayShift(now, 61);
    var s := StartOfDay(now);
    var d := StartOfDay(date);
    assert d % DayMs == 0 && s % DayMs == 0;
    if s + DayMs <= date < s + 62 * DayMs {
      assert d <= date < d + DayMs;
      DayBoundary(d, s + DayMs);
      DayBoundary(s + 61 * DayMs, d);
    }
  }

  /** Between two midnights there is no midnight gap smaller than a day. */
  lemma DayBoundary(a: int, b: int)
    requires a % DayMs == 0 && b % DayMs == 0
    requires b < a + DayMs
    ensures b <= a
  {
    assert a == (a / DayMs) * DayMs && b == (b / DayMs) * DayMs;
    assert b / DayMs < a / DayMs + 1 by {
      assert (b / DayMs) * DayMs < (a / DayMs + 1) * DayMs;
    }
  }

  // ---- the form (SavePayoutModal.tsx:52-124, 162-245) ------------------------

  datatype IdentifierType = IBAN | SCAN

  /** A destination account identifier. */
  datatype Identifier = Identifier(kind: IdentifierType, iban: string, accountNumber: string, sortCode: string, currency: string)

  datatype Beneficiary = Beneficiary(id: string, name: string, currency: string, identifier: Option<Identifier>)

  datatype Counterparty = Counterparty(name: string, identifier: Identifier)

  /** The arguments of one call of `onCreatePayout`. */
  datatype PayoutCall = PayoutCall(
    source: Account,
    counterparty: Counterparty,
    amount: JsNum,
    theirReference: Option<string>,
    yourReference: Option<string>,
    description: Option<string>,
    createAndApprove: bool,
    scheduled: bool,
    scheduleDate: Option<int>)

  /** The payout being edited, known by its source account. */
  datatype EditedPayout = EditedPayout(accountID: string)

  /** The values the user fills in; `undefined` text fields are `None`. */
  datatype PayoutForm = PayoutForm(
    currency: Option<string>,
    payoutAmount: Option<AmountText>,
    theirReference: Option<string>,
    yourReference: Option<string>,
    description: Option<string>,
    destinationAccountName: Option<string>,
    destinationAccountIban: Option<string>,
    destinationAccountNumber: Option<string>,
    destinationAccountSortCode: Option<string>,
    addManuallySelected: bool,
    selectedBeneficiary: Option<Beneficiary>,
    selectedAccount: Option<Account>,
    chooseDate: bool,
    scheduleDate: Option<int>)

  /** Beneficiaries exist but none is chosen, "add manually" is off and no
      payout is being edited. */
  predicate DestinationMissing(f: PayoutForm, hasBeneficiaries: bool, editing: bool) {
    hasBeneficiaries && f.selectedBeneficiary.None? && !f.addManuallySelected && !editing
  }

  /** The required fields: a destination, an amount, a source account and
      their reference. */
  predicate RequiredFilled(f: PayoutForm) {
    && (StrTruthy(f.destinationAccountIban)
        || (StrTruthy(f.destinationAccountNumber) && StrTruthy(f.destinationAccountSortCode)))
    && f.payoutAmount.Some? && f.payoutAmount.value.text != ""
    && f.selectedAccount.Some?
    && StrTruthy(f.theirReference)
  }

  predicate BeneficiaryMismatch(f: PayoutForm) {
    f.selectedBeneficiary.Some? && Some(f.selectedBeneficiary.value.currency) != f.currency
  }

  /** `handleValidation` fails when any one of its tests fails, in this order. */
  predicate ValidationFails(f: PayoutForm, hasBeneficiaries: bool, editing: bool, now: int) {
    || DestinationMissing(f, hasBeneficiaries, editing)
    || AmountMessage(AmountNumber(f.payoutAmount)).Some?
    || !RequiredFilled(f)
    || AccountNameMessage(f.destinationAccountName.GetOr("")).Some?
    || (f.currency == Some("EUR") && !IsoIbanValid(f.destinationAccountIban.GetOr("")))
    || TheirReferenceMessage(f.theirReference.GetOr(""), TheirReferenceMaxLength(f.currency)).Some?
    || YourReferenceMessage(f.yourReference.GetOr("")).Some?
    || BeneficiaryMismatch(f)
    || ShortOfFunds(f.selectedAccount, AmountNumber(f.payoutAmount))
    || DateRejected(f.chooseDate, f.scheduleDate, now)
  }

  /** A form that may be sent, stated condition by condition on the
      characters, numbers and days themselves. */
  predicate Acceptable(f: PayoutForm, hasBeneficiaries: bool, editing: bool, now: int) {
    var amount := AmountNumber(f.payoutAmount);
    var name := f.destinationAccountName.GetOr("");
    var theirs := f.theirReference.GetOr("");
    && (!hasBeneficiaries || f.selectedBeneficiary.Some? || f.addManuallySelected || editing)
    && (amount.NaN? || amount.n > 0)
    && RequiredFilled(f)
    && (forall k :: 0 <= k < |name| ==> IsNamePunct(name[k]) || IsWordChar(name[k]))
    && (name != [] ==> exists k :: 0 <= k < |name| && IsWordChar(name[k]))
    && (f.currency == Some("EUR") ==> IsoIbanValid(f.destinationAccountIban.GetOr("")))
    && |theirs| <= TheirReferenceMaxLength(f.currency)
    && |theirs| - CountPunct(theirs) >= 6
    && (forall k :: 0 <= k < |theirs| ==> IsAlnum(theirs[k]) || IsReferencePunct(theirs[k]))
    && YourReferencePattern(f.yourReference.GetOr(""))
    && (f.selectedBeneficiary.Some? ==> f.currency == Some(f.selectedBeneficiary.value.currency))
    && (amount.Num? ==> amount.n <= f.selectedAccount.value.availableBalance)
    && (f.chooseDate ==>
          f.scheduleDate.Some? && StartOfDay(now) + DayMs <= f.scheduleDate.value < StartOfDay(now) + 62 * DayMs)
  }

  /** Validation passes exactly when the form is acceptable. */
  lemma ValidationPassesIff(f: PayoutForm, hasBeneficiaries: bool, editing: bool, now: int)
    ensures !ValidationFails(f, hasBeneficiaries, editing, now) <==> Acceptable(f, hasBeneficiaries, editing, now)
  {
    AccountNamePatternIff(f.destinationAccountName.GetOr(""));
    TheirReferenceAccepted(f.theirReference.GetOr(""), TheirReferenceMaxLength(f.currency));
    if f.chooseDate && f.scheduleDate.Some? {
      DateAcceptedIff(f.scheduleDate.value, now);
    }
  }

  /** A form whose amount text is not a number and whose other fields pass. */
  function NaNAmountForm(): (f: PayoutForm)
    ensures AmountNumber(f.payoutAmount).NaN?
  {
    PayoutForm(
      Some("GBP"), Some(AmountText("ten", NaN)), Some("ABCDEF"), None, None, None,
      None, Some("12345678"), Some("102030"), true, None, Some(Account("a", "GBP", 0, false)),
      false, None)
  }

  lemma NaNAmountFormPasses(now: int)
    ensures !ValidationFails(NaNAmountForm(), false, false, now)
  {
    var f := NaNAmountForm();
    assert !DestinationMissing(f, false, false);
    assert AmountMessage(AmountNumber(f.payoutAmount)).None?;
    assert RequiredFilled(f);
    assert AccountNameMessage(f.destinationAccountName.GetOr("")).None?;
    assert TheirReferenceMessage(f.theirReference.GetOr(""), TheirReferenceMaxLength(f.currency)).None? by {
      assert f.theirReference.GetOr("") == "ABCDEF" && TheirReferenceMaxLength(f.currency) == 17;
      assert forall i :: 0 <= i < 6 ==> IsUpper("ABCDEF"[i]);
      AlnumReferenceAccepted("ABCDEF", 17);
    }
    assert YourReferenceMessage(f.yourReference.GetOr("")).None? by {
      assert f.yourReference.GetOr("") == "";
    }
    assert !BeneficiaryMismatch(f);
    assert !ShortOfFunds(f.selectedAccount, AmountNumber(f.payoutAmount));
    assert !DateRejected(f.chooseDate, f.scheduleDate, now);
  }

  /** The amount test compares `Number(payoutAmount)` with 0 only, so an
      amount text that is not a number passes it and every other check. */
  lemma NaNAmountPasses(now: int)
    ensures exists f: PayoutForm :: AmountNumber(f.payoutAmount).NaN? && !ValidationFails(f, false, false, now)
  {
    NaNAmountFormPasses(now);
    var f := NaNAmountForm();
    assert AmountNumber(f.payoutAmount).NaN? && !ValidationFails(f, false, false, now);
  }

  /** The middle checks of `handleValidation`, which only read the form: the
      account name, the IBAN of a euro payout, both references, the
      beneficiary's currency and the balance. */
  method CheckValues(f: PayoutForm) returns (failed: bool)
    ensures failed <==>
      || AccountNameMessage(f.destinationAccountName.GetOr("")).Some?
      || (f.currency == Some("EUR") && !IsoIbanValid(f.destinationAccountIban.GetOr("")))
      || TheirReferenceMessage(f.theirReference.GetOr(""), TheirReferenceMaxLength(f.currency)).Some?
      || YourReferenceMessage(f.yourReference.GetOr("")).Some?
      || BeneficiaryMismatch(f)
      || ShortOfFunds(f.selectedAccount, AmountNumber(f.payoutAmount))
  {
    failed := false;
    if AccountNameMessage(f.destinationAccountName.GetOr("")).Some? {
      failed := true;
    }
    if f.currency == Some("EUR") {
      var ibanMessage := IbanMessage(f.destinationAccountIban.GetOr(""));
      if ibanMessage.Some? {
        failed := true;
      }
    }
    if TheirReferenceMessage(f.theirReference.GetOr(""), TheirReferenceMaxLength(f.currency)).Some? {
      failed := true;
    }
    if YourReferenceMessage(f.yourReference.GetOr("")).Some? {
      failed := true;
    }
    if f.selectedBeneficiary.Some? && Some(f.selectedBeneficiary.value.currency) != f.currency {
      failed := true;
    }
    if f.selectedAccount.Some? && NumLess(Num(f.selectedAccount.value.availableBalance), AmountNumber(f.payoutAmount)) {
      failed := true;
    }
  }

  /** `formError` when a required field is empty. */
  const RequiredFieldsText := "Please fill all required fields"

  class SavePayoutModal {
    const accounts: seq<Account>
    const beneficiaries: seq<Beneficiary>
    const selectedPayout: Option<EditedPayout>
    var form: PayoutForm
    var amountValidationErrorMessage: Option<string>
    var accountValidationErrorMessage: Option<string>
    var dateValidationErrorMessage: Option<string>
    var formError: Option<string>
    var destinationAccountRequiredPrompt: bool
    var createPayoutClicked: bool
    var isCreatePayoutButtonDisabled: bool
    var isCreateAndApproveButtonDisabled: bool
    /** The calls made to `onCreatePayout`, oldest first. */
    var calls: seq<PayoutCall>

    /** The initial state of every field: empty texts, "immediately", a
        schedule date of tomorrow, the single currency and its first account. */
    constructor(accounts: seq<Account>, beneficiaries: seq<Beneficiary>, selectedPayout: Option<EditedPayout>, now: int)
      ensures this.accounts == accounts && this.beneficiaries == beneficiaries && this.selectedPayout == selectedPayout
      ensures form.currency == SingleCurrency(accounts)
      ensures form.selectedAccount == FirstWithCurrency(accounts, SingleCurrency(accounts))
      ensures form.payoutAmount == Some(AmountText("", Num(0))) && form.theirReference == Some("")
      ensures !form.chooseDate && form.scheduleDate == Some(AddDays(now, 1))
      ensures calls == [] && formError.None? && !createPayoutClicked
    {
      var currency := SingleCurrency(accounts);
      this.accounts := accounts;
      this.beneficiaries := beneficiaries;
      this.selectedPayout := selectedPayout;
      form := PayoutForm(
        currency, Some(AmountText("", Num(0))), Some(""), Some(""), Some(""), Some(""),
        Some(""), Some(""), Some(""), false, None, FirstWithCurrency(accounts, currency),
        false, Some(AddDays(now, 1)));
      amountValidationErrorMessage := None;
      accountValidationErrorMessage := None;
      dateValidationErrorMessage := None;
      formError := None;
      destinationAccountRequiredPrompt := false;
      createPayoutClicked := false;
      isCreatePayoutButtonDisabled := false;
      isCreateAndApproveButtonDisabled := false;
      calls := [];
    }

    /** `getAccountFromCurrencyOrExistingPayout` */
    function AccountFromCurrencyOrExistingPayout(): (r: Option<Account>)
      reads this
      ensures r.Some? ==> r.value in accounts
      ensures selectedPayout.Some? && r.Some? ==> r.value.id == selectedPayout.value.accountID
      ensures selectedPayout.None? && r.Some? ==> Some(r.value.currency) == form.currency
    {
      match selectedPayout
      case Some(p) => FindAccountById(accounts, p.accountID)
      case None => FirstWithCurrency(accounts, form.currency)
    }

    /** `validateAmount` */
    method ValidateAmount(amount: AmountText, account: Option<Account>)
      modifies this`accountValidationErrorMessage
      ensures accountValidationErrorMessage ==
        if ShortOfFunds(account, AmountNumber(Some(amount))) then Some(BalanceLessThanAmountMessage) else None
    {
      if account.Some? && NumLess(Num(account.value.availableBalance), AmountNumber(Some(amount))) {
        accountValidationErrorMessage := Some(BalanceLessThanAmountMessage);
      } else {
        accountValidationErrorMessage := None;
      }
    }

    /** `handleAmountOnChange` */
    method HandleAmountOnChange(value: AmountText)
      modifies this`form, this`accountValidationErrorMessage
      ensures form == old(form).(payoutAmount := Some(value))
      ensures form.selectedAccount.Some? ==>
        accountValidationErrorMessage ==
          if ShortOfFunds(form.selectedAccount, AmountNumber(form.payoutAmount)) then Some(BalanceLessThanAmountMessage) else None
      ensures form.selectedAccount.None? ==> accountValidationErrorMessage == old(accountValidationErrorMessage)
      ensures calls == old(calls) && formError == old(formError)
    {
      form := form.(payoutAmount := Some(value));
      if form.selectedAccount.Some? {
        ValidateAmount(value, form.selectedAccount);
      }
    }

    /** `handleAccountOnChange`: the account with the chosen id, or the
        default one; the balance message only for an account that was found. */
    method HandleAccountOnChange(id: string)
      modifies this`form, this`accountValidationErrorMessage
      ensures var found := FindAccountById(accounts, id);
        && form == old(form).(selectedAccount := if found.Some? then found else old(AccountFromCurrencyOrExistingPayout()))
        && accountValidationErrorMessage ==
             if ShortOfFunds(found, AmountNumber(form.payoutAmount)) then Some(BalanceLessThanAmountMessage) else None
      ensures calls == old(calls) && formError == old(formError)
    {
      accountValidationErrorMessage := None;
      var account := FindAccountById(accounts, id);
      form := form.(selectedAccount := if account.Some? then account else AccountFromCurrencyOrExistingPayout());
      if account.Some? && NumLess(Num(account.value.availableBalance), AmountNumber(form.payoutAmount)) {
        accountValidationErrorMessage := Some(BalanceLessThanAmountMessage);
      }
    }

    /** The first steps of `handleValidation`: the destination prompt, the
        amount message and the required-fields error. */
    method CheckRequired() returns (failed: bool)
      modifies this`amountValidationErrorMessage, this`destinationAccountRequiredPrompt, this`formError
      ensures failed <==>
        DestinationMissing(form, |beneficiaries| > 0, selectedPayout.Some?)
        || AmountMessage(AmountNumber(form.payoutAmount)).Some? || !RequiredFilled(form)
      ensures amountValidationErrorMessage == AmountMessage(AmountNumber(form.payoutAmount))
      ensures destinationAccountRequiredPrompt == DestinationMissing(form, |beneficiaries| > 0, selectedPayout.Some?)
      ensures formError == if RequiredFilled(form) then None else Some(RequiredFieldsText)
    {
      failed := false;
      amountValidationErrorMessage := None;
      destinationAccountRequiredPrompt := false;
      if |beneficiaries| > 0 && form.selectedBeneficiary.None? && !form.addManuallySelected && selectedPayout.None? {
        failed := true;
        destinationAccountRequiredPrompt := true;
      }
      var parsedAmount := AmountNumber(form.payoutAmount);
      if NumLess(parsedAmount, Num(0)) {
        failed := true;
        amountValidationErrorMessage := Some(AmountNegativeText);
      } else if NumEquals(parsedAmount, Num(0)) {
        failed := true;
        amountValidationErrorMessage := Some(AmountZeroText);
      }
      if !RequiredFilled(form) {
        formError := Some(RequiredFieldsText);
        failed := true;
      } else {
        formError := None;
      }
    }

    /** `handleValidation`: every check runs, each failure sets the flag; the
        form itself is left as it was. */
    method HandleValidation(now: int, maxDateText: string) returns (failed: bool)
      modifies this`amountValidationErrorMessage, this`destinationAccountRequiredPrompt,
        this`formError, this`dateValidationErrorMessage
      ensures failed <==> ValidationFails(form, |beneficiaries| > 0, selectedPayout.Some?, now)
      ensures amountValidationErrorMessage == AmountMessage(AmountNumber(form.payoutAmount))
      ensures destinationAccountRequiredPrompt == DestinationMissing(form, |beneficiaries| > 0, selectedPayout.Some?)
      ensures formError == if RequiredFilled(form) then None else Some(RequiredFieldsText)
      ensures dateValidationErrorMessage ==
        if DateRejected(form.chooseDate, form.scheduleDate, now)
        then DateMessage(form.chooseDate, form.scheduleDate, now, maxDateText)
        else old(dateValidationErrorMessage)
    {
      var validationFailed := CheckRequired();
      var valuesFailed := CheckValues(form);
      validationFailed := validationFailed || valuesFailed;
      var dateMessage := DateMessage(form.chooseDate, form.scheduleDate, now, maxDateText);
      if dateMessage.Some? {
        dateValidationErrorMessage := dateMessage;
        validationFailed := true;
      }
      failed := validationFailed;
    }

    /** The counterparty `onCreatePayoutClick` builds: the chosen
        beneficiary's identifier, or one made of the form fields. */
    function CounterpartyOf(f: PayoutForm): (r: Counterparty)
      ensures r.name == f.destinationAccountName.GetOr("")
      ensures f.selectedBeneficiary.Some? && f.selectedBeneficiary.value.identifier.Some? ==>
        r.identifier == f.selectedBeneficiary.value.identifier.value
      ensures !(f.selectedBeneficiary.Some? && f.selectedBeneficiary.value.identifier.Some?) ==>
        r.identifier.iban == f.destinationAccountIban.GetOr("")
        && r.identifier.accountNumber == f.destinationAccountNumber.GetOr("")
        && r.identifier.sortCode == f.destinationAccountSortCode.GetOr("")
        && (r.identifier.kind == IBAN <==> f.currency == Some("EUR"))
        && r.identifier.currency == (if f.currency.Some? then f.currency.value else "EUR")
    {
      var own := Identifier(
        if f.currency == Some("EUR") then IBAN else SCAN,
        f.destinationAccountIban.GetOr(""),
        f.destinationAccountNumber.GetOr(""),
        f.destinationAccountSortCode.GetOr(""),
        f.currency.GetOr("EUR"));
      Counterparty(
        f.destinationAccountName.GetOr(""),
        if f.selectedBeneficiary.Some? && f.selectedBeneficiary.value.identifier.Some?
        then f.selectedBeneficiary.value.identifier.value
        else own)
    }

    /** `onCreatePayoutClick`: validation first, its messages shown; when
        nothing is wrong the pressed button is disabled and `onCreatePayout`
        is called once. `callRejects` says whether the promise it returns
        rejects: the buttons are enabled again only after it resolves. */
    method OnCreatePayoutClick(createAndApprove: bool, now: int, maxDateText: string, callRejects: bool)
      modifies this`createPayoutClicked, this`amountValidationErrorMessage, this`destinationAccountRequiredPrompt,
        this`formError, this`dateValidationErrorMessage, this`calls,
        this`isCreatePayoutButtonDisabled, this`isCreateAndApproveButtonDisabled
      ensures createPayoutClicked && form == old(form)
      ensures accountValidationErrorMessage == old(accountValidationErrorMessage)
      ensures amountValidationErrorMessage == AmountMessage(AmountNumber(form.payoutAmount))
      ensures destinationAccountRequiredPrompt == DestinationMissing(form, |beneficiaries| > 0, selectedPayout.Some?)
      ensures formError == if RequiredFilled(form) then None else Some(RequiredFieldsText)
      ensures dateValidationErrorMessage ==
        if DateRejected(form.chooseDate, form.scheduleDate, now)
        then DateMessage(form.chooseDate, form.scheduleDate, now, maxDateText)
        else old(dateValidationErrorMessage)
      ensures ValidationFails(form, |beneficiaries| > 0, selectedPayout.Some?, now) ==>
        calls == old(calls)
        && isCreatePayoutButtonDisabled == old(isCreatePayoutButtonDisabled)
        && isCreateAndApproveButtonDisabled == old(isCreateAndApproveButtonDisabled)
      ensures !ValidationFails(form, |beneficiaries| > 0, selectedPayout.Some?, now) ==>
        calls == old(calls) + [PayoutCall(
          form.selectedAccount.value, CounterpartyOf(form), AmountNumber(form.payoutAmount),
          form.theirReference, form.yourReference, form.description, createAndApprove,
          form.chooseDate, form.scheduleDate)]
        && (!callRejects ==> !isCreatePayoutButtonDisabled && !isCreateAndApproveButtonDisabled)
        && (callRejects ==>
              isCreatePayoutButtonDisabled == (!createAndApprove || old(isCreatePayoutButtonDisabled))
              && isCreateAndApproveButtonDisabled == (createAndApprove || old(isCreateAndApproveButtonDisabled)))
    {
      createPayoutClicked := true;
      var failed := HandleValidation(now, maxDateText);
      if failed {
        return;
      }
      if !createAndApprove {
        isCreatePayoutButtonDisabled := true;
      } else {
        isCreateAndApproveButtonDisabled := true;
      }
      var parsedAmount := AmountNumber(form.payoutAmount);
      calls := calls + [PayoutCall(
        form.selectedAccount.value, CounterpartyOf(form), parsedAmount,
        form.theirReference, form.yourReference, form.description, createAndApprove,
        form.chooseDate, form.scheduleDate)];
      if callRejects {
        return;
      }
      isCreatePayoutButtonDisabled := false;
      isCreateAndApproveButtonDisabled := false;
    }
  }
}

=== FILE: user_table.dfy ===
/** The users table: which rows open the user, the expiry of invitations,
    the cells and buttons a row shows, and the sort it asks for.
    Source: packages/components/src/components/ui/organisms/UsersTable/UserTable.tsx */
module UserTable {
  import opened Prelude
  import opened ColumnHeader

  /** `UserStatus`: the two statuses the table acts on, and the others. */
  datatype UserStatus = Invited | RolePending | OtherUserStatus(name: string)

  /** The fields of `UserRoleAndUserInvite` the table reads; `lastModified`
      is in milliseconds since the epoch. */
  datatype User = User(
    userID: string,
    name: string,
    emailAddress: string,
    status: UserStatus,
    inviteID: Option<string>,
    lastModified: int)

  /** `onUserClickedHandler`: whether a click on the row is passed to
      `onUserClicked`; rows of invitations are not opened. */
  predicate OnUserClicked(user: User, hasOnUserClicked: bool) {
    user.status != Invited && hasOnUserClicked
  }

  /** `isExpired`: the invitation was last changed more than three days
      before `now`. */
  predicate IsExpired(lastModified: int, now: int) {
    lastModified < now - 3 * DayMs
  }

  /** An expired invitation stays expired as time goes on, and one changed
      within the last three days has not expired. */
  lemma ExpiryIsFinal(lastModified: int, now: int, later: int)
    requires now <= later
    ensures IsExpired(lastModified, now) ==> IsExpired(lastModified, later)
    ensures now - 3 * DayMs <= lastModified ==> !IsExpired(lastModified, now)
  {
  }

  /** The name cell: the user's name, or the e-mail address when the name
      is empty. */
  function NameCell(user: User): (r: string)
    ensures r == user.name || r == user.emailAddress
    ensures r == "" ==> user.name == "" && user.emailAddress == ""
    ensures user.name != "" ==> r == user.name
  {
    if user.name != "" then user.name else user.emailAddress
  }

  /** The invitation cell: an expired-link badge, a "Copy link" button, or
      nothing. */
  datatype InviteCell = ExpiredLink | CopyLink | NoInviteCell

  /** Whether the user row is for an invitation with an id. */
  predicate HasInvite(user: User) {
    user.status == Invited && StrTruthy(user.inviteID)
  }

  function InviteCellOf(user: User, now: int): (r: InviteCell)
    ensures r != NoInviteCell <==> HasInvite(user)
    ensures r == ExpiredLink <==> HasInvite(user) && IsExpired(user.lastModified, now)
    ensures r == CopyLink <==> HasInvite(user) && !IsExpired(user.lastModified, now)
  {
    if HasInvite(user) && IsExpired(user.lastModified, now) then ExpiredLink
    else if HasInvite(user) && !IsExpired(user.lastModified, now) then CopyLink
    else NoInviteCell
  }

  /** The action cell: "Resend invitation", "Set role", or nothing. */
  datatype ActionButton = ResendInvitation | SetRole | NoButton

  function ActionButtonOf(user: User): (r: ActionButton)
    ensures r == ResendInvitation <==> HasInvite(user)
    ensures r == SetRole <==> user.status == RolePending
  {
    if HasInvite(user) then ResendInvitation
    else if user.status == RolePending then SetRole
    else NoButton
  }

  /** A pending invitation with an id always offers a resend, whether its
      link expired or can still be copied; its row does not open the user. */
  lemma InvitationRow(user: User, now: int, hasOnUserClicked: bool)
    requires HasInvite(user)
    ensures ActionButtonOf(user) == ResendInvitation
    ensures InviteCellOf(user, now) in {ExpiredLink, CopyLink}
    ensures !OnUserClicked(user, hasOnUserClicked)
  {
  }

  /** `handleOnSort`: this table always has a sort and an `onSort`. */
  function HandleOnSort(sortBy: DoubleSort, sortInfo: SortBy): (r: DoubleSort)
    ensures r.primary == sortInfo
    ensures r.secondary == if sortBy.primary.name == sortInfo.name then sortBy.secondary else Some(sortBy.primary)
  {
    Resort(Some(sortBy), sortInfo)
  }

  /** Starting from a sort on two different columns, a click keeps them
      different. */
  lemma HandleOnSortKeepsTwoColumns(sortBy: DoubleSort, sortInfo: SortBy)
    requires TwoColumns(sortBy)
    ensures TwoColumns(HandleOnSort(sortBy, sortInfo))
  {
    ResortKeepsTwoColumns(Some(sortBy), sortInfo);
  }
}

=== FILE: utils.dfy ===
/** Preference lists kept in local storage, and the connected-banks list.
    Source: packages/components/src/utils/utils.ts */
module Utils {
  import opened Prelude
  import opened AssocList

  // ---- table page sizes (utils.ts:14-39) ------------------------------------

  /** `{ tableId, pageSize }`, as a key and its value. */
  type TablePageSize = (string, nat)

  const PaymentRequestsTable := "PaymentRequestsTable"
  const PayoutsTable := "PayoutsTable"
  const TransactionsTable := "TransactionsTable"
  const UsersTable := "UsersTable"

  /** `getDefaultPageSizes`: the four tables, twenty rows each. */
  function DefaultPageSizes(): (r: seq<TablePageSize>)
    ensures |r| == 4 && UniqueKeys(r)
    ensures forall i :: 0 <= i < |r| ==> r[i].1 == 20
    ensures Keys(r) == [PaymentRequestsTable, PayoutsTable, TransactionsTable, UsersTable]
  {
    [(PaymentRequestsTable, 20), (PayoutsTable, 20), (TransactionsTable, 20), (UsersTable, 20)]
  }

  /** `setPageSizeForTable`: the entry of the same table is overwritten in
      place, or the new entry is pushed; without a list the defaults are
      the starting point. */
  method SetPageSizeForTable(newPageSize: TablePageSize, existing: Option<seq<TablePageSize>>)
    returns (r: seq<TablePageSize>)
    ensures r == Put(existing.GetOr(DefaultPageSizes()), newPageSize.0, newPageSize.1)
  {
    var updated := existing.GetOr(DefaultPageSizes());
    var pageSizeIndex := IndexOf(updated, newPageSize.0);
    if pageSizeIndex.Some? {
      updated := updated[pageSizeIndex.value := newPageSize];
    } else {
      updated := updated + [newPageSize];
    }
    r := updated;
  }

  /** After the update the table's page size is the new one and every other
      table's is what it was; a present table keeps its place and the length,
      an absent one is appended. */
  lemma PageSizeSet(s: seq<TablePageSize>, p: TablePageSize)
    ensures Get(Put(s, p.0, p.1), p.0) == Some(p.1)
    ensures p in Put(s, p.0, p.1)
    ensures forall t :: t != p.0 ==> Get(Put(s, p.0, p.1), t) == Get(s, t)
    ensures Get(s, p.0).Some? ==> |Put(s, p.0, p.1)| == |s| && Keys(Put(s, p.0, p.1)) == Keys(s)
    ensures Get(s, p.0).None? ==> Put(s, p.0, p.1) == s + [p]
  {
    GetPutSame(s, p.0, p.1);
    GetMember(Put(s, p.0, p.1), p.0);
    forall t | t != p.0 ensures Get(Put(s, p.0, p.1), t) == Get(s, t) {
      GetPutOther(s, p.0, p.1, t);
    }
    if Get(s, p.0).Some? {
      KeysPutPresent(s, p.0, p.1);
    }
  }

  /** Setting the same page size twice is the same as setting it once. */
  lemma PageSizeIdempotent(s: seq<TablePageSize>, p: TablePageSize)
    ensures Put(Put(s, p.0, p.1), p.0, p.1) == Put(s, p.0, p.1)
  {
    PutPut(s, p.0, p.1, p.1);
  }

  /** Starting from the defaults, a known table keeps four entries, and every
      other table still has twenty rows. */
  lemma DefaultsUpdated(p: TablePageSize)
    requires p.0 in [PaymentRequestsTable, PayoutsTable, TransactionsTable, UsersTable]
    ensures |Put(DefaultPageSizes(), p.0, p.1)| == 4
    ensures forall t :: t != p.0 && t in Keys(DefaultPageSizes()) ==> Get(Put(DefaultPageSizes(), p.0, p.1), t) == Some(20)
  {
    var d := DefaultPageSizes();
    assert Get(d, p.0).Some? by {
      var k :| 0 <= k < 4 && Keys(d)[k] == p.0;
      assert d[k].0 == p.0;
    }
    forall t | t != p.0 && t in Keys(d) ensures Get(Put(d, p.0, p.1), t) == Some(20) {
      GetPutOther(d, p.0, p.1, t);
      var k :| 0 <= k < 4 && Keys(d)[k] == t;
      GetAt(d, k);
    }
  }

  // ---- auto-suggestions (utils.ts:40-98) -------------------------------------

  /** One remembered value and when it was entered. */
  datatype Suggestion = Suggestion(value: string, inserted: int)

  /** The remembered values of one form field, oldest first. */
  datatype AutoSuggestions = AutoSuggestions(fieldId: string, values: seq<Suggestion>)

  /** How many values a field remembers. */
  const MaxSuggestions := 5

  /** `autosuggestions.find` / `findIndex` on the field id. */
  function FieldIndex(s: seq<AutoSuggestions>, fieldId: string): (r: Option<nat>)
    ensures r.Some? ==> r.value < |s| && s[r.value].fieldId == fieldId
    ensures r.Some? ==> forall j :: 0 <= j < r.value ==> s[j].fieldId != fieldId
    ensures r.None? <==> forall j :: 0 <= j < |s| ==> s[j].fieldId != fieldId
  {
    if s == [] then None
    else if s[0].fieldId == fieldId then Some(0)
    else
      match FieldIndex(s[1..], fieldId)
      case None => None
      case Some(i) => Some(i + 1)
  }

  /** `values.find((value) => value.value === fieldValue)` succeeds. */
  predicate Remembers(values: seq<Suggestion>, v: string) {
    exists k :: 0 <= k < |values| && values[k].value == v
  }

  /** The field's values once `v` is added: the oldest is dropped from a
      full list, then `v` goes at the end. */
  function Appended(values: seq<Suggestion>, v: string, now: int): (r: seq<Suggestion>)
    ensures |values| <= MaxSuggestions ==> |r| <= MaxSuggestions
    ensures |r| >= 1 && r[|r| - 1] == Suggestion(v, now)
    ensures |values| == MaxSuggestions ==> r == values[1..] + [Suggestion(v, now)]
    ensures |values| != MaxSuggestions ==> r == values + [Suggestion(v, now)]
  {
    (if |values| == MaxSuggestions then values[1..] else values) + [Suggestion(v, now)]
  }

  /** What `addAutoSuggestion` makes of a list. */
  function WithSuggestion(s: seq<AutoSuggestions>, fieldId: string, v: string, now: int): seq<AutoSuggestions> {
    match FieldIndex(s, fieldId)
    case None => s + [AutoSuggestions(fieldId, [Suggestion(v, now)])]
    case Some(i) =>
      if Remembers(s[i].values, v) then s
      else s[i := AutoSuggestions(fieldId, Appended(s[i].values, v, now))]
  }

  /** `addAutoSuggestion`: shift and push on the field's values in place,
      or push a new field. */
  method AddAutoSuggestion(fieldValue: string, existing: Option<seq<AutoSuggestions>>, fieldId: string, now: int)
    returns (r: seq<AutoSuggestions>)
    ensures r == WithSuggestion(existing.GetOr([]), fieldId, fieldValue, now)
  {
    var autosuggestions := existing.GetOr([]);
    var found := FieldIndex(autosuggestions, fieldId);
    if found.Some? && !Remembers(autosuggestions[found.value].values, fieldValue) {
      var last5Values := autosuggestions[found.value].values;
      if |last5Values| == MaxSuggestions {
        last5Values := last5Values[1..];
      }
      last5Values := last5Values + [Suggestion(fieldValue, now)];
      var fieldAutoSuggestions := autosuggestions[found.value].(values := last5Values);
      var fieldSuggestionIndex := FieldIndex(autosuggestions, fieldId);
      autosuggestions := autosuggestions[fieldSuggestionIndex.value := fieldAutoSuggestions];
    } else if found.None? {
      autosuggestions := autosuggestions + [AutoSuggestions(fieldId, [Suggestion(fieldValue, now)])];
    }
    r := autosuggestions;
  }

  /** Every field remembers at most five values and no field appears twice. */
  predicate WellKept(s: seq<AutoSuggestions>) {
    && (forall i :: 0 <= i < |s| ==> |s[i].values| <= MaxSuggestions)
    && (forall i, j :: 0 <= i < j < |s| ==> s[i].fieldId != s[j].fieldId)
  }

  /** Adding a value keeps the list well kept, and afterwards the field
      remembers the value. */
  lemma WithSuggestionKeeps(s: seq<AutoSuggestions>, fieldId: string, v: string, now: int)
    requires WellKept(s)
    ensures WellKept(WithSuggestion(s, fieldId, v, now))
    ensures var r := WithSuggestion(s, fieldId, v, now);
      FieldIndex(r, fieldId).Some? && Remembers(r[FieldIndex(r, fieldId).value].values, v)
  {
    var r := WithSuggestion(s, fieldId, v, now);
    match FieldIndex(s, fieldId)
    case None =>
      assert r[|s|].values[0].value == v;
      assert FieldIndex(r, fieldId) == Some(|s|) by {
        FieldIndexAt(r, fieldId, |s|);
      }
    case Some(i) =>
      if !Remembers(s[i].values, v) {
        FieldIndexAt(r, fieldId, i);
        var a := Appended(s[i].values, v, now);
        assert a[|a| - 1].value == v;
      }
  }

  lemma FieldIndexAt(s: seq<AutoSuggestions>, fieldId: string, i: nat)
    requires i < |s| && s[i].fieldId == fieldId
    requires forall j :: 0 <= j < i ==> s[j].fieldId != fieldId
    ensures FieldIndex(s, fieldId) == Some(i)
  {
    if i > 0 {
      FieldIndexAt(s[1..], fieldId, i - 1);
    }
  }

  /** Adding changes at most the entry of its own field: every other entry
      stays where it was, and an unseen field is appended. */
  lemma WithSuggestionOthers(s: seq<AutoSuggestions>, fieldId: string, v: string, now: int)
    ensures var r := WithSuggestion(s, fieldId, v, now);
      && |r| >= |s|
      && (forall j :: 0 <= j < |s| && s[j].fieldId != fieldId ==> r[j] == s[j])
      && (FieldIndex(s, fieldId).None? ==> r == s + [AutoSuggestions(fieldId, [Suggestion(v, now)])])
  {
  }

  /** Adding a value the field already remembers changes nothing. */
  lemma RememberedUnchanged(s: seq<AutoSuggestions>, fieldId: string, v: string, now: int)
    requires FieldIndex(s, fieldId).Some? && Remembers(s[FieldIndex(s, fieldId).value].values, v)
    ensures WithSuggestion(s, fieldId, v, now) == s
  {
  }

  /** A suggestion to add: a field and its value. */
  datatype AutoSuggestionAdd = AutoSuggestionAdd(fieldId: string, value: string)

  /** Adding the suggestions one after another, in order. */
  function AddedAll(s: seq<AutoSuggestions>, adds: seq<AutoSuggestionAdd>, now: int): seq<AutoSuggestions> {
    if adds == [] then s
    else
      var n := |adds| - 1;
      WithSuggestion(AddedAll(s, adds[..n], now), adds[n].fieldId, adds[n].value, now)
  }

  /** `addAutoSuggestions`: the `forEach` reassigning the list. */
  method AddAutoSuggestions(adds: seq<AutoSuggestionAdd>, existing: Option<seq<AutoSuggestions>>, now: int)
    returns (r: seq<AutoSuggestions>)
    ensures r == AddedAll(existing.GetOr([]), adds, now)
  {
    r := existing.GetOr([]);
    for i := 0 to |adds|
      invariant r == AddedAll(existing.GetOr([]), adds[..i], now)
    {
      assert adds[..i + 1][..i] == adds[..i];
      r := AddAutoSuggestion(adds[i].value, Some(r), adds[i].fieldId, now);
    }
    assert adds[..|adds|] == adds;
  }

  /** Adding many keeps the list well kept, and the last value added is
      remembered by its field. */
  lemma {:induction false} AddedAllKeeps(s: seq<AutoSuggestions>, adds: seq<AutoSuggestionAdd>, now: int)
    requires WellKept(s)
    ensures WellKept(AddedAll(s, adds, now))
    ensures adds != [] ==>
      var r := AddedAll(s, adds, now);
      var last := adds[|adds| - 1];
      FieldIndex(r, last.fieldId).Some? && Remembers(r[FieldIndex(r, last.fieldId).value].values, last.value)
  {
    if adds != [] {
      var n := |adds| - 1;
      AddedAllKeeps(s, adds[..n], now);
      WithSuggestionKeeps(AddedAll(s, adds[..n], now), adds[n].fieldId, adds[n].value, now);
    }
  }

  // ---- connected banks (utils.ts:100-130) --------------------------------------

  datatype PaymentProcessor = Yapily | OtherProcessor(name: string)

  datatype BankSettings = BankSettings(
    bankID: string,
    bankName: string,
    order: int,
    logo: string,
    currency: string,
    processor: PaymentProcessor,
    personalInstitutionID: Option<string>,
    businessInstitutionID: Option<string>,
    message: string,
    messageImageUrl: string)

  /** `banks.filter((b) => b.processor == PaymentProcessor.Yapily)` */
  function YapilyOnly(banks: seq<BankSettings>): (r: seq<BankSettings>)
    ensures forall b :: b in r <==> b in banks && b.processor == Yapily
    ensures |r| <= |banks|
  {
    if banks == [] then []
    else (if banks[0].processor == Yapily then [banks[0]] else []) + YapilyOnly(banks[1..])
  }

  /** The separate business record of a bank at position `index`. */
  function BusinessRecord(bank: BankSettings, index: int): (r: BankSettings)
    requires bank.businessInstitutionID.Some?
    ensures r.bankName == bank.bankName + " Business"
    ensures r.personalInstitutionID == r.businessInstitutionID == bank.businessInstitutionID
    ensures r.bankID == bank.bankID && r.currency == bank.currency && r.order == index
  {
    bank.(bankName := bank.bankName + " Business", order := index,
          personalInstitutionID := bank.businessInstitutionID)
  }

  /** The records pushed for one bank: its business record, then the bank. */
  function RecordsOf(bank: BankSettings, index: int): (r: seq<BankSettings>)
    ensures |r| <= 2
  {
    (if StrTruthy(bank.businessInstitutionID) then [BusinessRecord(bank, index)] else [])
    + (if StrTruthy(bank.personalInstitutionID) then [bank] else [])
  }

  /** The records pushed for the first banks of the list. */
  function Expanded(banks: seq<BankSettings>): seq<BankSettings> {
    if banks == [] then []
    else
      var n := |banks| - 1;
      Expanded(banks[..n]) + RecordsOf(banks[n], n)
  }

  /** The business record of the bank at `k`, when it has a business id. */
  predicate IsBusinessRecordAt(banks: seq<BankSettings>, k: int, r: BankSettings) {
    0 <= k < |banks| && StrTruthy(banks[k].businessInstitutionID) && r == BusinessRecord(banks[k], k)
  }

  /** Every expanded record is a business record of a bank with a business
      id, or a bank with a personal id; each such bank contributes its records. */
  lemma ExpandedRecords(banks: seq<BankSettings>)
    ensures forall r :: r in Expanded(banks) ==>
      (exists k :: IsBusinessRecordAt(banks, k, r)) || (r in banks && StrTruthy(r.personalInstitutionID))
    ensures forall k :: 0 <= k < |banks| && StrTruthy(banks[k].businessInstitutionID) ==>
      BusinessRecord(banks[k], k) in Expanded(banks)
    ensures forall k :: 0 <= k < |banks| && StrTruthy(banks[k].personalInstitutionID) ==>
      banks[k] in Expanded(banks)
  {
    ExpandedSound(banks);
    forall k | 0 <= k < |banks|
      ensures StrTruthy(banks[k].businessInstitutionID) ==> BusinessRecord(banks[k], k) in Expanded(banks)
      ensures StrTruthy(banks[k].personalInstitutionID) ==> banks[k] in Expanded(banks)
    {
      ExpandedComplete(banks, k);
    }
  }

  lemma {:induction false} ExpandedSound(banks: seq<BankSettings>)
    ensures forall r :: r in Expanded(banks) ==>
      (exists k :: IsBusinessRecordAt(banks, k, r)) || (r in banks && StrTruthy(r.personalInstitutionID))
  {
    if banks != [] {
      var n := |banks| - 1;
      var front := banks[..n];
      ExpandedSound(front);
      assert Expanded(banks) == Expanded(front) + RecordsOf(banks[n], n);
      forall r | r in Expanded(banks)
        ensures (exists k :: IsBusinessRecordAt(banks, k, r)) || (r in banks && StrTruthy(r.personalInstitutionID))
      {
        if r in Expanded(front) {
          if exists k :: IsBusinessRecordAt(front, k, r) {
            var k :| IsBusinessRecordAt(front, k, r);
            assert front[k] == banks[k];
            assert IsBusinessRecordAt(banks, k, r);
          } else {
            assert r in front;
          }
        } else if StrTruthy(banks[n].businessInstitutionID) && r == BusinessRecord(banks[n], n) {
          assert IsBusinessRecordAt(banks, n, r);
        } else {
          assert r == banks[n];
        }
      }
    }
  }

  lemma {:induction false} ExpandedComplete(banks: seq<BankSettings>, k: nat)
    requires k < |banks|
    ensures StrTruthy(banks[k].businessInstitutionID) ==> BusinessRecord(banks[k], k) in Expanded(banks)
    ensures StrTruthy(banks[k].personalInstitutionID) ==> banks[k] in Expanded(banks)
  {
    var n := |banks| - 1;
    var front := banks[..n];
    assert Expanded(banks) == Expanded(front) + RecordsOf(banks[n], n);
    if k < n {
      ExpandedComplete(front, k);
      assert front[k] == banks[k];
    }
  }

  /** `a < b` on strings: the first differing character decides, and a
      proper prefix comes first. */
  predicate StrLess(a: string, b: string) {
    if a == [] then b != []
    else if b == [] then false
    else a[0] < b[0] || (a[0] == b[0] && StrLess(a[1..], b[1..]))
  }

  lemma {:induction false} StrLessTotal(a: string, b: string)
    ensures StrLess(a, b) || a == b || StrLess(b, a)
  {
    if a != [] && b != [] && a[0] == b[0] {
      StrLessTotal(a[1..], b[1..]);
      if a[1..] == b[1..] {
        assert a == [a[0]] + a[1..] && b == [b[0]] + b[1..];
      }
    }
  }

  lemma {:induction false} StrLessTrans(a: string, b: string, c: string)
    requires StrLess(a, b) && StrLess(b, c)
    ensures StrLess(a, c)
  {
    if a != [] && b != [] && c != [] && a[0] == b[0] && b[0] == c[0] {
      StrLessTrans(a[1..], b[1..], c[1..]);
    }
  }

  lemma {:induction false} StrLessAsymmetric(a: string, b: string)
    requires StrLess(a, b)
    ensures !StrLess(b, a)
  {
    if a != [] && b != [] && a[0] == b[0] {
      StrLessAsymmetric(a[1..], b[1..]);
    }
  }

  /** `a <= b` in the order the comparator sorts by. */
  predicate NameAtMost(a: BankSettings, b: BankSettings) {
    !StrLess(b.bankName, a.bankName)
  }

  lemma NameAtMostTrans(a: BankSettings, b: BankSettings, c: BankSettings)
    requires NameAtMost(a, b) && NameAtMost(b, c)
    ensures NameAtMost(a, c)
  {
    StrLessTotal(a.bankName, b.bankName);
    StrLessTotal(b.bankName, c.bankName);
    if a.bankName != b.bankName && b.bankName != c.bankName {
      StrLessTrans(a.bankName, b.bankName, c.bankName);
      StrLessAsymmetric(a.bankName, c.bankName);
    }
  }

  predicate SortedByName(xs: seq<BankSettings>) {
    forall i, j :: 0 <= i < j < |xs| ==> NameAtMost(xs[i], xs[j])
  }

  /** Insertion of one record before the first record whose name is not
      smaller. */
  function InsertByName(b: BankSettings, xs: seq<BankSettings>): (r: seq<BankSettings>)
    ensures multiset(r) == multiset(xs) + multiset{b}
  {
    if xs == [] then [b]
    else if !StrLess(xs[0].bankName, b.bankName) then [b] + xs
    else
      assert xs == [xs[0]] + xs[1..];
      [xs[0]] + InsertByName(b, xs[1..])
  }

  /** Insertion keeps a list sorted by name. */
  lemma {:induction false} InsertSorted(b: BankSettings, xs: seq<BankSettings>)
    requires SortedByName(xs)
    ensures SortedByName(InsertByName(b, xs))
  {
    if xs == [] {
    } else if !StrLess(xs[0].bankName, b.bankName) {
      forall j | 0 <= j < |xs| ensures NameAtMost(b, xs[j]) {
        if j > 0 {
          NameAtMostTrans(b, xs[0], xs[j]);
        }
      }
    } else {
      StrLessAsymmetric(xs[0].bankName, b.bankName);
      var rest := InsertByName(b, xs[1..]);
      InsertSorted(b, xs[1..]);
      forall j | 0 <= j < |rest| ensures NameAtMost(xs[0], rest[j]) {
        assert rest[j] in multiset(rest);
        if rest[j] != b {
          assert rest[j] in multiset(xs[1..]);
          var k :| 0 <= k < |xs[1..]| && xs[1..][k] == rest[j];
          assert xs[k + 1] == rest[j];
        }
      }
      var r := InsertByName(b, xs);
      assert r == [xs[0]] + rest;
      forall i, j | 0 <= i < j < |r| ensures NameAtMost(r[i], r[j]) {
        if i > 0 {
          assert r[i] == rest[i - 1] && r[j] == rest[j - 1];
        }
      }
    }
  }

  /** `sort((a, b) => (a.bankName > b.bankName ? 1 : -1))`: the records in
      ascending order of name. */
  function SortByName(xs: seq<BankSettings>): (r: seq<BankSettings>)
    ensures SortedByName(r)
    ensures multiset(r) == multiset(xs)
  {
    if xs == [] then []
    else
      assert xs == [xs[0]] + xs[1..];
      InsertSorted(xs[0], SortByName(xs[1..]));
      InsertByName(xs[0], SortByName(xs[1..]))
  }

  /** The `forEach` of `addConnectedBanks`, pushing each bank's records. */
  method ExpandBanks(yapily: seq<BankSettings>) returns (connectedBanks: seq<BankSettings>)
    ensures connectedBanks == Expanded(yapily)
  {
    connectedBanks := [];
    for index := 0 to |yapily|
      invariant connectedBanks == Expanded(yapily[..index])
    {
      var bank := yapily[index];
      ghost var before := connectedBanks;
      assert yapily[..index + 1][..index] == yapily[..index];
      assert Expanded(yapily[..index + 1]) == before + RecordsOf(bank, index);
      if StrTruthy(bank.businessInstitutionID) {
        connectedBanks := connectedBanks + [BusinessRecord(bank, index)];
      }
      if StrTruthy(bank.personalInstitutionID) {
        connectedBanks := connectedBanks + [bank];
      }
    }
    assert yapily[..|yapily|] == yapily;
  }

  /** `addConnectedBanks`: the Yapily banks expanded, then sorted by name. */
  method AddConnectedBanks(banks: seq<BankSettings>) returns (r: seq<BankSettings>)
    ensures multiset(r) == multiset(Expanded(YapilyOnly(banks)))
    ensures SortedByName(r)
  {
    var connectedBanks := ExpandBanks(YapilyOnly(banks));
    r := SortByName(connectedBanks);
  }
}

=== FILE: validation.dfy ===
/** Validation of imported invoice rows and IBANs.
    Source: packages/components/src/utils/validation.ts */
module Validation {
  import opened Prelude

  // ---- IBAN (validation.ts:100-134) -----------------------------------------

  /** `/^[a-zA-Z]{2}[0-9]{2}([a-zA-Z0-9]){11,30}$/`: two letters, two digits,
      then 11 to 30 letters or digits. */
  predicate IbanShape(s: string) {
    15 <= |s| <= 34
    && IsLetter(s[0]) && IsLetter(s[1]) && IsDigit(s[2]) && IsDigit(s[3])
    && forall i :: 4 <= i < |s| ==> IsAlnum(s[i])
  }

  /** `iban.slice(4) + iban.slice(0, 4)` */
  function Rotate(s: string): (r: string)
    ensures |r| == |s|
    ensures |s| >= 4 ==> forall i :: 0 <= i < |s| ==> r[i] == if i < |s| - 4 then s[i + 4] else s[i - (|s| - 4)]
  {
    if |s| >= 4 then s[4..] + s[..4] else s
  }

  /** `parseInt(c, 10)` of a single character: its digit, or NaN. */
  function ParseDigit(c: char): (r: JsNum)
    ensures r.Num? <==> IsDigit(c)
    ensures r.Num? ==> 0 <= r.n < 10
  {
    if IsDigit(c) then Num(DigitValue(c)) else NaN
  }

  /** The number pushed for one character: `A`..`Z` give 10..35, anything
      else goes through `parseInt`. */
  function CharValue(c: char): (r: JsNum)
    ensures IsUpper(c) ==> r == Num(c as int - 55) && 10 <= r.n <= 35
    ensures IsDigit(c) ==> r == Num(DigitValue(c))
    ensures !IsUpper(c) && !IsDigit(c) ==> r == NaN
  {
    if IsUpper(c) then Num(c as int - 55) else ParseDigit(c)
  }

  function CharValues(s: string): (r: seq<JsNum>)
    ensures |r| == |s|
    ensures forall i :: 0 <= i < |s| ==> r[i] == CharValue(s[i])
  {
    if s == [] then [] else CharValues(s[..|s| - 1]) + [CharValue(s[|s| - 1])]
  }

  /** How `join('')` writes a number. */
  function NumText(v: JsNum): (r: string)
    ensures |r| >= 1
  {
    match v
    case NaN => "NaN"
    case Num(n) => if n >= 0 then NatToString(n) else "-" + NatToString(-n)
  }

  /** `sb.join('')` */
  function JoinNums(ns: seq<JsNum>): string {
    if ns == [] then "" else JoinNums(ns[..|ns| - 1]) + NumText(ns[|ns| - 1])
  }

  function Pow10(n: nat): (r: nat)
    ensures r >= 1
  {
    if n == 0 then 1 else 10 * Pow10(n - 1)
  }

  /** The ISO 13616 check number of an upper-case alphanumeric string:
      each letter stands for the two digits of 10..35 and each digit for
      itself, read as one decimal number. */
  function IsoValue(s: string): nat
    requires forall i :: 0 <= i < |s| ==> IsUpper(s[i]) || IsDigit(s[i])
  {
    if s == [] then 0
    else
      var c := s[|s| - 1];
      if IsUpper(c) then IsoValue(s[..|s| - 1]) * 100 + (c as int - 55)
      else IsoValue(s[..|s| - 1]) * 10 + DigitValue(c)
  }

  /** An IBAN is valid when it has the IBAN shape, its letters are upper
      case, and moving its first four characters to the end gives a check
      number congruent to 1 modulo 97 (ISO 7064 MOD 97-10). */
  predicate IsoIbanValid(s: string) {
    IbanShape(s)
    && (forall i :: 0 <= i < |s| ==> !IsLower(s[i]))
    && IsoValue(Rotate(s)) % 97 == 1
  }

  /** One step of the checksum loop: `(checksum * 10 + v) % 97`. */
  function ChecksumStep(checksum: JsNum, v: JsNum): JsNum {
    if checksum.NaN? || v.NaN? then NaN else Num((checksum.n * 10 + v.n) % 97)
  }

  lemma ModStep(x: int, d: int)
    requires x >= 0
    ensures (x % 97 * 10 + d) % 97 == (x * 10 + d) % 97
  {
    var q := x / 97;
    assert x * 10 + d == (x % 97 * 10 + d) + 97 * (q * 10);
  }

  /** The checksum loop over the digit string: NaN as soon as a character is
      not a digit, otherwise the residue modulo 97 of the whole number. */
  method Checksum(str: string) returns (checksum: JsNum)
    ensures checksum == if str != [] && AllDigits(str) then Num(DecimalValue(str) % 97) else NaN
  {
    if str == [] {
      // `parseInt(undefined, 10)`
      return NaN;
    }
    checksum := ParseDigit(str[0]);
    assert str[..1][..0] == [];
    var i := 1;
    while i < |str|
      invariant 1 <= i <= |str|
      invariant checksum == if AllDigits(str[..i]) then Num(DecimalValue(str[..i]) % 97) else NaN
    {
      var v := ParseDigit(str[i]);
      assert str[..i + 1][..i] == str[..i];
      if AllDigits(str[..i]) && v.Num? {
        ModStep(DecimalValue(str[..i]), v.n);
      }
      checksum := ChecksumStep(checksum, v);
      i := i + 1;
    }
    assert str[..i] == str;
  }

  lemma {:induction false} DecimalConcat(a: string, b: string)
    requires AllDigits(a) && AllDigits(b)
    ensures AllDigits(a + b)
    ensures DecimalValue(a + b) == DecimalValue(a) * Pow10(|b|) + DecimalValue(b)
  {
    if b == [] {
      assert a + b == a;
    } else {
      var n := |b| - 1;
      var d := DigitValue(b[n]);
      var ab := a + b;
      assert ab[..|ab| - 1] == a + b[..n];
      assert ab[|ab| - 1] == b[n];
      DecimalConcat(a, b[..n]);
      assert DecimalValue(ab) == DecimalValue(a + b[..n]) * 10 + d;
      assert DecimalValue(b) == DecimalValue(b[..n]) * 10 + d;
      assert Pow10(|b|) == 10 * Pow10(n);
      DistribStep(DecimalValue(a), Pow10(n), DecimalValue(b[..n]), d);
    }
  }

  lemma DistribStep(x: int, p: int, v: int, d: int)
    ensures (x * p + v) * 10 + d == x * (10 * p) + (v * 10 + d)
  {
  }

  lemma CharText(c: char)
    requires IsUpper(c) || IsDigit(c)
    ensures AllDigits(NumText(CharValue(c)))
    ensures |NumText(CharValue(c))| == if IsUpper(c) then 2 else 1
    ensures DecimalValue(NumText(CharValue(c))) == CharValue(c).n
  {
    var t := NumText(CharValue(c));
    if IsUpper(c) {
      var v := c as int - 55;
      var hi, lo := DigitChar(v / 10), DigitChar(v % 10);
      assert NatToString(v / 10) == [hi];
      assert t == [hi, lo];
      assert t[..1] == [hi] && [hi][..0] == [];
      assert DecimalValue([hi]) == DigitValue(hi);
      assert DecimalValue(t) == DigitValue(hi) * 10 + DigitValue(lo);
    } else {
      assert t == [DigitChar(DigitValue(c))];
      assert t[..0] == [];
    }
  }

  /** For upper-case letters and digits, the joined string is all digits and
      denotes the ISO check number. */
  lemma {:induction false} JoinedIsoValue(s: string)
    requires forall i :: 0 <= i < |s| ==> IsUpper(s[i]) || IsDigit(s[i])
    ensures AllDigits(JoinNums(CharValues(s)))
    ensures DecimalValue(JoinNums(CharValues(s))) == IsoValue(s)
  {
    if s != [] {
      var n := |s| - 1;
      var c := s[n];
      var vs := CharValues(s);
      assert vs[..n] == CharValues(s[..n]);
      var prefix, t := JoinNums(CharValues(s[..n])), NumText(CharValue(c));
      assert JoinNums(vs) == prefix + t;
      JoinedIsoValue(s[..n]);
      CharText(c);
      DecimalConcat(prefix, t);
      assert DecimalValue(prefix + t) == IsoValue(s[..n]) * Pow10(|t|) + CharValue(c).n;
      if IsUpper(c) {
        assert Pow10(|t|) == 100 by { assert Pow10(1) == 10; }
        assert IsoValue(s) == IsoValue(s[..n]) * 100 + CharValue(c).n;
      } else {
        assert Pow10(|t|) == 10;
        assert IsoValue(s) == IsoValue(s[..n]) * 10 + CharValue(c).n;
      }
    }
  }

  /** A NaN among the pushed values puts the letters "NaN" into the string. */
  lemma {:induction false} JoinedNaN(ns: seq<JsNum>, i: nat)
    requires i < |ns| && ns[i].NaN?
    ensures !AllDigits(JoinNums(ns))
  {
    var n := |ns| - 1;
    var prefix := JoinNums(ns[..n]);
    if i == n {
      assert JoinNums(ns)[|prefix|] == 'N';
    } else {
      JoinedNaN(ns[..n], i);
      var j :| 0 <= j < |prefix| && !IsDigit(prefix[j]);
      assert JoinNums(ns)[j] == prefix[j];
    }
  }

  lemma JoinedNonEmpty(ns: seq<JsNum>)
    requires ns != []
    ensures JoinNums(ns) != []
  {
  }

  /** For a well-shaped string, the expanded digit string decides validity:
      it is all digits and denotes the ISO check number exactly when no
      letter is lower case, and otherwise it holds the letters "NaN". */
  lemma ExpansionDecides(iban: string)
    requires IbanShape(iban)
    ensures var t := JoinNums(CharValues(Rotate(iban)));
      (t != [] && AllDigits(t) && DecimalValue(t) % 97 == 1) == IsoIbanValid(iban)
  {
    var bank := Rotate(iban);
    var sb := CharValues(bank);
    JoinedNonEmpty(sb);
    if forall i :: 0 <= i < |iban| ==> !IsLower(iban[i]) {
      assert forall i :: 0 <= i < |bank| ==> IsUpper(bank[i]) || IsDigit(bank[i]);
      JoinedIsoValue(bank);
    } else {
      var j :| 0 <= j < |iban| && IsLower(iban[j]);
      var k := if j >= 4 then j - 4 else |iban| - 4 + j;
      assert bank[k] == iban[j];
      JoinedNaN(sb, k);
    }
  }

  /** `validateIBAN`: the shape test for a non-empty string, the expansion
      loop over the rotated string, then the checksum loop. */
  method ValidateIban(iban: string) returns (ok: bool)
    ensures ok == IsoIbanValid(iban)
  {
    if |iban| > 0 && !IbanShape(iban) {
      return false;
    }
    var bank := Rotate(iban);
    var sb := Expand(bank);
    var checkSumString := JoinNums(sb);
    var checksum := Checksum(checkSumString);
    ok := checksum == Num(1);
    if iban != [] {
      ExpansionDecides(iban);
      assert ok <==> checkSumString != [] && AllDigits(checkSumString) && DecimalValue(checkSumString) % 97 == 1;
    } else {
      assert checkSumString == [];
    }
  }

  /** The expansion loop of `validateIBAN`: each character's value pushed
      onto `sb` in order. */
  method Expand(bank: string) returns (sb: seq<JsNum>)
    ensures sb == CharValues(bank)
  {
    sb := [];
    for i := 0 to |bank|
      invariant sb == CharValues(bank[..i])
    {
      assert bank[..i + 1][..i] == bank[..i];
      sb := sb + [CharValue(bank[i])];
    }
    assert bank[..|bank|] == bank;
  }

  /** A well-shaped IBAN written with a lower-case letter is rejected. */
  lemma LowerCaseRejected(s: string, i: nat)
    requires i < |s| && IsLower(s[i])
    ensures !IsoIbanValid(s)
  {
  }

  // ---- e-mail (validation.ts:95-98) -----------------------------------------

  /** `/\S+@\S+\.\S+/.test(email)`: somewhere in the string a non-space
      character, `@`, a run of non-space characters, `.`, and a non-space
      character follow each other. */
  predicate ValidateEmail(s: string) {
    exists i, j :: 1 <= i && i + 1 < j && j + 1 < |s| && EmailAt(s, i, j)
  }

  predicate EmailAt(s: string, i: int, j: int)
    requires 1 <= i && i + 1 < j && j + 1 < |s|
  {
    !IsSpace(s[i - 1]) && s[i] == '@' && s[j] == '.' && !IsSpace(s[j + 1])
    && forall m :: i < m < j ==> !IsSpace(s[m])
  }

  /** The test is not anchored: text around an accepted address is accepted. */
  lemma EmailUnanchored(s: string, before: string, after: string)
    requires ValidateEmail(s)
    ensures ValidateEmail(before + s + after)
  {
    var i, j :| 1 <= i && i + 1 < j && j + 1 < |s| && EmailAt(s, i, j);
    var t := before + s + after;
    var o := |before|;
    assert forall m :: 0 <= m < |s| ==> t[o + m] == s[m];
    assert EmailAt(t, o + i, o + j);
  }

  /** An accepted string contains an `@` followed later by a `.`. */
  lemma EmailHasAtAndDot(s: string)
    requires ValidateEmail(s)
    ensures exists i, j :: 0 <= i < j < |s| && s[i] == '@' && s[j] == '.'
  {
    var i, j :| 1 <= i && i + 1 < j && j + 1 < |s| && EmailAt(s, i, j);
  }

  /** Any address of the form local@domain.tld is accepted, where the
      local part ends with a non-space character, the domain has no spaces
      and the top-level part starts with a non-space character. */
  lemma EmailOfParts(local: string, domain: string, tld: string)
    requires |local| > 0 && !IsSpace(local[|local| - 1])
    requires |domain| > 0 && forall m :: 0 <= m < |domain| ==> !IsSpace(domain[m])
    requires |tld| > 0 && !IsSpace(tld[0])
    ensures ValidateEmail(local + "@" + domain + "." + tld)
  {
    var s := local + "@" + domain + "." + tld;
    var i := |local|;
    var j := i + 1 + |domain|;
    assert forall m :: i < m < j ==> s[m] == domain[m - i - 1];
    assert EmailAt(s, i, j);
  }

  /** Two instances: a minimal address is accepted, one without a dot after
      the `@` is not. */
  lemma EmailExamples()
    ensures ValidateEmail("a@b.c")
    ensures !ValidateEmail("a@b")
  {
    assert EmailAt("a@b.c", 1, 3);
  }

  // ---- the invoice schema (validation.ts:5, 14-93) ---------------------------

  const Currencies: seq<string> := ["GBP", "EUR"]

  /** A parsed CSV row. Empty cells arrive as `undefined`; the numeric
      columns are given as the number `Number` makes of the cell, a whole
      number of the cell's own unit (fractional cells are not modelled). */
  datatype InvoiceRow = InvoiceRow(
    invoiceNumber: Option<string>,
    invoiceDate: Option<string>,
    dueDate: Option<string>,
    contact: Option<string>,
    destinationIban: Option<string>,
    destinationAccountNumber: Option<string>,
    destinationSortCode: Option<string>,
    currency: Option<string>,
    totalAmount: JsNum,
    outstandingAmount: JsNum,
    remittanceEmail: Option<string>)

  // The issue messages of the invoice schema.
  const InvoiceDateRequired := "InvoiceDate is required"
  const DueDateRequired := "DueDate is required"
  const ContactRequired := "Contact is required"
  const TotalAmountNaN := "TotalAmount must be a number"
  const TotalAmountTooSmall := "TotalAmount must be greater than 0"
  const OutstandingAmountNaN := "OutstandingAmount must be a number"
  const OutstandingAmountTooSmall := "OutstandingAmount must be greater than 0"
  const RemittanceEmailInvalid := "RemittanceEmail is not a valid email"
  const DestinationIbanInvalid := "DestinationIban is not a valid iban."
  const DestinationAccountNumberInvalid := "DestinationAccountNumber is invalid."
  const DestinationSortCodeInvalid := "DestinationSortCode is invalid."
  const CurrencyEnumPrefix := "Invalid enum value. Expected 'GBP' | 'EUR', received '"

  /** The outcome of one field's checks: a failed type check aborts the
      object; a failed refinement of the value only marks it dirty. */
  datatype FieldCheck = Pass | Dirty(message: string) | Abort(message: string)

  /** `string().min(1, message)` */
  function RequiredText(v: Option<string>, message: string): (r: FieldCheck)
    ensures r == Pass <==> v.Some? && |v.value| >= 1
    ensures v.None? ==> r == Abort("Required")
  {
    match v
    case None => Abort("Required")
    case Some(s) => if |s| < 1 then Dirty(message) else Pass
  }

  /** `string()` */
  function AnyText(v: Option<string>): (r: FieldCheck)
    ensures r == Pass <==> v.Some?
  {
    if v.None? then Abort("Required") else Pass
  }

  /** `z.enum(CURRENCIES)` */
  function CurrencyCheck(v: Option<string>): (r: FieldCheck)
    ensures r == Pass <==> v.Some? && v.value in Currencies
    ensures r != Pass ==> r.Abort?
  {
    match v
    case None => Abort("Required")
    case Some(c) =>
      if c in Currencies then Pass
      else Abort(CurrencyEnumPrefix + c + "'")
  }

  /** `coerce.number({ invalid_type_error: nanMessage }).min(min, minMessage)` */
  function AmountCheck(v: JsNum, min: int, nanMessage: string, minMessage: string): (r: FieldCheck)
    ensures r == Pass <==> v.Num? && v.n >= min
    ensures v.NaN? ==> r == Abort(nanMessage)
  {
    match v
    case NaN => Abort(nanMessage)
    case Num(n) => if n < min then Dirty(minMessage) else Pass
  }

  /** `string().email(...).optional().or(literal(''))`; the e-mail test of
      the schema library is the parameter `isEmail`. */
  function EmailCheck(v: Option<string>, isEmail: string -> bool): (r: FieldCheck)
    ensures r == Pass <==> v.None? || v.value == "" || isEmail(v.value)
    ensures !r.Abort?
  {
    match v
    case None => Pass
    case Some(s) => if isEmail(s) || s == "" then Pass else Dirty(RemittanceEmailInvalid)
  }

  /** The field checks in the schema's key order. */
  function FieldChecks(row: InvoiceRow, isEmail: string -> bool): (r: seq<FieldCheck>)
    ensures |r| == 10
  {
    [ RequiredText(row.invoiceDate, InvoiceDateRequired),
      RequiredText(row.dueDate, DueDateRequired),
      RequiredText(row.contact, ContactRequired),
      AnyText(row.destinationIban),
      AnyText(row.destinationAccountNumber),
      AnyText(row.destinationSortCode),
      CurrencyCheck(row.currency),
      AmountCheck(row.totalAmount, 1, TotalAmountNaN, TotalAmountTooSmall),
      AmountCheck(row.outstandingAmount, 0, OutstandingAmountNaN, OutstandingAmountTooSmall),
      EmailCheck(row.remittanceEmail, isEmail) ]
  }

  function Messages(checks: seq<FieldCheck>): (r: seq<string>)
    ensures r == [] <==> forall i :: 0 <= i < |checks| ==> checks[i] == Pass
  {
    if checks == [] then []
    else (if checks[0] == Pass then [] else [checks[0].message]) + Messages(checks[1..])
  }

  /** The three refinements, in order; each failed one adds its message. */
  function RefinementMessages(row: InvoiceRow): seq<string> {
    var currency := row.currency.GetOr("");
    (if currency == "EUR" && !IsoIbanValid(row.destinationIban.GetOr("")) then [DestinationIbanInvalid] else [])
    + (if currency == "GBP" && !StrTruthy(row.destinationAccountNumber) then [DestinationAccountNumberInvalid] else [])
    + (if currency == "GBP" && !StrTruthy(row.destinationSortCode) then [DestinationSortCodeInvalid] else [])
  }

  /** Some field check aborted the object. */
  predicate AnyAbort(checks: seq<FieldCheck>) {
    exists i :: 0 <= i < |checks| && checks[i].Abort?
  }

  /** The issue messages of `InvoiceSchema.safeParse(row)`: the field
      messages, then, unless a field aborted, the refinement messages. */
  function SchemaIssues(row: InvoiceRow, isEmail: string -> bool): seq<string> {
    var checks := FieldChecks(row, isEmail);
    Messages(checks) + (if AnyAbort(checks) then [] else RefinementMessages(row))
  }

  /** The conditions on the fields one by one. */
  predicate FieldsAcceptable(row: InvoiceRow, isEmail: string -> bool) {
    && row.invoiceDate.Some? && row.invoiceDate.value != ""
    && row.dueDate.Some? && row.dueDate.value != ""
    && row.contact.Some? && row.contact.value != ""
    && row.destinationIban.Some? && row.destinationAccountNumber.Some? && row.destinationSortCode.Some?
    && row.currency.Some? && (row.currency.value == "GBP" || row.currency.value == "EUR")
    && row.totalAmount.Num? && row.totalAmount.n >= 1
    && row.outstandingAmount.Num? && row.outstandingAmount.n >= 0
    && (row.remittanceEmail.None? || row.remittanceEmail.value == "" || isEmail(row.remittanceEmail.value))
  }

  /** The conditions that relate the destination fields to the currency. */
  predicate DestinationAcceptable(row: InvoiceRow) {
    && (row.currency == Some("EUR") ==> IsoIbanValid(row.destinationIban.GetOr("")))
    && (row.currency == Some("GBP") ==> StrTruthy(row.destinationAccountNumber) && StrTruthy(row.destinationSortCode))
  }

  /** Every condition a row must meet, stated field by field. */
  predicate RowAcceptable(row: InvoiceRow, isEmail: string -> bool) {
    FieldsAcceptable(row, isEmail) && DestinationAcceptable(row)
  }

  /** Every field check passes exactly when the fields meet their conditions. */
  lemma FieldChecksPass(row: InvoiceRow, isEmail: string -> bool)
    ensures (forall i :: 0 <= i < 10 ==> FieldChecks(row, isEmail)[i] == Pass) <==> FieldsAcceptable(row, isEmail)
  {
    AllTenPass(FieldChecks(row, isEmail));
  }

  lemma AllTenPass(c: seq<FieldCheck>)
    requires |c| == 10
    ensures (forall i :: 0 <= i < 10 ==> c[i] == Pass) <==>
      c[0] == Pass && c[1] == Pass && c[2] == Pass && c[3] == Pass && c[4] == Pass
      && c[5] == Pass && c[6] == Pass && c[7] == Pass && c[8] == Pass && c[9] == Pass
  {
  }

  /** No refinement message is added exactly when the destination fields suit the currency. */
  lemma RefinementsPass(row: InvoiceRow)
    ensures RefinementMessages(row) == [] <==> DestinationAcceptable(row)
  {
  }

  /** The schema accepts a row exactly when the row meets every condition. */
  lemma SchemaAcceptsIff(row: InvoiceRow, isEmail: string -> bool)
    ensures SchemaIssues(row, isEmail) == [] <==> RowAcceptable(row, isEmail)
  {
    var checks := FieldChecks(row, isEmail);
    FieldChecksPass(row, isEmail);
    RefinementsPass(row);
    if forall i :: 0 <= i < 10 ==> checks[i] == Pass {
      assert !AnyAbort(checks);
    }
  }

  /** A EUR row whose fields all pass but whose IBAN is invalid is reported
      with the IBAN message alone. */
  lemma InvalidIbanMessage(row: InvoiceRow, isEmail: string -> bool)
    requires forall i :: 0 <= i < 10 ==> FieldChecks(row, isEmail)[i] == Pass
    requires row.currency == Some("EUR") && !IsoIbanValid(row.destinationIban.GetOr(""))
    ensures SchemaIssues(row, isEmail) == [DestinationIbanInvalid]
  {
  }

  /** A GBP row without account number and sort code gets both messages, in
      that order, even when a field is dirty. */
  lemma MissingScanMessages(row: InvoiceRow, isEmail: string -> bool)
    requires forall i :: 0 <= i < 10 ==> !FieldChecks(row, isEmail)[i].Abort?
    requires row.currency == Some("GBP")
    requires row.destinationAccountNumber == Some("") && row.destinationSortCode == Some("")
    ensures SchemaIssues(row, isEmail)[|SchemaIssues(row, isEmail)| - 2..]
      == [DestinationAccountNumberInvalid, DestinationSortCodeInvalid]
  {
  }

  /** An aborted field hides the refinements: a row without a currency is
      reported as "Required" and with the field messages alone, whatever its
      destination fields hold. */
  lemma AbortSkipsRefinements(row: InvoiceRow, isEmail: string -> bool)
    requires row.currency.None?
    ensures "Required" in SchemaIssues(row, isEmail)
    ensures SchemaIssues(row, isEmail) == Messages(FieldChecks(row, isEmail))
  {
    var checks := FieldChecks(row, isEmail);
    assert checks[6] == Abort("Required");
    assert AnyAbort(checks);
    MessagesOf(checks, 6);
  }

  lemma {:induction false} MessagesOf(checks: seq<FieldCheck>, i: nat)
    requires i < |checks| && checks[i] != Pass
    ensures checks[i].message in Messages(checks)
  {
    if i > 0 {
      MessagesOf(checks[1..], i - 1);
    }
  }

  // ---- validateInvoices (validation.ts:136-160) ------------------------------

  datatype ValidationResult = ValidationResult(
    lineNumber: nat,
    valid: bool,
    errors: Option<seq<string>>,
    result: InvoiceRow)

  /** What `validateInvoices` reports for the row on line `lineNumber`:
      the row itself, valid exactly when every condition holds, and the
      issue messages when it is not. */
  predicate ReportsRow(r: ValidationResult, lineNumber: nat, row: InvoiceRow, isEmail: string -> bool) {
    && r.lineNumber == lineNumber && r.result == row
    && (r.valid <==> RowAcceptable(row, isEmail))
    && (r.valid ==> r.errors.None?)
    && (!r.valid ==> r.errors == Some(SchemaIssues(row, isEmail)))
  }

  /** `results` reports `rows`, one result per row and in order. */
  predicate ReportsRows(results: seq<ValidationResult>, rows: seq<InvoiceRow>, isEmail: string -> bool) {
    |results| == |rows| && forall i {:trigger results[i]} :: 0 <= i < |rows| ==> ReportsRow(results[i], i + 1, rows[i], isEmail)
  }

  /** The loop body of `validateInvoices`: one `safeParse` and its result. */
  function ValidateRow(row: InvoiceRow, lineNumber: nat, isEmail: string -> bool): (r: ValidationResult)
    ensures ReportsRow(r, lineNumber, row, isEmail)
  {
    var issues := SchemaIssues(row, isEmail);
    SchemaAcceptsIff(row, isEmail);
    if issues == [] then ValidationResult(lineNumber, true, None, row)
    else ValidationResult(lineNumber, false, Some(issues), row)
  }

  /** `validateInvoices`: one result per row, in order. */
  method ValidateInvoices(rows: seq<InvoiceRow>, isEmail: string -> bool) returns (results: seq<ValidationResult>)
    ensures ReportsRows(results, rows, isEmail)
  {
    results := [];
    for index := 0 to |rows|
      invariant |results| == index
      invariant forall i :: 0 <= i < index ==> ReportsRow(results[i], i + 1, rows[i], isEmail)
    {
      results := results + [ValidateRow(rows[index], index + 1, isEmail)];
    }
  }
}
